=== FILE: README.md ===
# WF3 Comandas client — a Dafny model

WF3 Comandas is the web client of a restaurant tab ("comanda") system.
Waiters use it to pick a table, fill a cart and send orders to the kitchen.
The kitchen watches a print queue. A manager maintains products,
categories, tables and waiters and reads a metrics dashboard. This project
models the client's sequential logic and proves what it promises:

- the cart and the order gate;
- the session held in browser storage (the signed-in user and the chosen
  waiter);
- the response envelope of the API helper;
- the toast queue;
- the access-control decisions;
- the state machines of the operational screens and of the admin screens;
- the three error-message helpers.

Every fetch, poll tick or button press is one atomic step. The step
receives the server's outcome as a parameter (`Failures.Outcome`: a value,
or the thrown value). Pages return the toasts they raise instead of pushing
them into a global queue. The queue itself is `Ui.ToastStore`.

Modules follow the source files:

| module | source file |
|---|---|
| `Storage` | `src/lib/storage.ts` |
| `OperationalStore` | `src/store/operational.ts` |
| `Auth` | `src/store/auth.ts` |
| `Ui` | `src/store/ui.ts` |
| `Api` | `src/lib/api.ts` |
| `Middleware` | `middleware.ts` |
| `Protected` | `src/components/app/Protected.tsx` |
| `RootPage` | `src/app/page.tsx` |
| `LoginPage` | `src/app/login/page.tsx` |
| `Orders` | `src/app/operational/orders/page.tsx` |
| `Overview` | `src/app/operational/overview/page.tsx` |
| `PrintQueue` | `src/app/operational/print/page.tsx` |
| `Day` | `src/app/operational/day/page.tsx` |
| `AdminProducts`, `AdminCategories`, `AdminTables`, `AdminWaiters` | `src/app/admin/{products,categories,tables,waiters}/page.tsx` |
| `Dashboard` | `src/app/admin/dashboard/page.tsx` |
| `Header` | `src/components/app/AppHeader.tsx` |

Shared modules:

| module | what it holds |
|---|---|
| `Text` | `trim`, `toLowerCase`, `includes` and the search filter |
| `Json` | a parsed body, optional chaining and `??` |
| `Lists` | filter, slice, and the record built by assigning pairs in turn |
| `Domain` | the records of `src/lib/types.ts` |
| `Routes` | the three home paths |
| `AdminForms` | what the four admin screens share |
| `ErrorMessages` | the three `getErrorMessage` variants, side by side |

## Model

| member | source | states |
|---|---|---|
| Storage.GetToken | src/lib/storage.ts:13-17 | null without storage; otherwise exactly the stored token entry |
| Storage.UserIn | src/lib/storage.ts:25-37 | a missing or empty user entry reads as null; otherwise the parse of the entry |
| Storage.GetUser | src/lib/storage.ts:25-37 | null without storage; otherwise the user read from the stored entry |
| Storage.SetToken | src/lib/storage.ts:19-23 | writes the token key and nothing else; does nothing without storage |
| Storage.SetUser | src/lib/storage.ts:39-43 | writes the serialised user under the user key and nothing else |
| Storage.SetAuth | src/lib/storage.ts:45-49 | writes the user key, then the token key |
| Storage.ClearAuth | src/lib/storage.ts:51-58 | removes exactly the token and user keys |
| Storage.WithAuth | src/lib/storage.ts:45-49 | the storage `setAuth` leaves behind: stated by `Storage.SetAuth` and `Storage.SetAuthThenRead` |
| Storage.WithoutAuth | src/lib/storage.ts:51-58 | the storage `clearAuth` leaves behind: stated by `Storage.ClearAuth`, `Storage.ClearAuthThenRead` and `Api.UnauthorizedSignsOut` |
| Storage.TokenRoundTrip | src/lib/storage.ts:13-23 | after `setToken(t)`, `getToken()` gives `t` |
| Storage.SetAuthThenRead | src/lib/storage.ts:45-49 | after `setAuth`, both reads give back what was written and every other key is untouched |
| Storage.ClearAuthThenRead | src/lib/storage.ts:51-58 | after `clearAuth`, both reads give null and every other key is untouched |
| Storage.LocalStorage.constructor | src/lib/storage.ts:7-10 | the storage object holds the given entries |
| OperationalStore.OperationalStore.constructor | src/store/operational.ts:34-36 | both waiter fields start null |
| OperationalStore.OperationalStore.Hydrate | src/store/operational.ts:38-45 | each field is read from its own key; paired storage gives paired fields |
| OperationalStore.OperationalStore.SetWaiter | src/store/operational.ts:47-51 | both keys written, both fields set to exactly the given pair |
| OperationalStore.OperationalStore.ClearWaiter | src/store/operational.ts:53-57 | both keys removed, both fields null |
| OperationalStore.WithWaiter | src/store/operational.ts:47-51 | the storage `setOperationalWaiter` leaves behind: stated by `OperationalStore.HydrateAfterSet` and `OperationalStore.SetAndClearKeepStoragePaired` |
| OperationalStore.WithoutWaiter | src/store/operational.ts:53-57 | the storage `clearOperationalWaiter` leaves behind: stated by `OperationalStore.HydrateAfterClear`, `OperationalStore.AuthAndWaiterKeysIndependent` and `Header.WithoutWaiterIdempotent` |
| OperationalStore.HydrateAfterSet | src/store/operational.ts:38-51 | hydrating after a set restores the same pair |
| OperationalStore.HydrateAfterClear | src/store/operational.ts:38-57 | hydrating after a clear yields both null |
| OperationalStore.SetAndClearKeepStoragePaired | src/store/operational.ts:47-57 | set and clear leave storage "both or neither" and touch no other key |
| OperationalStore.AuthAndWaiterKeysIndependent | src/store/operational.ts:3-4 | clearing auth keeps the waiter keys, and clearing the waiter keeps the auth keys |
| OperationalStore.HydrateCanUnpair | src/store/operational.ts:38-45 | storage holding only the id hydrates to an unpaired state |
| OperationalStore.ReloadAfterSet | src/store/operational.ts:38-51 | a fresh store over the same storage hydrates to the pair that was set |
| Auth.AuthStore.constructor | src/store/auth.ts:19-21 | user and token null, not authenticated |
| Auth.AuthStore.Hydrate | src/store/auth.ts:23-34 | token and user read back; authenticated iff a non-empty token and a user; the waiter store hydrated too |
| Auth.AuthStore.Login | src/store/auth.ts:36-53 | login data stored first; if `/me` fails the in-memory state is unchanged while storage already holds the login pair; on success authenticated with `me.user` |
| Auth.AuthStore.RefreshMe | src/store/auth.ts:55-60 | on success the user is replaced and stored, the flag raised, the token kept; a failure changes nothing |
| Auth.AuthStore.Logout | src/store/auth.ts:62-77 | whatever the server answered: the auth keys and the waiter keys cleared, every field reset |
| Auth.HydrateAfterSetAuth | src/store/auth.ts:23-30 | after `setAuth` a hydrate is authenticated iff the token is non-empty; after `clearAuth` never |
| Ui.Success | src/store/ui.ts:33-37 | success type, 2800 ms |
| Ui.Error | src/store/ui.ts:38-42 | error type, 3400 ms |
| Ui.Info | src/store/ui.ts:43-47 | info type, 2800 ms |
| Ui.WithId | src/store/ui.ts:21-27 | a pushed toast with its id: stated by `Ui.ToastStore.PushToast` and `Ui.PushThenRemove` |
| Ui.WithoutId | src/store/ui.ts:28-29 | the queue without one id: stated by `Ui.RemoveKeepsOthersInOrder` and `Ui.ToastStore.RemoveToast` |
| Ui.RemoveKeepsOthersInOrder | src/store/ui.ts:28-29 | removing an id drops exactly its toasts and keeps the rest in order; an unknown id changes nothing |
| Ui.ToastStore.constructor | src/store/ui.ts:20 | the queue starts empty |
| Ui.ToastStore.PushToast | src/store/ui.ts:21-27 | exactly one toast appended at the end |
| Ui.ToastStore.RemoveToast | src/store/ui.ts:28-29 | the queue filtered by id |
| Ui.PushThenRemove | src/store/ui.ts:21-29 | pushing under a fresh id and removing that id restores the queue |
| Api.HeadersInitToRecord | src/lib/api.ts:24-47 | `{}` for no headers; otherwise the record built from the visited pairs, the last duplicate winning |
| Api.HeaderPrecedence | src/lib/api.ts:72-77 | the caller overrides the JSON content type; a present token overrides any caller `Authorization` with the RFC 6750 bearer form; other caller headers are sent as given |
| Api.RequestHeaders | src/lib/api.ts:72-77 | the merged request headers: stated by `Api.HeaderPrecedence` and `Api.ApiFetch` |
| Api.ParsedBody | src/lib/api.ts:84-91 | a parsed value exactly when the text was JSON; empty or invalid text is null |
| Api.IsApiErrorResponse | src/lib/api.ts:49-61 | the error-envelope guard: stated by `Api.GuardsExclusive`, `Api.EnvelopeMessage` and `Api.BlankEnvelopeMessageIsInvalid` |
| Api.IsApiSuccessResponse | src/lib/api.ts:63-67 | the success-envelope guard: stated by `Api.GuardsExclusive` and `Api.Decide` |
| Api.GuardsExclusive | src/lib/api.ts:49-67 | no value passes both envelope guards |
| Api.EnvelopeMessage | src/lib/api.ts:105-106 | the message of an accepted error envelope is never blank |
| Api.HttpErrorMessage | src/lib/api.ts:105-107 | the message thrown outside 2xx is never blank |
| Api.NotBlankWhenFirstNotSpace | src/lib/api.ts:107 | a text starting with a non-space character is not blank |
| Api.Decide | src/lib/api.ts:93-116 | data is returned iff the status is 2xx and the body is a success envelope, and then it is its `data`; every thrown message is non-blank |
| Api.NonOkMessage | src/lib/api.ts:105-108 | outside 2xx: the envelope's message when the error guard holds, else "Erro HTTP <status>" |
| Api.OkWithoutBodyIsInvalid | src/lib/api.ts:111 | a 2xx answer with an empty or non-JSON body is "Resposta inválida do servidor." |
| Api.OkEnvelopeCases | src/lib/api.ts:112-114 | a 2xx error envelope throws its message; a body matching neither guard is an invalid response |
| Api.BlankEnvelopeMessageIsInvalid | src/lib/api.ts:60 | an error envelope with a blank message fails the guard, so a 2xx answer with one is invalid |
| Api.SessionExpiredNotice | src/lib/api.ts:97 | the 401 notice is an info toast "Sessão" |
| Api.ApiFetch | src/lib/api.ts:69-117 | the headers sent, the decided result, and on 401 the session notice and exactly the auth keys removed; other statuses leave storage alone |
| Api.UnauthorizedSignsOut | src/lib/api.ts:95-96 | after a 401 a later hydrate finds no token and no user |
| Routes.HomeFor | middleware.ts:21-22 | the manager home is under `/admin`, every other home under `/operational` |
| Routes.PrefixesDisjoint | middleware.ts:18-33 | `/login`, `/admin` and `/operational` exclude each other as prefixes |
| Middleware.DeleteParam | middleware.ts:7 | removes every pair with that name and keeps every other parameter |
| Middleware.SetParam | middleware.ts:7 | `searchParams.set`: exactly one pair with that value; the other parameters are untouched |
| Middleware.GetParam | middleware.ts:7 | the first value of a query parameter, which observes the redirect: stated by `Middleware.DeleteParam`, `Middleware.SetParam` and `Middleware.RedirectToLogin` |
| Middleware.RedirectToLogin | middleware.ts:4-9 | path `/login`, `next` set to the original path, other parameters kept |
| Middleware.Cookie | middleware.ts:15-16 | a cookie's value, or none: stated by `Middleware.AdminAccess`, `Middleware.OperationalAccess` and `Middleware.LoginBounce` |
| Middleware.SignedIn | middleware.ts:15 | the auth cookie is exactly "1": stated by `Middleware.AdminAccess`, `Middleware.OperationalAccess` and `Middleware.SignedOutIsDenied` |
| Middleware.Route | middleware.ts:11-40 | `middleware(req)`: its contract is stated by `Middleware.LoginBounce`, `Middleware.AdminAccess`, `Middleware.OperationalAccess`, `Middleware.OtherPathsPass`, `Middleware.SignedOutIsDenied` and `Middleware.UnknownRoleBouncesBack` |
| Middleware.AdminAccess | middleware.ts:28-31 | `/admin` passes iff the auth cookie is "1" and the role is MANAGER; otherwise the redirect to login |
| Middleware.OperationalAccess | middleware.ts:33-37 | `/operational` passes iff signed in as MANAGER or WAITER; otherwise the redirect to login |
| Middleware.LoginBounce | middleware.ts:18-26 | on `/login`, signed in with a non-empty role: MANAGER to the dashboard, anything else to the overview; otherwise pass |
| Middleware.OtherPathsPass | middleware.ts:39 | paths outside the three prefixes pass |
| Middleware.SignedOutIsDenied | middleware.ts:15 | an auth cookie other than "1" is denied under both guarded prefixes |
| Middleware.BounceTargetPasses | middleware.ts:18-37 | for either known role, the home the login page bounces to passes |
| Middleware.UnknownRoleBouncesBack | middleware.ts:18-37 | an unknown role is sent from `/login` to the overview and from the overview back to login |
| Protected.RedirectTarget | src/components/app/Protected.tsx:22-30 | signed out goes to `/login`; signed in but not allowed goes to the home of the user's role (the dashboard for a manager, the overview for anyone else, a missing user included); an allowed user is not redirected; only a manager is sent to the dashboard |
| Protected.LayoutAllow | src/app/admin/layout.tsx:8 | the roles each layout admits (MANAGER under `/admin`, MANAGER and WAITER under `/operational`): stated by `Protected.HomeAdmits`, `Protected.WaiterLeavesAdmin` and `Protected.OperationalAdmitsEveryRole` |
| Protected.Allowed | src/components/app/Protected.tsx:27 | a user whose role the layout admits: stated by `Protected.RedirectTarget` |
| Protected.Renders | src/components/app/Protected.tsx:32-40 | the children render: stated by `Protected.RenderIffNoRedirect`, `Protected.WaiterLeavesAdmin` and `Protected.HomeAdmits` |
| Protected.RenderIffNoRedirect | src/components/app/Protected.tsx:22-40 | the children render exactly when no redirect is issued |
| Protected.WaiterLeavesAdmin | src/components/app/Protected.tsx:27-29 | a waiter in the admin layout is not rendered and goes to the overview |
| Protected.OperationalAdmitsEveryRole | src/app/operational/layout.tsx:8 | the operational layout renders for both roles |
| Protected.HomeAdmits | src/components/app/Protected.tsx:27-29 | a user's home renders for that user, so the gate cannot loop |
| RootPage.RootTarget | src/app/page.tsx:15-22 | signed out to `/login`, a manager to the dashboard, anyone else to the overview |
| RootPage.RootTargetIsRendered | src/app/page.tsx:20-21 | the root's target agrees with the gate's and is rendered for the user |
| RootPage.Mount | src/app/page.tsx:11-22 | the stores are hydrated, then the target is chosen from what was read back |
| LoginPage.Issues | src/app/login/page.tsx:12-15 | each check reports its issue exactly when it fails (invalid e-mail, e-mail over 255, password under 6, password over 72); no issue iff the input is valid; issues in schema order |
| LoginPage.IssueText | src/app/login/page.tsx:38 | the first issue's message, or "Dados inválidos" |
| LoginPage.AfterLoginTarget | src/app/login/page.tsx:46-53 | a non-empty `next` wins; otherwise the home of the role |
| LoginPage.PasswordBoundsInclusive | src/app/login/page.tsx:14 | lengths 6 and 72 pass; 5 and 73 fail with the matching issue |
| LoginPage.AfterLoginLandsHome | src/app/login/page.tsx:49-53 | without `next` the user lands on a page the gate renders |
| LoginPage.LoginPage.constructor | src/app/login/page.tsx:26 | not loading, no navigation yet |
| LoginPage.LoginPage.Submit | src/app/login/page.tsx:34-59 | invalid input gives one validation toast and changes nothing; otherwise login runs: on success the store holds the `/auth/me` user and the login token, storage holds the login pair with the user key rewritten, and it navigates; a failed login call leaves the store and storage untouched; a failed `/auth/me` leaves the store untouched while storage already holds the login pair; loading ends false |
| Orders.Put | src/app/operational/orders/page.tsx:141 | sets one key; an existing key keeps its place and a new key goes last; other keys unchanged |
| Orders.Get | src/app/operational/orders/page.tsx:141 | `c[productId] ?? 0`: stated by `Orders.IncEffect`, `Orders.DecEffect` and `Orders.DecOnAbsent` |
| Orders.Inc | src/app/operational/orders/page.tsx:140-142 | `inc(p)`: stated by `Orders.IncEffect` and `Orders.IncAddsUnitPrice` |
| Orders.Dec | src/app/operational/orders/page.tsx:143-148 | `dec(p)`: stated by `Orders.DecEffect`, `Orders.DecOnAbsent`, `Orders.FloorIsPerStep`, `Orders.DecRemovesUnitPrice` and `Orders.DecAtZeroKeepsTotal` |
| Orders.IncEffect | src/app/operational/orders/page.tsx:140-142 | one more unit, an absent key counting as 0; nothing else changes |
| Orders.DecEffect | src/app/operational/orders/page.tsx:143-148 | max(0, old − 1); the key stays; nothing else changes; no negative quantity |
| Orders.DecOnAbsent | src/app/operational/orders/page.tsx:143-148 | `dec` on a product never added records it at 0 |
| Orders.FloorIsPerStep | src/app/operational/orders/page.tsx:143-148 | `dec` then `inc` on a fresh product gives 1, not max(0, net) = 0 |
| Orders.ProductPairs | src/app/operational/orders/page.tsx:121 | one (id, name and price) pair per product, in order |
| Orders.BuildMenuIndex | src/app/operational/orders/page.tsx:120-121 | the nested loop builds the index in which a later product id wins |
| Orders.MenuIndex | src/app/operational/orders/page.tsx:120-121 | the product index, a later id winning: stated by `Orders.BuildMenuIndex`, `Orders.MenuPairsStep` and `Orders.IndexStep` |
| Orders.MenuPairsStep | src/app/operational/orders/page.tsx:121 | one more category appends its products' pairs after those of the earlier categories |
| Orders.IndexStep | src/app/operational/orders/page.tsx:121 | one more product sets its id to its name and price, over any earlier entry for that id |
| Orders.ItemFor | src/app/operational/orders/page.tsx:125-132 | a known product's name and price, otherwise "Produto" and "0" |
| Orders.Snapshot | src/app/operational/orders/page.tsx:119-134 | `cartItems.items`: the contract of `Orders.SnapshotOf` on the cart's keys, with `Orders.AllZeroSnapshotEmpty` and `Orders.PutTotal` |
| Orders.SnapshotOf | src/app/operational/orders/page.tsx:123-133 | the lines are exactly the listed keys with quantity > 0, in key order |
| Orders.AllZeroSnapshotEmpty | src/app/operational/orders/page.tsx:124 | a cart of zero quantities lists nothing |
| Orders.Total | src/app/operational/orders/page.tsx:135 | `cartItems.total`: stated by `Orders.TotalAppend`, `Orders.TotalRewrite`, `Orders.PutTotal`, `Orders.IncAddsUnitPrice` and `Orders.DecRemovesUnitPrice` |
| Orders.TotalAppend | src/app/operational/orders/page.tsx:135 | the total of joined line lists is the sum of their totals |
| Orders.SnapshotIgnoresUnlisted | src/app/operational/orders/page.tsx:123 | a quantity for an unlisted key does not appear |
| Orders.SnapshotSnoc | src/app/operational/orders/page.tsx:123-133 | one more key adds its line, if any, at the end |
| Orders.TotalRewrite | src/app/operational/orders/page.tsx:135 | rewriting one quantity replaces only that product's contribution |
| Orders.TotalSnapshotStep | src/app/operational/orders/page.tsx:135 | the total is the first product's contribution plus the total of the remaining products |
| Orders.PutTotal | src/app/operational/orders/page.tsx:135-141 | writing a quantity changes the total by exactly the change in that contribution |
| Orders.ContributionIsUnits | src/app/operational/orders/page.tsx:135 | a positive quantity contributes that many unit prices |
| Orders.IncAddsUnitPrice | src/app/operational/orders/page.tsx:135-142 | `inc` adds exactly one unit price to the total |
| Orders.DecRemovesUnitPrice | src/app/operational/orders/page.tsx:135-148 | `dec` on a product in the cart removes exactly one unit price |
| Orders.DecAtZeroKeepsTotal | src/app/operational/orders/page.tsx:143-148 | `dec` at 0 leaves the total unchanged |
| Orders.CentsText | src/app/operational/orders/page.tsx:137 | `toFixed(2)`: digits, a point, exactly two digits, with a leading minus sign before the digits of a negative total |
| Orders.UnsignedCentsText | src/app/operational/orders/page.tsx:137 | the unsigned form: digits, a point, two digits |
| Orders.CentsTextRoundTrip | src/app/operational/orders/page.tsx:137 | the shown total reads back as the exact total in cents |
| Orders.UnsignedCentsRoundTrip | src/app/operational/orders/page.tsx:137 | the digits before the point and the two after it read back as the unsigned number of cents |
| Orders.TableOptions | src/app/operational/orders/page.tsx:101-106 | one option per row, valued by the table id, labelled "Mesa <name>", marked " (aberta)" iff the comanda id is truthy |
| Orders.DefaultTable | src/app/operational/orders/page.tsx:84 | a set selection is kept; otherwise the first row's table id when it is truthy |
| Orders.FindCategory | src/app/operational/orders/page.tsx:108-110 | the first category with that id, or none |
| Orders.FirstCategoryId | src/app/operational/orders/page.tsx:70 | none iff the menu is empty; otherwise the first category |
| Orders.VisibleProducts | src/app/operational/orders/page.tsx:112-117 | the active category's products matching the trimmed, case-insensitive search, in order |
| Orders.NoteField | src/app/operational/orders/page.tsx:174 | the trimmed note, or omitted when blank |
| Orders.Lines | src/app/operational/orders/page.tsx:175 | one (productId, quantity) per snapshot line, in order |
| Orders.OrdersPage.constructor | src/app/operational/orders/page.tsx:28-46 | the initial state: empty form, menu and tables loading |
| Orders.OrdersPage.IncProduct | src/app/operational/orders/page.tsx:140-142 | the cart becomes `Inc`; the other fields are unchanged |
| Orders.OrdersPage.DecProduct | src/app/operational/orders/page.tsx:143-148 | the cart becomes `Dec`; the other fields are unchanged |
| Orders.OrdersPage.ClearOrderForm | src/app/operational/orders/page.tsx:150-154 | cart, note and search reset together; the table is kept |
| Orders.OrdersPage.WaiterGate | src/app/operational/orders/page.tsx:49-51 | without a waiter the selector opens |
| Orders.NoWaiter | src/app/operational/orders/page.tsx:157 | `!operationalWaiterId`: stated by `Orders.OrdersPage.WaiterGate`, `Orders.OrdersPage.CloseWaiterSelector` and `Orders.OrdersPage.SendOrder` |
| Orders.OrdersPage.CloseWaiterSelector | src/app/operational/orders/page.tsx:352 | the selector closes only once a waiter is set |
| Orders.OrdersPage.SelectWaiter | src/app/operational/orders/page.tsx:374-378 | stores the waiter pair, toasts "Selecionado: <name>", closes the selector |
| Orders.OrdersPage.ClearWaiterSelection | src/app/operational/orders/page.tsx:392-395 | clears the waiter and toasts "Seleção removida." |
| Orders.OrdersPage.LoadWaiters | src/app/operational/orders/page.tsx:53-63 | success replaces the list; failure toasts the message or the fallback; loading ends false |
| Orders.OrdersPage.LoadMenu | src/app/operational/orders/page.tsx:65-76 | success replaces the menu and shows its first category; failure toasts |
| Orders.OrdersPage.LoadTables | src/app/operational/orders/page.tsx:78-90 | success replaces the rows and picks the default table; failure toasts; loading ends false |
| Orders.OrdersPage.CartItems | src/app/operational/orders/page.tsx:119-138 | the snapshot of the cart over the menu index, and its total |
| Orders.OrdersPage.SendOrder | src/app/operational/orders/page.tsx:156-187 | gates in order (waiter, table, items), each returning before the call with the form, the confirmation, the tables and the menu untouched (the selector opened by the first gate only); on success the lines equal the snapshot, the note is trimmed or omitted, the form is cleared and the tables reloaded once; on failure the cart and note are untouched; `sending` ends false |
| Orders.OrdersPage.Send | src/app/operational/orders/page.tsx:170-186 | the request after the gates: on success the form is cleared, confirmation closed, the tables reloaded and "Pedido enviado para a cozinha." shown before any reload error; on failure the form is untouched and the error message or "Falha ao enviar pedido" shown; `sending` ends false |
| Overview.OpenComandaId | src/app/operational/overview/page.tsx:58 | the comanda id when it is truthy, else none |
| Overview.ActiveCount | src/app/operational/overview/page.tsx:51 | `activeCount`: stated by `Overview.ActiveCountFacts` |
| Overview.ActiveCountFacts | src/app/operational/overview/page.tsx:51 | at most the row count; 0 iff no row has a comanda; all iff every row does; a new row adds 1 iff it has one |
| Overview.TotalText | src/app/operational/overview/page.tsx:117 | a free table shows "0"; otherwise the partial total |
| Overview.OverviewPage.constructor | src/app/operational/overview/page.tsx:17-28 | no rows, loading, no error, drawer and dialog closed |
| Overview.OverviewPage.FetchOverview | src/app/operational/overview/page.tsx:30-40 | success replaces the rows and clears the error; failure keeps the rows and sets the message or "Falha ao carregar overview"; loading ends false; the drawer is untouched |
| Overview.OverviewPage.OpenTable | src/app/operational/overview/page.tsx:53-69 | selects the row, opens the drawer, clears the detail; requests detail only for a truthy comanda id; on failure the detail stays null and a toast is raised |
| Overview.OverviewPage.CloseDrawer | src/app/operational/overview/page.tsx:145 | closes the drawer and keeps the selection |
| Overview.OverviewPage.SetConfirmClose | src/app/operational/overview/page.tsx:170 | opens or cancels the close confirmation |
| Overview.OverviewPage.CloseComanda | src/app/operational/overview/page.tsx:71-86 | nothing without an open comanda; success closes the dialog and the drawer, toasts the total and refetches once; failure keeps the drawer; `closing` ends false |
| Overview.ViewOf | src/app/operational/overview/page.tsx:102-112 | the spinner exactly while loading; the error card only for a non-empty error text, showing it; otherwise the grid of the current rows |
| Overview.EmptyMessageShowsStaleGrid | src/app/operational/overview/page.tsx:36 | an `Error` with an empty message sets an empty error text, so the stale grid is shown |
| PrintQueue.TableLabel | src/app/operational/print/page.tsx:71 | a missing table name shows "—" |
| PrintQueue.WaiterLabel | src/app/operational/print/page.tsx:76 | a missing waiter name shows "—" |
| PrintQueue.NoteLine | src/app/operational/print/page.tsx:85-89 | the note line appears only for a truthy note |
| PrintQueue.ItemRows | src/app/operational/print/page.tsx:92 | missing or null items give an empty list; otherwise the array |
| PrintQueue.SubtotalOf | src/app/operational/print/page.tsx:97 | a missing subtotal shows "0"; a null item cannot be read |
| PrintQueue.EmptyPayloadDefaults | src/app/operational/print/page.tsx:71-92 | an empty or null payload shows "—", "—", no note and no items |
| PrintQueue.OrderPayload | src/app/operational/print/page.tsx:71-92 | the payload shape the page reads: stated by `PrintQueue.PayloadMembers` and `PrintQueue.PayloadReadBack` |
| PrintQueue.PayloadReadBack | src/app/operational/print/page.tsx:71-92 | an order payload's fields are shown as written |
| PrintQueue.PayloadMembers | src/app/operational/print/page.tsx:71-92 | the table, waiter, note and items of an order payload are found under their own keys |
| PrintQueue.ViewOf | src/app/operational/print/page.tsx:57-64 | the job list is shown only for a non-empty list |
| PrintQueue.PrintPage.constructor | src/app/operational/print/page.tsx:15-16 | no jobs, loading |
| PrintQueue.PrintPage.FetchJobs | src/app/operational/print/page.tsx:18-25 | success replaces the jobs; failure keeps them and propagates; loading ends false |
| PrintQueue.PrintPage.MarkPrinted | src/app/operational/print/page.tsx:35-43 | the mark request names the given job id; refetches iff the mark succeeded; a failed mark toasts and does not refetch; a failed refetch toasts after the success toast |
| Day.Filtered | src/app/operational/day/page.tsx:33-40 | `filtered`: stated by `Day.FilteredSpec`, `Day.FilteredStatus`, `Day.FilteredSnoc`, `Day.FilteredCount` and `Day.OpenAndClosedPartition` |
| Day.PassesStatus | src/app/operational/day/page.tsx:35 | the status filter: stated by `Day.FilteredSpec`, `Day.FilteredStatus` and `Day.ListedPartition` |
| Day.FilteredSpec | src/app/operational/day/page.tsx:33-40 | a row is listed iff it passes the status filter and the trimmed case-insensitive search; order preserved; ALL with a blank query lists all |
| Day.FilteredInOrder | src/app/operational/day/page.tsx:33-40 | the two filters in turn keep the rows in their original order |
| Day.UnfilteredListsAll | src/app/operational/day/page.tsx:35-39 | "ALL" with a blank search lists every row |
| Day.FilteredStatus | src/app/operational/day/page.tsx:35 | OPEN and CLOSED list only rows with that status |
| Day.FilteredSnoc | src/app/operational/day/page.tsx:33-40 | a new row is listed at the end iff it passes both filters |
| Day.OpenAndClosedPartition | src/app/operational/day/page.tsx:35 | the OPEN and CLOSED results together number as many as ALL |
| Day.FilteredCount | src/app/operational/day/page.tsx:33-40 | the number of listed rows is the number of rows passing both the status filter and the search |
| Day.ListedPartition | src/app/operational/day/page.tsx:35 | a row passes OPEN or CLOSED, never both, exactly when it passes ALL, so the counts add up |
| Day.DayPage.constructor | src/app/operational/day/page.tsx:14-17 | no rows, loading, ALL, no search |
| Day.DayPage.FetchDay | src/app/operational/day/page.tsx:19-27 | success replaces the rows; failure keeps them and propagates; loading ends false |
| Day.DayPage.SetFilter | src/app/operational/day/page.tsx:55-60 | sets the filter only |
| Day.DayPage.SetQuery | src/app/operational/day/page.tsx:69 | sets the query only |
| AdminForms.SearchByNameSpec | src/app/admin/products/page.tsx:57-61 | a row is kept iff its lower-cased name includes the trimmed lower-cased query; order preserved; a blank query keeps all |
| AdminForms.SearchByName | src/app/admin/products/page.tsx:57-61 | the `filtered` search of the four admin pages: stated by `AdminForms.SearchByNameSpec` |
| AdminForms.OmitBlank | src/app/admin/products/page.tsx:105 | none iff blank; otherwise the trimmed text |
| AdminForms.BlankAsEmpty | src/app/admin/products/page.tsx:115 | "" when blank; otherwise the trimmed text |
| AdminForms.CreateAndUpdateText | src/app/admin/products/page.tsx:102-119 | the update text is always the trimmed text; the two agree on non-blank texts |
| AdminProducts.CategoryOptions | src/app/admin/products/page.tsx:51-55 | one option per active category, in the categories' order (the filter keeps exactly the active ones as a subsequence), each with the category's id and name |
| AdminProducts.CategoryOptionsSpec | src/app/admin/products/page.tsx:51-55 | the options are exactly the active categories; empty iff none is active; the first option is the first active category |
| AdminProducts.CategoryOptionsMembers | src/app/admin/products/page.tsx:51-55 | a category is offered iff it is active |
| AdminProducts.FirstCategoryOption | src/app/admin/products/page.tsx:65 | the first option, the one a new product preselects, is the first active category |
| AdminProducts.CreateForm | src/app/admin/products/page.tsx:63-72 | a blank active form, price "0", on the first option or "" |
| AdminProducts.EditForm | src/app/admin/products/page.tsx:74-83 | the row's fields, null description and image as "" |
| AdminProducts.Issue | src/app/admin/products/page.tsx:85-98 | accepted iff a non-blank name, a category and a finite price > 0; checked in that order |
| AdminProducts.SaveRequest | src/app/admin/products/page.tsx:100-121 | the create or update payload: stated by `AdminProducts.PayloadsDiffer` and `AdminProducts.EditThenSaveSendsRowBack`, and by the contract of `AdminProducts.ProductsPage.Save` |
| AdminProducts.PayloadsDiffer | src/app/admin/products/page.tsx:100-121 | name trimmed in both; blank optional texts omitted on create and sent as "" on update |
| AdminProducts.FreshPriceRefused | src/app/admin/products/page.tsx:68 | a fresh form is refused for its price until the price is changed |
| AdminProducts.EditThenSaveSendsRowBack | src/app/admin/products/page.tsx:74-121 | editing a well-formed row and saving it untouched sends the row back |
| AdminProducts.ProductsPage.constructor | src/app/admin/products/page.tsx:17-32 | nothing loaded, loading, the default form |
| AdminProducts.LoadToasts | src/app/admin/products/page.tsx:34-45 | no toast iff both requests succeed; otherwise one "Produtos" error toast |
| AdminProducts.ProductsPage.Load | src/app/admin/products/page.tsx:34-45 | both lists replaced only if both requests succeed; otherwise one toast with the rejection; loading ends false |
| AdminProducts.ProductsPage.StartCreate | src/app/admin/products/page.tsx:63-72 | the create form on the current options, modal open |
| AdminProducts.ProductsPage.SetForm | src/app/admin/products/page.tsx:65-70 | the six inputs of the modal take the given form; the lists, the modal and the confirmation are untouched |
| AdminProducts.ProductsPage.StartEdit | src/app/admin/products/page.tsx:74-83 | the edit form of the row, modal open |
| AdminProducts.ProductsPage.Save | src/app/admin/products/page.tsx:85-127 | a refused form toasts its issue and sends nothing; otherwise the create or update request; success closes and reloads, both lists replaced when both requests succeed and both kept otherwise; failure keeps the modal and both lists |
| AdminProducts.ProductsPage.Submit | src/app/admin/products/page.tsx:100-126 | the request of a valid form: success toasts "Criado." or "Atualizado." as the request is a create or an update, closes the modal and reloads, both lists replaced when both requests succeed and both kept otherwise; failure keeps the modal and both lists and toasts the message or "Falha ao salvar"; the form is untouched |
| AdminProducts.ProductsPage.SetConfirmDisable | src/app/admin/products/page.tsx:172 | sets or clears the row to disable |
| AdminProducts.ProductsPage.DisableConfirmed | src/app/admin/products/page.tsx:129-139 | nothing without a selection; success clears it and reloads, both lists replaced when both requests succeed and both kept otherwise; failure keeps the selection and both lists |
| AdminCategories.EditForm | src/app/admin/categories/page.tsx:75-81 | the sort order text is empty iff the row has no sort order |
| AdminCategories.SortOrderValue | src/app/admin/categories/page.tsx:89-90 | no number iff the text is blank |
| AdminCategories.Issue | src/app/admin/categories/page.tsx:84-95 | accepted iff a non-blank name and no order or a finite order ≥ 0; name checked first |
| AdminCategories.SaveRequest | src/app/admin/categories/page.tsx:97-111 | update when editing, else create, with the payload of `AdminCategories.Payload`; stated by `AdminCategories.EditThenSaveKeepsOrder` and the contract of `AdminCategories.CategoriesPage.Save` |
| AdminCategories.Payload | src/app/admin/categories/page.tsx:99-110 | trimmed name; the order omitted iff its text is blank |
| AdminCategories.EditThenSaveKeepsOrder | src/app/admin/categories/page.tsx:75-110 | editing and saving untouched sends the same order back; an unset order stays unset |
| AdminCategories.NegativeOrderRefused | src/app/admin/categories/page.tsx:92 | a stored negative order cannot be re-saved unchanged |
| AdminCategories.CategoriesPage.constructor | src/app/admin/categories/page.tsx:33-43 | nothing loaded, loading, a blank form |
| AdminCategories.LoadToasts | src/app/admin/categories/page.tsx:45-55 | no toast iff the request succeeds; otherwise one "Categorias" error toast |
| AdminCategories.CategoriesPage.Load | src/app/admin/categories/page.tsx:45-55 | success replaces the rows; failure toasts the categories message; loading ends false |
| AdminCategories.CategoriesPage.StartCreate | src/app/admin/categories/page.tsx:67-73 | a blank active form, modal open |
| AdminCategories.CategoriesPage.StartEdit | src/app/admin/categories/page.tsx:75-81 | the edit form of the row, modal open |
| AdminCategories.CategoriesPage.Save | src/app/admin/categories/page.tsx:83-119 | a refused form toasts its issue and sends nothing; update when editing, else create; success closes and reloads |
| AdminCategories.CategoriesPage.Submit | src/app/admin/categories/page.tsx:97-118 | the request of a valid form: success toasts "Atualizada." for an update and "Criada." for a create, closes and reloads; failure keeps the modal and toasts the error message; the form is untouched |
| AdminCategories.CategoriesPage.SetConfirmDisable | src/app/admin/categories/page.tsx:166 | sets or clears the row to disable |
| AdminCategories.CategoriesPage.DisableConfirmed | src/app/admin/categories/page.tsx:121-132 | nothing without a selection; success clears it and reloads |
| AdminTables.EditForm | src/app/admin/tables/page.tsx:57-63 | the row's fields, a null description as "" |
| AdminTables.SaveRequest | src/app/admin/tables/page.tsx:72-85 | trimmed name; create omits a blank description; update sends the trimmed description, "" when blank |
| AdminTables.EditThenSaveSendsRowBack | src/app/admin/tables/page.tsx:57-85 | editing a well-formed table and saving it untouched sends it back |
| AdminTables.TablesPage.constructor | src/app/admin/tables/page.tsx:14-25 | nothing loaded, loading, a blank form |
| AdminTables.LoadToasts | src/app/admin/tables/page.tsx:27-37 | no toast iff the request succeeds; otherwise one "Mesas" error toast |
| AdminTables.TablesPage.Load | src/app/admin/tables/page.tsx:27-37 | success replaces the rows; failure toasts; loading ends false |
| AdminTables.TablesPage.StartCreate | src/app/admin/tables/page.tsx:49-55 | a blank active form, modal open |
| AdminTables.TablesPage.StartEdit | src/app/admin/tables/page.tsx:57-63 | the edit form of the row, modal open |
| AdminTables.TablesPage.Save | src/app/admin/tables/page.tsx:65-92 | a blank name toasts "Nome/número é obrigatório." and sends nothing; otherwise the request; success closes and reloads; failure keeps the modal |
| AdminTables.TablesPage.Submit | src/app/admin/tables/page.tsx:71-91 | the request of a valid form: success toasts "Criada." or "Atualizada.", closes and reloads; failure keeps the modal and rows and toasts the message or "Falha ao salvar"; the form is untouched |
| AdminTables.TablesPage.SetConfirmDisable | src/app/admin/tables/page.tsx:136 | sets or clears the row to disable |
| AdminTables.TablesPage.DisableConfirmed | src/app/admin/tables/page.tsx:94-104 | nothing without a selection; success clears it and reloads |
| AdminWaiters.EditForm | src/app/admin/waiters/page.tsx:55-60 | the form takes the row's name and active flag |
| AdminWaiters.SaveRequest | src/app/admin/waiters/page.tsx:69-74 | the payload is always {trimmed name, isActive}; update iff editing |
| AdminWaiters.EditThenSaveSendsRowBack | src/app/admin/waiters/page.tsx:55-74 | saving an edited waiter untouched sends its trimmed name and flag |
| AdminWaiters.WaitersPage.constructor | src/app/admin/waiters/page.tsx:14-24 | nothing loaded, loading, a blank form |
| AdminWaiters.LoadToasts | src/app/admin/waiters/page.tsx:26-36 | no toast iff the request succeeds; otherwise one "Garçons" error toast |
| AdminWaiters.WaitersPage.Load | src/app/admin/waiters/page.tsx:26-36 | success replaces the rows; failure toasts; loading ends false |
| AdminWaiters.WaitersPage.StartCreate | src/app/admin/waiters/page.tsx:48-53 | a blank active form, modal open |
| AdminWaiters.WaitersPage.StartEdit | src/app/admin/waiters/page.tsx:55-60 | the edit form of the row, modal open |
| AdminWaiters.WaitersPage.Save | src/app/admin/waiters/page.tsx:62-81 | a blank name is refused before any call; success closes and reloads; failure keeps the modal |
| AdminWaiters.WaitersPage.Submit | src/app/admin/waiters/page.tsx:68-80 | the request of a valid form: success toasts "Criado." or "Atualizado.", closes and reloads; failure keeps the modal and rows and toasts the message or "Falha ao salvar"; the form is untouched |
| AdminWaiters.WaitersPage.SetConfirmDisable | src/app/admin/waiters/page.tsx:128 | sets or clears the row to disable |
| AdminWaiters.WaitersPage.DisableConfirmed | src/app/admin/waiters/page.tsx:83-93 | nothing without a selection; success clears it and reloads |
| ErrorMessages.DashboardMessage | src/app/admin/dashboard/page.tsx:50-60 | an Error gives its message even if blank; a string gives itself; an object with a string message gives it; else the fallback |
| ErrorMessages.CategoriesMessage | src/app/admin/categories/page.tsx:14-26 | the same cases with "Falha inesperada" as the fallback |
| ErrorMessages.HeaderMessage | src/components/app/AppHeader.tsx:15-26 | only a non-blank string message of an Error or object; strings and other values give null |
| ErrorMessages.CategoriesIsDashboardWithUnexpected | src/app/admin/categories/page.tsx:14-26 | the categories helper is the dashboard helper with its fallback fixed |
| ErrorMessages.HeaderAgreesWhenItAnswers | src/components/app/AppHeader.tsx:15-26 | when the header helper answers, the others give the same message |
| ErrorMessages.HeaderAnswersIff | src/components/app/AppHeader.tsx:15-26 | the header helper answers iff an Error or object carries a non-blank message |
| ErrorMessages.WhereTheyDiffer | src/app/admin/dashboard/page.tsx:50-60 | a thrown string and a blank Error message are where the helpers part |
| ErrorMessages.MessageOrIsDashboardExceptStrings | src/app/admin/dashboard/page.tsx:50-60 | for anything but a thrown string, `e?.message ?? fallback` equals the dashboard helper |
| Dashboard.Revenue | src/app/admin/dashboard/page.tsx:105 | `summary?.revenue ?? "0"`: stated by `Dashboard.DefaultsWithoutSummary` and `Dashboard.SummaryShownAsSent` |
| Dashboard.TicketAverage | src/app/admin/dashboard/page.tsx:106 | `summary?.ticketAverage ?? "0"`: stated by `Dashboard.DefaultsWithoutSummary` and `Dashboard.SummaryShownAsSent` |
| Dashboard.OpenCount | src/app/admin/dashboard/page.tsx:107 | `summary?.comandas?.open ?? 0`: stated by `Dashboard.DefaultsWithoutSummary` and `Dashboard.SummaryShownAsSent` |
| Dashboard.ClosedCount | src/app/admin/dashboard/page.tsx:108 | `summary?.comandas?.closed ?? 0`: stated by `Dashboard.DefaultsWithoutSummary` and `Dashboard.SummaryShownAsSent` |
| Dashboard.DefaultsWithoutSummary | src/app/admin/dashboard/page.tsx:105-108 | with no summary, revenue and ticket average are "0" and both counts 0 |
| Dashboard.SummaryShownAsSent | src/app/admin/dashboard/page.tsx:105-108 | a complete summary is shown as sent; a zero count is kept |
| Dashboard.ChartsShowFirstRows | src/app/admin/dashboard/page.tsx:184-219 | at most 8 top products and 6 listed waiters; the list is the head of the 12-row chart |
| Dashboard.LoadToasts | src/app/admin/dashboard/page.tsx:93-95 | no toast iff all four requests succeed; otherwise one "Dashboard" toast with the rejection's message |
| Dashboard.DashboardPage.constructor | src/app/admin/dashboard/page.tsx:63-75 | loading; no summary; empty lists |
| Dashboard.DashboardPage.SetRange | src/app/admin/dashboard/page.tsx:114-117 | sets the range only |
| Dashboard.DashboardPage.Load | src/app/admin/dashboard/page.tsx:77-98 | the range requested; all four datasets replaced only if all four succeed, otherwise all kept; loading ends false |
| Dashboard.FailedFirstLoad | src/app/admin/dashboard/page.tsx:77-108 | a failed first load shows the default cards, empty charts and one error toast |
| Header.Subtitle | src/components/app/AppHeader.tsx:58-66 | the line under the title: stated by `Header.SubtitleParts` |
| Header.SubtitleParts | src/components/app/AppHeader.tsx:58-66 | e-mail and role first; the waiter is appended iff the header is operational and the name is non-empty |
| Header.RefreshErrorMessage | src/components/app/AppHeader.tsx:43 | the helper's message, else "Falha ao atualizar" |
| Header.RefreshMessageNeverBlank | src/components/app/AppHeader.tsx:43 | a refresh failure never shows a blank message |
| Header.OnLogout | src/components/app/AppHeader.tsx:32-36 | logout, then the waiter cleared again (changing nothing), then the info toast |
| Header.WithoutWaiterIdempotent | src/components/app/AppHeader.tsx:34 | removing the waiter keys a second time leaves storage as the first removal left it |
| Header.OnRefresh | src/components/app/AppHeader.tsx:38-45 | on success the user is replaced and stored, the token kept, and "Dados atualizados." toasted; on failure the store and storage are untouched and the message or fallback toasted |
| Text.Trim | src/app/admin/products/page.tsx:58 | the text with only white space removed, and only before and after a contiguous middle part that neither starts nor ends with white space |
| Text.TrimEdges | src/app/admin/products/page.tsx:58 | dropping leading then trailing white space leaves white space only around what remains |
| Text.EdgesUnique | src/app/admin/products/page.tsx:58 | two such middle parts of one text are equal |
| Text.TrimUnique | src/app/admin/products/page.tsx:58 | any middle part with only white space around it and none at its edges is the trim, so the contract of `Text.Trim` fixes its result |
| Text.BlankIffAllSpace | src/app/admin/products/page.tsx:86 | blank iff every character is white space |
| Text.TrimIdempotent | src/app/admin/products/page.tsx:58 | trimming twice is trimming once |
| Text.Lower | src/app/admin/products/page.tsx:60 | `toLowerCase`: same length, each character lowered, white space kept |
| Text.LowerIdempotent | src/app/admin/products/page.tsx:60 | lowering twice is lowering once |
| Text.Contains | src/app/admin/products/page.tsx:60 | `includes`: true iff the query occurs at some index |
| Text.ContainsEmpty | src/app/admin/products/page.tsx:60 | every text includes the empty query |
| Text.MatchesQueryIsContains | src/app/admin/products/page.tsx:57-61 | the filter test is the trimmed lower-cased `includes` |
| Text.MatchesQuery | src/app/admin/products/page.tsx:57-61 | the trimmed, lower-cased `includes` test: stated by `Text.MatchesQueryIsContains`, `Text.BlankQueryMatchesAll`, `Text.TrimmedNameMatchesItself` and `Text.MatchIgnoresNameCase` |
| Text.BlankQueryMatchesAll | src/app/admin/products/page.tsx:59 | a blank query matches every name |
| Text.TrimmedNameMatchesItself | src/app/admin/products/page.tsx:57-61 | a non-blank name matches its own text as a query |
| Text.MatchIgnoresNameCase | src/app/admin/products/page.tsx:60 | matching does not depend on the name's case |
| Text.Decimal | src/app/operational/orders/page.tsx:137 | `String(n)` of a natural number: non-empty, all digits, no leading zero (only 0 itself starts with '0') |
| Text.DecimalRoundTrip | src/app/operational/orders/page.tsx:137 | the decimal text of a number reads back as that number |
| Text.IntText | src/app/admin/categories/page.tsx:78 | `String(n)` of an integer: its digits, with a minus sign for a negative number |
| Text.IntTextIsTrimmed | src/app/admin/categories/page.tsx:78 | `String(n)` has no surrounding white space |
| Lists.FilterTwice | src/app/operational/day/page.tsx:34-39 | two chained filters keep what their conjunction keeps |
| Lists.Filter | src/app/operational/day/page.tsx:34-39 | `Array.filter`: a subsequence holding exactly the passing elements; everything when all pass |
| Lists.FilterKeepsNone | src/app/operational/day/page.tsx:34-39 | a filter keeps nothing iff no element passes |
| Lists.FilterKeepsAll | src/app/operational/day/page.tsx:35 | a filter keeps every element iff all pass |
| Lists.FilterFirst | src/app/admin/products/page.tsx:65 | the first element a filter keeps is the first element that passes |
| Lists.FilterSnoc | src/app/operational/day/page.tsx:34-39 | filtering one more element appends it iff it passes |
| Lists.Take | src/app/admin/dashboard/page.tsx:184 | `slice(0, n)`: the first min(n, length) elements |
| Lists.RecordKeys | src/lib/api.ts:42-44 | the record built from pairs has exactly their keys |
| Lists.RecordLastWins | src/lib/api.ts:42-44 | each key holds the value of its last pair |
| Lists.RecordOfSnoc | src/lib/api.ts:42-44 | assigning one more pair updates the record at that key only |
| Failures.MessageOr | src/app/operational/overview/page.tsx:36 | `e?.message ?? fallback`: stated by `Failures.MessageOrCases` and `ErrorMessages.MessageOrIsDashboardExceptStrings` |
| Failures.MessageOrCases | src/app/operational/overview/page.tsx:36 | `e?.message ?? fallback` over the modelled thrown values: an `Error` or an object with a string message shows that message; a thrown string, null, undefined, a number or an object without a `message` falls back |
| Json.Lookup | src/lib/api.ts:53-59 | a member read finds none iff no member has the key, else one of its values |
| Json.LookupLast | src/lib/api.ts:88 | a member no later member overrides is the one found |
| Json.OrElse | src/app/operational/print/page.tsx:71 | `??` replaces exactly null and undefined |

## Left out

- HTTP transport: `fetch`, reading the response text and `JSON.parse` are outside the model. The body arrives as "empty", "not JSON" or a parsed value. The full-page redirects through `window.location` (after a 401 and after logout) and the Next router calls are not performed; they are returned as decisions or not modelled.
- Cookies: the role cookies written by `setAuth` and removed by `clearAuth` (src/lib/cookies.ts) are not modelled. The middleware takes the cookie map as its input.
- The effects a 401 has inside `apiFetch` are modelled by `Api.ApiFetch`. A page step receives only the outcome, so that step does not replay the storage clear.
- Timers and concurrency: the 4-second polling, overlapping or out-of-order responses and unmount races. Each tick is one sequential step.
- Floating point and locale: the cart total, `formatBRL`, `toLocaleString` and the chart tick formatting. Totals are whole cents. `Number(...)` on a form text is a parameter (`parse`), and so is a price read in cents (`priceCents`). `formatBRL` is a parameter of `Overview.OverviewPage.CloseComanda`.
- Orders.CentsText: assumes a whole number of cents. Fractions of a cent and IEEE rounding in `toFixed(2)` are not modelled.
- Text.Lower: lower-cases ASCII and Latin-1 letters only; other Unicode case mappings and UTF-16 lengths are not modelled.
- Orders.Put: the cart keeps keys in insertion order. JavaScript lists integer-like keys first, which is not modelled.
- The zod e-mail format check and the zod issue messages are parameters of `LoginPage`.
- Api.HeadersInitToRecord: a `Headers` object's own name normalisation and ordering are not modelled; its pairs are taken as iterated.
- Failures.MessageOr: a thrown object whose `message` is present but not a string (say `{message: 42}`) is modelled like an object with no message, so the model shows the fallback where the source's `??` passes that value through. The three `getErrorMessage` helpers test `typeof` and do fall back there, so `ErrorMessages` is exact for that case.
- Failures.MessageOrCases: states the fallback case for an object without a string message, which in the source holds only when `message` is null or undefined (see `Failures.MessageOr` above).
- Promise rejection order: when several of the requests awaited together fail, the rejection `Promise.all` reports is a parameter, required to be one of the failures.
- AdminCategories.EditForm: a stored sort order is an integer. Fractional or non-finite stored orders are not modelled.
- PrintQueue.SubtotalOf: the `String(...)` of a subtotal is left to the display, and the currency formatting is out.
- Dashboard.DashboardPage.constructor: the default date range comes from the clock in the source; here it is a parameter.
- The profile page (src/app/operational/profile/page.tsx) repeats the header's logout sequence and is not part of this model. Neither are the UI components (modals, drawers, buttons, charts, navigation bars) or the toast host's expiry timers.
- Toast ids come from the clock and `Math.random` in the source. They are parameters of `Ui.ToastStore.PushToast`, and page steps return their toasts instead of pushing them.

## Behaviour worth knowing

- The cart floors at each `dec`, not at the end: `dec` then `inc` on a product not yet in the cart gives 1, not max(0, net) = 0 (`Orders.FloorIsPerStep`).
- A role cookie other than MANAGER or WAITER bounces between `/login` and the overview (`Middleware.UnknownRoleBouncesBack`).
- An `Error` with an empty message becomes an empty error text. The overview treats that as no error and keeps showing the stale grid (`Overview.EmptyMessageShowsStaleGrid`).
- When the refetch after marking a job printed fails, the user sees the success toast and then an error toast (`PrintQueue.PrintScenario`).
- A category stored with a negative sort order cannot be saved again unchanged (`AdminCategories.NegativeOrderRefused`).
- The overview's active count counts comandas with an empty id. The badge and the detail request do not (`Overview.ActiveCountFacts` against `Overview.OpenComandaId`).
- The three `getErrorMessage` helpers differ on thrown strings and blank messages (`ErrorMessages.WhereTheyDiffer`).

=== FILE: admin_categories.dfy ===
/**
 * The category screen of src/app/admin/categories/page.tsx: the list, the
 * search, the create/edit form with its optional sort order, and the
 * disable confirmation.  `Number(...)` on the sort-order text is the
 * parameter `parse`; errors are reported through
 * `ErrorMessages.CategoriesMessage`.
 */
module AdminCategories {
  import opened Wrappers
  import opened Text
  import opened Domain
  import opened Failures
  import opened Ui
  import opened AdminForms
  import opened ErrorMessages

  const CATEGORIES_TITLE := "Categorias"
  const INVALID_ORDER := "Ordem inválida."
  const CREATED := "Criada."
  const UPDATED := "Atualizada."
  const DISABLED := "Desativada."

  /** `hasSortOrder`: neither null nor undefined, so 0 counts as set. */
  predicate HasSortOrder(v: Option<int>) {
    v.Some?
  }

  datatype CategoryForm = CategoryForm(name: string, sortOrder: string, isActive: bool)

  const CREATE_FORM := CategoryForm("", "", true)

  /** `startEdit(r)`: the sort order as text, or "" when unset. */
  function EditForm(r: AdminCategory): (f: CategoryForm)
    ensures f.name == r.name && f.isActive == r.isActive
    ensures f.sortOrder == [] <==> !HasSortOrder(r.sortOrder)
  {
    CategoryForm(r.name, if HasSortOrder(r.sortOrder) then IntText(r.sortOrder.value) else "", r.isActive)
  }

  /** `soValue`: no number for an empty trimmed text, otherwise `Number` of the trimmed text. */
  function SortOrderValue(text: string, parse: string -> NumberValue): (v: Option<NumberValue>)
    ensures v.None? <==> IsBlank(text)
  {
    var trimmed := Trim(text);
    if trimmed != [] then Some(parse(trimmed)) else None
  }

  /** A given sort order must be finite and not negative; fractions pass. */
  predicate OrderAccepted(v: Option<NumberValue>) {
    v.None? || (v.value.Finite? && v.value.value >= 0.0)
  }

  /** The checks of `save`, in their order: name, then sort order. */
  function Issue(f: CategoryForm, parse: string -> NumberValue): (r: Option<string>)
    ensures r.None? <==> !IsBlank(f.name) && OrderAccepted(SortOrderValue(f.sortOrder, parse))
    ensures IsBlank(f.name) ==> r == Some(NAME_REQUIRED)
    ensures !IsBlank(f.name) && r.Some? ==> r == Some(INVALID_ORDER)
  {
    if IsBlank(f.name) then Some(NAME_REQUIRED)
    else if !OrderAccepted(SortOrderValue(f.sortOrder, parse)) then Some(INVALID_ORDER)
    else None
  }

  /** The payload of both create and update; a `None` sort order is left `undefined`. */
  datatype CategoryPayload = CategoryPayload(name: string, sortOrder: Option<real>, isActive: bool)

  datatype Request = Create(payload: CategoryPayload) | Update(id: string, payload: CategoryPayload)

  function Payload(f: CategoryForm, parse: string -> NumberValue): (p: CategoryPayload)
    requires OrderAccepted(SortOrderValue(f.sortOrder, parse))
    ensures p.name == Trim(f.name) && p.isActive == f.isActive
    ensures p.sortOrder.None? <==> IsBlank(f.sortOrder)
  {
    var v := SortOrderValue(f.sortOrder, parse);
    CategoryPayload(Trim(f.name), if v.Some? then Some(v.value.value) else None, f.isActive)
  }

  /** `save` updates when a row is being edited and creates otherwise. */
  function SaveRequest(editing: Option<AdminCategory>, f: CategoryForm, parse: string -> NumberValue): Request
    requires OrderAccepted(SortOrderValue(f.sortOrder, parse))
  {
    match editing
    case Some(r) => Update(r.id, Payload(f, parse))
    case None => Create(Payload(f, parse))
  }

  /**
   * Editing a category and saving it untouched sends its sort order back,
   * as long as `Number` reads the text of a non-negative integer as that
   * integer; an unset order stays unset.
   */
  lemma EditThenSaveKeepsOrder(r: AdminCategory, parse: string -> NumberValue)
    requires !IsBlank(r.name)
    requires r.sortOrder.Some? ==> r.sortOrder.value >= 0 &&
                                   parse(IntText(r.sortOrder.value)) == Finite(r.sortOrder.value as real)
    ensures Issue(EditForm(r), parse).None?
    ensures Payload(EditForm(r), parse).sortOrder ==
            if r.sortOrder.Some? then Some(r.sortOrder.value as real) else None
  {
    var f := EditForm(r);
    if r.sortOrder.Some? {
      var text := IntText(r.sortOrder.value);
      assert f.sortOrder == text;
      IntTextIsTrimmed(r.sortOrder.value);
      assert Trim(text) == text != [];
      assert SortOrderValue(f.sortOrder, parse) == Some(Finite(r.sortOrder.value as real));
    } else {
      assert f.sortOrder == [];
      assert SortOrderValue(f.sortOrder, parse).None?;
    }
  }

  /** A category stored with a negative order cannot be saved again until the order is changed. */
  lemma NegativeOrderRefused(r: AdminCategory, parse: string -> NumberValue)
    requires !IsBlank(r.name) && r.sortOrder.Some? && r.sortOrder.value < 0
    requires parse(IntText(r.sortOrder.value)) == Finite(r.sortOrder.value as real)
    ensures Issue(EditForm(r), parse) == Some(INVALID_ORDER)
  {
    IntTextIsTrimmed(r.sortOrder.value);
  }

  /** The toasts of a load: none on success, else one error toast under the page's title. */
  function LoadToasts(result: Outcome<seq<AdminCategory>>): (toasts: seq<ToastInput>)
    ensures toasts == [] <==> result.Ok?
    ensures result.Err? ==> |toasts| == 1 && toasts[0].kind == ErrorToast && toasts[0].title == CATEGORIES_TITLE
  {
    if result.Ok? then [] else [Error(CATEGORIES_TITLE, Some(CategoriesMessage(result.error)))]
  }

  class CategoriesPage {
    var rows: seq<AdminCategory>
    var loading: bool
    var query: string
    var open: bool
    var editing: Option<AdminCategory>
    var name: string
    var sortOrder: string
    var isActive: bool
    var confirmDisable: Option<AdminCategory>

    constructor ()
      ensures rows == [] && loading && query == [] && !open && editing.None? && confirmDisable.None?
      ensures Form() == CREATE_FORM
    {
      rows, loading, query, open, editing, confirmDisable := [], true, [], false, None, None;
      name, sortOrder, isActive := "", "", true;
    }

    function Form(): CategoryForm
      reads this
    {
      CategoryForm(name, sortOrder, isActive)
    }

    function Visible(): seq<AdminCategory>
      reads this
    {
      SearchByName(rows, (r: AdminCategory) => r.name, query)
    }

    /** `load`: success replaces the rows, failure reports and keeps them; loading ends false. */
    method Load(result: Outcome<seq<AdminCategory>>) returns (toasts: seq<ToastInput>)
      modifies this
      ensures !loading && toasts == LoadToasts(result)
      ensures rows == (if result.Ok? then result.value else old(rows))
      ensures Form() == old(Form()) && open == old(open) && editing == old(editing)
      ensures confirmDisable == old(confirmDisable) && query == old(query)
    {
      loading := true;
      toasts := [];
      if result.Ok? {
        rows := result.value;
      } else {
        toasts := [Error(CATEGORIES_TITLE, Some(CategoriesMessage(result.error)))];
      }
      loading := false;
    }

    method StartCreate()
      modifies this
      ensures editing.None? && open && Form() == CREATE_FORM
      ensures rows == old(rows) && confirmDisable == old(confirmDisable)
    {
      editing, name, sortOrder, isActive, open := None, "", "", true, true;
    }

    method StartEdit(r: AdminCategory)
      modifies this
      ensures editing == Some(r) && open && Form() == EditForm(r)
      ensures rows == old(rows) && confirmDisable == old(confirmDisable)
    {
      editing := Some(r);
      name := r.name;
      sortOrder := if HasSortOrder(r.sortOrder) then IntText(r.sortOrder.value) else "";
      isActive := r.isActive;
      open := true;
    }

    /**
     * The part of `save` after validation: send the request; success
     * closes the modal and reloads, failure reports and leaves it open.
     */
    method Submit(request: Request, saveResult: Outcome<bool>, reloadResult: Outcome<seq<AdminCategory>>)
      returns (toasts: seq<ToastInput>)
      modifies this
      ensures name == old(name) && sortOrder == old(sortOrder) && isActive == old(isActive)
      ensures editing == old(editing) && confirmDisable == old(confirmDisable) && query == old(query)
      ensures saveResult.Ok? ==>
                !open && !loading && rows == (if reloadResult.Ok? then reloadResult.value else old(rows)) &&
                toasts == [Success(CATEGORIES_TITLE, Some(if request.Update? then UPDATED else CREATED))] +
                          LoadToasts(reloadResult)
      ensures saveResult.Err? ==>
                open == old(open) && rows == old(rows) && loading == old(loading) &&
                toasts == [Error(CATEGORIES_TITLE, Some(CategoriesMessage(saveResult.error)))]
    {
      if saveResult.Err? {
        toasts := [Error(CATEGORIES_TITLE, Some(CategoriesMessage(saveResult.error)))];
        return;
      }
      open := false;
      var loadToasts := Load(reloadResult);
      toasts := [Success(CATEGORIES_TITLE, Some(if request.Update? then UPDATED else CREATED))] + loadToasts;
    }

    /**
     * `save`: a form that fails a check is refused with that check's
     * message and nothing is sent; otherwise the update or create request
     * is sent, and success closes the modal and reloads.
     */
    method Save(parse: string -> NumberValue, saveResult: Outcome<bool>, reloadResult: Outcome<seq<AdminCategory>>)
      returns (request: Option<Request>, toasts: seq<ToastInput>)
      modifies this
      ensures Form() == old(Form()) && editing == old(editing)
      ensures request.None? <==> Issue(old(Form()), parse).Some?
      ensures request.None? ==>
                toasts == [Error(VALIDATION_TITLE, Issue(old(Form()), parse))] &&
                open == old(open) && rows == old(rows) && loading == old(loading)
      ensures request.Some? ==> request.value == SaveRequest(old(editing), old(Form()), parse)
      ensures request.Some? && saveResult.Ok? ==>
                !open && !loading && rows == (if reloadResult.Ok? then reloadResult.value else old(rows)) &&
                toasts == [Success(CATEGORIES_TITLE, Some(if old(editing).Some? then UPDATED else CREATED))] +
                          LoadToasts(reloadResult)
      ensures request.Some? && saveResult.Err? ==>
                open == old(open) && rows == old(rows) &&
                toasts == [Error(CATEGORIES_TITLE, Some(CategoriesMessage(saveResult.error)))]
    {
      var form := Form();
      var issue := Issue(form, parse);
      if issue.Some? {
        request := None;
        toasts := [Error(VALIDATION_TITLE, issue)];
        return;
      }
      var r := SaveRequest(editing, form, parse);
      assert r.Update? <==> editing.Some?;
      request := Some(r);
      toasts := Submit(r, saveResult, reloadResult);
    }

    method SetConfirmDisable(r: Option<AdminCategory>)
      modifies this
      ensures confirmDisable == r && rows == old(rows) && open == old(open) && Form() == old(Form())
    {
      confirmDisable := r;
    }

    /** `disableConfirmed`: nothing without a selection; success clears it and reloads. */
    method DisableConfirmed(deleteResult: Outcome<bool>, reloadResult: Outcome<seq<AdminCategory>>)
      returns (deleted: Option<string>, toasts: seq<ToastInput>)
      modifies this
      ensures Form() == old(Form()) && open == old(open)
      ensures old(confirmDisable).None? ==> deleted.None? && toasts == [] && rows == old(rows)
      ensures old(confirmDisable).Some? ==> deleted == Some(old(confirmDisable).value.id)
      ensures deleted.Some? && deleteResult.Ok? ==>
                confirmDisable.None? && !loading &&
                rows == (if reloadResult.Ok? then reloadResult.value else old(rows)) &&
                toasts == [Success(CATEGORIES_TITLE, Some(DISABLED))] + LoadToasts(reloadResult)
      ensures deleted.Some? && deleteResult.Err? ==>
                confirmDisable == old(confirmDisable) && rows == old(rows) &&
                toasts == [Error(CATEGORIES_TITLE, Some(CategoriesMessage(deleteResult.error)))]
    {
      deleted := None;
      toasts := [];
      if confirmDisable.None? {
        return;
      }
      deleted := Some(confirmDisable.value.id);
      if deleteResult.Err? {
        toasts := [Error(CATEGORIES_TITLE, Some(CategoriesMessage(deleteResult.error)))];
        return;
      }
      toasts := [Success(CATEGORIES_TITLE, Some(DISABLED))];
      confirmDisable := None;
      var loadToasts := Load(reloadResult);
      toasts := toasts + loadToasts;
    }
  }
}

=== FILE: admin_forms.dfy ===
/**
 * What the four admin screens (src/app/admin/{products,categories,tables,waiters}/page.tsx)
 * share: the search box over the rows' names, the rule that a blank
 * required field stops a save before any call, and the two ways a blank
 * optional text field is sent: left out on create, as "" on update.
 */
module AdminForms {
  import opened Wrappers
  import opened Text
  import opened Lists

  const VALIDATION_TITLE := "Validação"
  const NAME_REQUIRED := "Nome é obrigatório."

  /** `Number(text)` as the validators see it: a finite number, or NaN or an infinity. */
  datatype NumberValue = Finite(value: real) | NotFinite

  /**
   * `filtered`: `qq = q.trim().toLowerCase()`; a blank query returns the
   * rows themselves, otherwise the rows whose lower-cased name includes `qq`.
   */
  function SearchByName<T(==,!new)>(rows: seq<T>, nameOf: T -> string, q: string): seq<T> {
    var qq := Lower(Trim(q));
    if qq == [] then rows else Filter(rows, (r: T) => Contains(Lower(nameOf(r)), qq))
  }

  /**
   * A row is kept exactly when its name matches the query; the kept rows
   * keep their order; a blank query keeps them all.
   */
  lemma {:induction false} SearchByNameSpec<T(!new)>(rows: seq<T>, nameOf: T -> string, q: string)
    ensures forall r :: r in SearchByName(rows, nameOf, q) <==> r in rows && MatchesQuery(nameOf(r), q)
    ensures IsSubsequence(SearchByName(rows, nameOf, q), rows)
    ensures IsBlank(q) ==> SearchByName(rows, nameOf, q) == rows
  {
    if Lower(Trim(q)) == [] {
      SubsequenceOfItself(rows);
    }
  }

  /** `s.trim() ? s.trim() : undefined`, the create payloads' optional text. */
  function OmitBlank(s: string): (r: Option<string>)
    ensures r.None? <==> IsBlank(s)
    ensures r.Some? ==> r.value == Trim(s) && !IsBlank(r.value)
  {
    if !IsBlank(s) then
      TrimIdempotent(s);
      Some(Trim(s))
    else None
  }

  /** `s.trim() ? s.trim() : ""`, the update payloads' optional text. */
  function BlankAsEmpty(s: string): (r: string)
    ensures IsBlank(s) ==> r == []
    ensures !IsBlank(s) ==> r == Trim(s)
  {
    if !IsBlank(s) then Trim(s) else ""
  }

  /**
   * The guard around the update payload's text is redundant: it always sends
   * the trimmed text.  The two payloads agree on every non-blank text, and a
   * blank text is left out on create but sent as "" on update.
   */
  lemma CreateAndUpdateText(s: string)
    ensures BlankAsEmpty(s) == Trim(s)
    ensures OmitBlank(s).Some? ==> OmitBlank(s).value == BlankAsEmpty(s)
    ensures OmitBlank(s).None? <==> BlankAsEmpty(s) == []
  {
  }

  /** `value ?? ""`: the form text for an optional field of a row being edited. */
  function TextOrEmpty(v: Option<string>): string {
    v.GetOr("")
  }
}

=== FILE: admin_products.dfy ===
/**
 * The product catalogue screen of src/app/admin/products/page.tsx: the
 * products and categories lists, the search, the create/edit form with its
 * validation and payloads, and the disable confirmation.  `Number(...)` on
 * the price text is the parameter `parse`.
 */
module AdminProducts {
  import opened Wrappers
  import opened Text
  import opened Lists
  import opened Domain
  import opened Failures
  import opened Ui
  import opened AdminForms

  const PRODUCTS_TITLE := "Produtos"
  const LOAD_FALLBACK := "Falha ao carregar"
  const SAVE_FALLBACK := "Falha ao salvar"
  const DISABLE_FALLBACK := "Falha ao desativar"
  const CATEGORY_REQUIRED := "Categoria é obrigatória."
  const INVALID_PRICE := "Preço inválido."
  const CREATED := "Criado."
  const UPDATED := "Atualizado."
  const DISABLED := "Desativado."
  /** The price text of a fresh form. */
  const FRESH_PRICE := "0"

  /** One entry of the category select. */
  datatype CategoryOption = CategoryOption(value: string, text: string)

  function OptionOf(c: AdminCategory): CategoryOption {
    CategoryOption(c.id, c.name)
  }

  function IsActive(c: AdminCategory): bool {
    c.isActive
  }

  /** `categoryOptions`: the active categories, in their order, as select entries. */
  function CategoryOptions(categories: seq<AdminCategory>): (r: seq<CategoryOption>)
    ensures |r| <= |categories|
    ensures |r| == |Filter(categories, IsActive)|
    ensures forall i :: 0 <= i < |r| ==> r[i] == OptionOf(Filter(categories, IsActive)[i])
  {
    var active := Filter(categories, IsActive);
    seq(|active|, i requires 0 <= i < |active| => OptionOf(active[i]))
  }

  /** An option is listed exactly when it is the option of an active category. */
  lemma CategoryOptionsMembers(categories: seq<AdminCategory>)
    ensures forall o :: o in CategoryOptions(categories) <==> exists c :: c in categories && c.isActive && o == OptionOf(c)
  {
    var active := Filter(categories, IsActive);
    var r := CategoryOptions(categories);
    forall o ensures o in r <==> exists c :: c in categories && c.isActive && o == OptionOf(c) {
      if o in r {
        var i :| 0 <= i < |r| && r[i] == o;
        assert active[i] in active;
      }
      if exists c :: c in categories && c.isActive && o == OptionOf(c) {
        var c :| c in categories && c.isActive && o == OptionOf(c);
        assert c in active;
        var i :| 0 <= i < |active| && active[i] == c;
        assert r[i] == o;
      }
    }
  }

  /** The first option is the option of the first active category. */
  lemma FirstCategoryOption(categories: seq<AdminCategory>)
    ensures CategoryOptions(categories) != [] ==>
              exists i :: 0 <= i < |categories| && categories[i].isActive &&
                          (forall j :: 0 <= j < i ==> !categories[j].isActive) &&
                          CategoryOptions(categories)[0] == OptionOf(categories[i])
  {
    FilterFirst(categories, IsActive);
  }

  /**
   * The options are exactly the active categories; the first option, the
   * one a new product is given, is the first active category.
   */
  lemma CategoryOptionsSpec(categories: seq<AdminCategory>)
    ensures forall o :: o in CategoryOptions(categories) <==> exists c :: c in categories && c.isActive && o == OptionOf(c)
    ensures CategoryOptions(categories) == [] <==> forall i :: 0 <= i < |categories| ==> !categories[i].isActive
    ensures CategoryOptions(categories) != [] ==>
              exists i :: 0 <= i < |categories| && categories[i].isActive &&
                          (forall j :: 0 <= j < i ==> !categories[j].isActive) &&
                          CategoryOptions(categories)[0] == OptionOf(categories[i])
  {
    CategoryOptionsMembers(categories);
    FilterKeepsNone(categories, IsActive);
    FirstCategoryOption(categories);
  }

  /** The form fields of the modal. */
  datatype ProductForm = ProductForm(
    categoryId: string, name: string, description: string, price: string, imageUrl: string, isActive: bool)

  /** `startCreate`: a blank, active form on the first category option, or on none. */
  function CreateForm(options: seq<CategoryOption>): (f: ProductForm)
    ensures f.name == [] && f.description == [] && f.imageUrl == [] && f.price == FRESH_PRICE && f.isActive
    ensures f.categoryId == if options == [] then "" else options[0].value
  {
    ProductForm(if options == [] then "" else options[0].value, "", "", FRESH_PRICE, "", true)
  }

  /** `startEdit(r)`: the row's fields, a null description or image URL shown as "". */
  function EditForm(r: AdminProduct): (f: ProductForm)
    ensures f.categoryId == r.categoryId && f.name == r.name && f.price == r.price && f.isActive == r.isActive
    ensures f.description == r.description.GetOr("") && f.imageUrl == r.imageUrl.GetOr("")
  {
    ProductForm(r.categoryId, r.name, TextOrEmpty(r.description), r.price, TextOrEmpty(r.imageUrl), r.isActive)
  }

  /** `Number.isFinite(p) && p > 0` */
  predicate PriceAccepted(p: NumberValue) {
    p.Finite? && p.value > 0.0
  }

  /** The checks of `save`, in their order: name, then category, then price. */
  function Issue(f: ProductForm, parse: string -> NumberValue): (r: Option<string>)
    ensures r.None? <==> !IsBlank(f.name) && f.categoryId != [] && PriceAccepted(parse(f.price))
    ensures IsBlank(f.name) ==> r == Some(NAME_REQUIRED)
    ensures !IsBlank(f.name) && f.categoryId == [] ==> r == Some(CATEGORY_REQUIRED)
    ensures r.Some? ==> r.value in {NAME_REQUIRED, CATEGORY_REQUIRED, INVALID_PRICE}
  {
    if IsBlank(f.name) then Some(NAME_REQUIRED)
    else if f.categoryId == [] then Some(CATEGORY_REQUIRED)
    else if !PriceAccepted(parse(f.price)) then Some(INVALID_PRICE)
    else None
  }

  /** What is sent; a `None` text is a field left `undefined`, so not sent at all. */
  datatype ProductPayload = ProductPayload(
    categoryId: string, name: string, description: Option<string>, price: real,
    imageUrl: Option<string>, isActive: bool)

  datatype Request = Create(payload: ProductPayload) | Update(id: string, payload: ProductPayload)

  /** The create payload: blank optional texts are left out. */
  function CreatePayload(f: ProductForm, price: real): ProductPayload {
    ProductPayload(f.categoryId, Trim(f.name), OmitBlank(f.description), price, OmitBlank(f.imageUrl), f.isActive)
  }

  /** The update payload: blank optional texts are sent as "". */
  function UpdatePayload(f: ProductForm, price: real): ProductPayload {
    ProductPayload(f.categoryId, Trim(f.name), Some(BlankAsEmpty(f.description)), price,
                   Some(BlankAsEmpty(f.imageUrl)), f.isActive)
  }

  /** The request `save` sends for a form that passed its checks. */
  function SaveRequest(editing: Option<AdminProduct>, f: ProductForm, parse: string -> NumberValue): Request
    requires PriceAccepted(parse(f.price))
  {
    match editing
    case None => Create(CreatePayload(f, parse(f.price).value))
    case Some(r) => Update(r.id, UpdatePayload(f, parse(f.price).value))
  }

  /** The two payloads differ only where an optional text is blank. */
  lemma PayloadsDiffer(f: ProductForm, price: real)
    ensures CreatePayload(f, price).name == UpdatePayload(f, price).name == Trim(f.name)
    ensures CreatePayload(f, price).description.None? <==> IsBlank(f.description)
    ensures UpdatePayload(f, price).description == Some(Trim(f.description))
    ensures !IsBlank(f.description) ==> CreatePayload(f, price).description == UpdatePayload(f, price).description
    ensures CreatePayload(f, price).imageUrl.None? <==> IsBlank(f.imageUrl)
    ensures UpdatePayload(f, price).imageUrl == Some(Trim(f.imageUrl))
  {
    CreateAndUpdateText(f.description);
    CreateAndUpdateText(f.imageUrl);
  }

  /**
   * A fresh form is refused for its price even once name and category are
   * filled in, as long as `Number("0")` is zero.
   */
  lemma FreshPriceRefused(options: seq<CategoryOption>, name: string, categoryId: string, parse: string -> NumberValue)
    requires parse(FRESH_PRICE) == Finite(0.0)
    requires !IsBlank(name) && categoryId != []
    ensures Issue(CreateForm(options).(name := name, categoryId := categoryId), parse) == Some(INVALID_PRICE)
  {
  }

  /**
   * Editing a row and saving it untouched sends the row back, with a null
   * description or image URL turned into "".
   */
  lemma EditThenSaveSendsRowBack(r: AdminProduct, parse: string -> NumberValue)
    requires Trim(r.name) == r.name && r.name != [] && r.categoryId != [] && PriceAccepted(parse(r.price))
    requires Trim(r.description.GetOr("")) == r.description.GetOr("")
    requires Trim(r.imageUrl.GetOr("")) == r.imageUrl.GetOr("")
    ensures Issue(EditForm(r), parse).None?
    ensures SaveRequest(Some(r), EditForm(r), parse) ==
            Update(r.id, ProductPayload(r.categoryId, r.name, Some(r.description.GetOr("")), parse(r.price).value,
                                        Some(r.imageUrl.GetOr("")), r.isActive))
  {
    assert !IsBlank(r.name);
    CreateAndUpdateText(r.description.GetOr(""));
    CreateAndUpdateText(r.imageUrl.GetOr(""));
  }

  /** `e` is the error one of the two requests rejected with. */
  predicate RejectedWith(e: Thrown, products: Outcome<seq<AdminProduct>>, categories: Outcome<seq<AdminCategory>>) {
    (products.Err? && products.error == e) || (categories.Err? && categories.error == e)
  }

  /** The toasts of a reload: none when both requests succeed, else the first rejection. */
  function LoadToasts(productsResult: Outcome<seq<AdminProduct>>, categoriesResult: Outcome<seq<AdminCategory>>,
                      rejection: Thrown): (toasts: seq<ToastInput>)
    ensures toasts == [] <==> productsResult.Ok? && categoriesResult.Ok?
    ensures toasts != [] ==> |toasts| == 1 && toasts[0].kind == ErrorToast && toasts[0].title == PRODUCTS_TITLE
  {
    if productsResult.Ok? && categoriesResult.Ok? then []
    else [Error(PRODUCTS_TITLE, Some(MessageOr(rejection, LOAD_FALLBACK)))]
  }

  class ProductsPage {
    var rows: seq<AdminProduct>
    var categories: seq<AdminCategory>
    var loading: bool
    var query: string
    var open: bool
    var editing: Option<AdminProduct>
    var categoryId: string
    var name: string
    var description: string
    var price: string
    var imageUrl: string
    var isActive: bool
    var confirmDisable: Option<AdminProduct>

    /** Nothing loaded, loading, no search, the modal and the confirmation closed, a fresh form. */
    constructor ()
      ensures rows == [] && categories == [] && loading && query == []
      ensures !open && editing.None? && confirmDisable.None?
      ensures Form() == ProductForm("", "", "", FRESH_PRICE, "", true)
    {
      rows, categories, loading, query := [], [], true, [];
      open, editing, confirmDisable := false, None, None;
      categoryId, name, description, price, imageUrl, isActive := "", "", "", FRESH_PRICE, "", true;
    }

    function Form(): ProductForm
      reads this
    {
      ProductForm(categoryId, name, description, price, imageUrl, isActive)
    }

    /** The rows on screen. */
    function Visible(): seq<AdminProduct>
      reads this
    {
      SearchByName(rows, (r: AdminProduct) => r.name, query)
    }

    /**
     * `load`: both lists are fetched together and replaced only when both
     * requests succeed; otherwise the first rejection is reported and
     * nothing changes.  Loading ends false.
     */
    method Load(productsResult: Outcome<seq<AdminProduct>>, categoriesResult: Outcome<seq<AdminCategory>>,
                rejection: Thrown)
      returns (toasts: seq<ToastInput>)
      requires productsResult.Err? || categoriesResult.Err? ==> RejectedWith(rejection, productsResult, categoriesResult)
      modifies this
      ensures !loading && Form() == old(Form()) && open == old(open) && editing == old(editing)
      ensures confirmDisable == old(confirmDisable) && query == old(query)
      ensures toasts == LoadToasts(productsResult, categoriesResult, rejection)
      ensures productsResult.Ok? && categoriesResult.Ok? ==>
                rows == productsResult.value && categories == categoriesResult.value
      ensures productsResult.Err? || categoriesResult.Err? ==> rows == old(rows) && categories == old(categories)
    {
      loading := true;
      toasts := [];
      if productsResult.Ok? && categoriesResult.Ok? {
        rows := productsResult.value;
        categories := categoriesResult.value;
      } else {
        toasts := [Error(PRODUCTS_TITLE, Some(MessageOr(rejection, LOAD_FALLBACK)))];
      }
      loading := false;
    }

    /** Fills the six inputs of the modal. */
    method SetForm(form: ProductForm)
      modifies this
      ensures Form() == form
      ensures rows == old(rows) && categories == old(categories) && confirmDisable == old(confirmDisable)
      ensures editing == old(editing) && open == old(open)
    {
      categoryId, name, description := form.categoryId, form.name, form.description;
      price, imageUrl, isActive := form.price, form.imageUrl, form.isActive;
    }

    /** `startCreate` */
    method StartCreate()
      modifies this
      ensures editing.None? && open && Form() == CreateForm(CategoryOptions(categories))
      ensures rows == old(rows) && categories == old(categories) && confirmDisable == old(confirmDisable)
    {
      var form := CreateForm(CategoryOptions(categories));
      editing, open := None, true;
      SetForm(form);
    }

    /** `startEdit(r)` */
    method StartEdit(r: AdminProduct)
      modifies this
      ensures editing == Some(r) && open && Form() == EditForm(r)
      ensures rows == old(rows) && categories == old(categories) && confirmDisable == old(confirmDisable)
    {
      editing, open := Some(r), true;
      SetForm(EditForm(r));
    }

    /**
     * The part of `save` after validation: send the request; success
     * closes the modal and reloads both lists, failure reports and leaves
     * the modal open.
     */
    method Submit(request: Request, saveResult: Outcome<bool>,
                  productsResult: Outcome<seq<AdminProduct>>, categoriesResult: Outcome<seq<AdminCategory>>,
                  rejection: Thrown)
      returns (toasts: seq<ToastInput>)
      requires productsResult.Err? || categoriesResult.Err? ==> RejectedWith(rejection, productsResult, categoriesResult)
      modifies this
      ensures Form() == old(Form()) && editing == old(editing)
      ensures confirmDisable == old(confirmDisable) && query == old(query)
      ensures saveResult.Ok? ==>
                !open && !loading &&
                toasts == [Success(PRODUCTS_TITLE, Some(if request.Create? then CREATED else UPDATED))] +
                          LoadToasts(productsResult, categoriesResult, rejection) &&
                (productsResult.Ok? && categoriesResult.Ok? ==>
                   rows == productsResult.value && categories == categoriesResult.value) &&
                (productsResult.Err? || categoriesResult.Err? ==> rows == old(rows) && categories == old(categories))
      ensures saveResult.Err? ==>
                open == old(open) && rows == old(rows) && categories == old(categories) && loading == old(loading) &&
                toasts == [Error(PRODUCTS_TITLE, Some(MessageOr(saveResult.error, SAVE_FALLBACK)))]
    {
      if saveResult.Err? {
        toasts := [Error(PRODUCTS_TITLE, Some(MessageOr(saveResult.error, SAVE_FALLBACK)))];
        return;
      }
      open := false;
      var loadToasts := Load(productsResult, categoriesResult, rejection);
      toasts := [Success(PRODUCTS_TITLE, Some(if request.Create? then CREATED else UPDATED))] + loadToasts;
    }

    /**
     * `save`: a form that fails a check is refused with that check's message
     * and nothing is sent.  Otherwise the create or update request is sent;
     * success closes the modal and reloads, failure leaves the modal open.
     */
    method Save(parse: string -> NumberValue, saveResult: Outcome<bool>,
                productsResult: Outcome<seq<AdminProduct>>, categoriesResult: Outcome<seq<AdminCategory>>,
                rejection: Thrown)
      returns (request: Option<Request>, toasts: seq<ToastInput>)
      requires productsResult.Err? || categoriesResult.Err? ==> RejectedWith(rejection, productsResult, categoriesResult)
      modifies this
      ensures Form() == old(Form()) && editing == old(editing)
      ensures request.None? <==> Issue(old(Form()), parse).Some?
      ensures request.None? ==>
                toasts == [Error(VALIDATION_TITLE, Issue(old(Form()), parse))] &&
                open == old(open) && rows == old(rows) && categories == old(categories) && loading == old(loading)
      ensures request.Some? ==> request.value == SaveRequest(old(editing), old(Form()), parse)
      ensures request.Some? && saveResult.Ok? ==>
                !open && !loading &&
                toasts == [Success(PRODUCTS_TITLE, Some(if old(editing).None? then CREATED else UPDATED))] +
                          LoadToasts(productsResult, categoriesResult, rejection) &&
                (productsResult.Ok? && categoriesResult.Ok? ==>
                   rows == productsResult.value && categories == categoriesResult.value) &&
                (productsResult.Err? || categoriesResult.Err? ==> rows == old(rows) && categories == old(categories))
      ensures request.Some? && saveResult.Err? ==>
                open == old(open) && rows == old(rows) && categories == old(categories) &&
                toasts == [Error(PRODUCTS_TITLE, Some(MessageOr(saveResult.error, SAVE_FALLBACK)))]
    {
      var form := Form();
      var issue := Issue(form, parse);
      if issue.Some? {
        request := None;
        toasts := [Error(VALIDATION_TITLE, issue)];
        return;
      }
      var r := SaveRequest(editing, form, parse);
      assert r.Create? <==> editing.None?;
      request := Some(r);
      toasts := Submit(r, saveResult, productsResult, categoriesResult, rejection);
    }

    /** The disable button, and the confirmation's cancel with `None`. */
    method SetConfirmDisable(r: Option<AdminProduct>)
      modifies this
      ensures confirmDisable == r && rows == old(rows) && open == old(open) && Form() == old(Form())
    {
      confirmDisable := r;
    }

    /**
     * `disableConfirmed`: nothing without a selection; otherwise the product
     * is disabled, and on success the selection is cleared and the lists
     * reloaded.  A failure keeps the selection.
     */
    method DisableConfirmed(deleteResult: Outcome<bool>,
                            productsResult: Outcome<seq<AdminProduct>>, categoriesResult: Outcome<seq<AdminCategory>>,
                            rejection: Thrown)
      returns (deleted: Option<string>, toasts: seq<ToastInput>)
      requires productsResult.Err? || categoriesResult.Err? ==> RejectedWith(rejection, productsResult, categoriesResult)
      modifies this
      ensures Form() == old(Form()) && open == old(open)
      ensures old(confirmDisable).None? ==> deleted.None? && toasts == [] && rows == old(rows) && categories == old(categories)
      ensures old(confirmDisable).Some? ==> deleted == Some(old(confirmDisable).value.id)
      ensures deleted.Some? && deleteResult.Ok? ==>
                confirmDisable.None? && !loading &&
                toasts == [Success(PRODUCTS_TITLE, Some(DISABLED))] + LoadToasts(productsResult, categoriesResult, rejection) &&
                (productsResult.Ok? && categoriesResult.Ok? ==>
                   rows == productsResult.value && categories == categoriesResult.value) &&
                (productsResult.Err? || categoriesResult.Err? ==> rows == old(rows) && categories == old(categories))
      ensures deleted.Some? && deleteResult.Err? ==>
                confirmDisable == old(confirmDisable) && rows == old(rows) && categories == old(categories) &&
                toasts == [Error(PRODUCTS_TITLE, Some(MessageOr(deleteResult.error, DISABLE_FALLBACK)))]
    {
      deleted := None;
      toasts := [];
      if confirmDisable.None? {
        return;
      }
      deleted := Some(confirmDisable.value.id);
      if deleteResult.Err? {
        toasts := [Error(PRODUCTS_TITLE, Some(MessageOr(deleteResult.error, DISABLE_FALLBACK)))];
        return;
      }
      toasts := [Success(PRODUCTS_TITLE, Some(DISABLED))];
      confirmDisable := None;
      var loadToasts := Load(productsResult, categoriesResult, rejection);
      toasts := toasts + loadToasts;
    }
  }
}

=== FILE: admin_tables.dfy ===
/**
 * The table screen of src/app/admin/tables/page.tsx: the list, the search,
 * the create/edit form with its optional description, and the disable
 * confirmation.
 */
module AdminTables {
  import opened Wrappers
  import opened Text
  import opened Domain
  import opened Failures
  import opened Ui
  import opened AdminForms

  const TABLES_TITLE := "Mesas"
  const NAME_OR_NUMBER_REQUIRED := "Nome/número é obrigatório."
  const LOAD_FALLBACK := "Falha ao carregar"
  const SAVE_FALLBACK := "Falha ao salvar"
  const DISABLE_FALLBACK := "Falha ao desativar"
  const CREATED := "Criada."
  const UPDATED := "Atualizada."
  const DISABLED := "Desativada."

  datatype TableForm = TableForm(name: string, description: string, isActive: bool)

  /** `startCreate`: a blank, active form. */
  const CREATE_FORM := TableForm("", "", true)

  /** `startEdit(r)`: the row's fields, a null description shown as "". */
  function EditForm(r: AdminTable): (f: TableForm)
    ensures f.name == r.name && f.isActive == r.isActive && f.description == r.description.GetOr("")
  {
    TableForm(r.name, TextOrEmpty(r.description), r.isActive)
  }

  /** What is sent; a `None` description is left `undefined`. */
  datatype TablePayload = TablePayload(name: string, description: Option<string>, isActive: bool)

  datatype Request = Create(payload: TablePayload) | Update(id: string, payload: TablePayload)

  /** Create leaves a blank description out; update sends it as "". */
  function SaveRequest(editing: Option<AdminTable>, f: TableForm): (r: Request)
    ensures r.payload.name == Trim(f.name) && r.payload.isActive == f.isActive
    ensures editing.None? ==> r.Create? && r.payload.description == OmitBlank(f.description)
    ensures editing.Some? ==> r == Update(editing.value.id, TablePayload(Trim(f.name), Some(Trim(f.description)), f.isActive))
  {
    CreateAndUpdateText(f.description);
    match editing
    case None => Create(TablePayload(Trim(f.name), OmitBlank(f.description), f.isActive))
    case Some(row) => Update(row.id, TablePayload(Trim(f.name), Some(BlankAsEmpty(f.description)), f.isActive))
  }

  /** Editing a table and saving it untouched sends it back, a null description as "". */
  lemma EditThenSaveSendsRowBack(r: AdminTable)
    requires Trim(r.name) == r.name && r.name != []
    requires Trim(r.description.GetOr("")) == r.description.GetOr("")
    ensures !IsBlank(EditForm(r).name)
    ensures SaveRequest(Some(r), EditForm(r)) == Update(r.id, TablePayload(r.name, Some(r.description.GetOr("")), r.isActive))
  {
  }

  /** The toasts of a load: none on success, else one error toast under the page's title. */
  function LoadToasts(result: Outcome<seq<AdminTable>>): (toasts: seq<ToastInput>)
    ensures toasts == [] <==> result.Ok?
    ensures result.Err? ==> |toasts| == 1 && toasts[0].kind == ErrorToast && toasts[0].title == TABLES_TITLE
  {
    if result.Ok? then [] else [Error(TABLES_TITLE, Some(MessageOr(result.error, LOAD_FALLBACK)))]
  }

  class TablesPage {
    var rows: seq<AdminTable>
    var loading: bool
    var query: string
    var open: bool
    var editing: Option<AdminTable>
    var name: string
    var description: string
    var isActive: bool
    var confirmDisable: Option<AdminTable>

    constructor ()
      ensures rows == [] && loading && query == [] && !open && editing.None? && confirmDisable.None?
      ensures Form() == CREATE_FORM
    {
      rows, loading, query, open, editing, confirmDisable := [], true, [], false, None, None;
      name, description, isActive := "", "", true;
    }

    function Form(): TableForm
      reads this
    {
      TableForm(name, description, isActive)
    }

    function Visible(): seq<AdminTable>
      reads this
    {
      SearchByName(rows, (r: AdminTable) => r.name, query)
    }

    /** `load`: success replaces the rows, failure reports and keeps them; loading ends false. */
    method Load(result: Outcome<seq<AdminTable>>) returns (toasts: seq<ToastInput>)
      modifies this
      ensures !loading && toasts == LoadToasts(result)
      ensures rows == (if result.Ok? then result.value else old(rows))
      ensures Form() == old(Form()) && open == old(open) && editing == old(editing)
      ensures confirmDisable == old(confirmDisable) && query == old(query)
    {
      loading := true;
      toasts := [];
      if result.Ok? {
        rows := result.value;
      } else {
        toasts := [Error(TABLES_TITLE, Some(MessageOr(result.error, LOAD_FALLBACK)))];
      }
      loading := false;
    }

    method StartCreate()
      modifies this
      ensures editing.None? && open && Form() == CREATE_FORM
      ensures rows == old(rows) && confirmDisable == old(confirmDisable)
    {
      editing, name, description, isActive, open := None, "", "", true, true;
    }

    method StartEdit(r: AdminTable)
      modifies this
      ensures editing == Some(r) && open && Form() == EditForm(r)
      ensures rows == old(rows) && confirmDisable == old(confirmDisable)
    {
      editing, name, description, isActive, open := Some(r), r.name, TextOrEmpty(r.description), r.isActive, true;
    }

    /**
     * The part of `save` after validation: send the request; success
     * closes the modal and reloads, failure reports and leaves it open.
     */
    method Submit(request: Request, saveResult: Outcome<bool>, reloadResult: Outcome<seq<AdminTable>>)
      returns (toasts: seq<ToastInput>)
      modifies this
      ensures name == old(name) && description == old(description) && isActive == old(isActive)
      ensures editing == old(editing) && confirmDisable == old(confirmDisable) && query == old(query)
      ensures saveResult.Ok? ==>
                !open && !loading && rows == (if reloadResult.Ok? then reloadResult.value else old(rows)) &&
                toasts == [Success(TABLES_TITLE, Some(if request.Create? then CREATED else UPDATED))] +
                          LoadToasts(reloadResult)
      ensures saveResult.Err? ==>
                open == old(open) && rows == old(rows) && loading == old(loading) &&
                toasts == [Error(TABLES_TITLE, Some(MessageOr(saveResult.error, SAVE_FALLBACK)))]
    {
      if saveResult.Err? {
        toasts := [Error(TABLES_TITLE, Some(MessageOr(saveResult.error, SAVE_FALLBACK)))];
        return;
      }
      open := false;
      var loadToasts := Load(reloadResult);
      toasts := [Success(TABLES_TITLE, Some(if request.Create? then CREATED else UPDATED))] + loadToasts;
    }

    /**
     * `save`: a blank name is refused and nothing is sent; otherwise the
     * create or update request is sent, and success closes the modal and
     * reloads while failure leaves it open.
     */
    method Save(saveResult: Outcome<bool>, reloadResult: Outcome<seq<AdminTable>>)
      returns (request: Option<Request>, toasts: seq<ToastInput>)
      modifies this
      ensures Form() == old(Form()) && editing == old(editing)
      ensures request.None? <==> IsBlank(old(name))
      ensures request.None? ==>
                toasts == [Error(VALIDATION_TITLE, Some(NAME_OR_NUMBER_REQUIRED))] &&
                open == old(open) && rows == old(rows) && loading == old(loading)
      ensures request.Some? ==> request.value == SaveRequest(old(editing), old(Form()))
      ensures request.Some? && saveResult.Ok? ==>
                !open && !loading && rows == (if reloadResult.Ok? then reloadResult.value else old(rows)) &&
                toasts == [Success(TABLES_TITLE, Some(if old(editing).None? then CREATED else UPDATED))] +
                          LoadToasts(reloadResult)
      ensures request.Some? && saveResult.Err? ==>
                open == old(open) && rows == old(rows) &&
                toasts == [Error(TABLES_TITLE, Some(MessageOr(saveResult.error, SAVE_FALLBACK)))]
    {
      var form := Form();
      if IsBlank(form.name) {
        request := None;
        toasts := [Error(VALIDATION_TITLE, Some(NAME_OR_NUMBER_REQUIRED))];
        return;
      }
      var r := SaveRequest(editing, form);
      assert r.Create? <==> editing.None?;
      request := Some(r);
      toasts := Submit(r, saveResult, reloadResult);
    }

    method SetConfirmDisable(r: Option<AdminTable>)
      modifies this
      ensures confirmDisable == r && rows == old(rows) && open == old(open) && Form() == old(Form())
    {
      confirmDisable := r;
    }

    /** `disableConfirmed`: nothing without a selection; success clears it and reloads. */
    method DisableConfirmed(deleteResult: Outcome<bool>, reloadResult: Outcome<seq<AdminTable>>)
      returns (deleted: Option<string>, toasts: seq<ToastInput>)
      modifies this
      ensures Form() == old(Form()) && open == old(open)
      ensures old(confirmDisable).None? ==> deleted.None? && toasts == [] && rows == old(rows)
      ensures old(confirmDisable).Some? ==> deleted == Some(old(confirmDisable).value.id)
      ensures deleted.Some? && deleteResult.Ok? ==>
                confirmDisable.None? && !loading &&
                rows == (if reloadResult.Ok? then reloadResult.value else old(rows)) &&
                toasts == [Success(TABLES_TITLE, Some(DISABLED))] + LoadToasts(reloadResult)
      ensures deleted.Some? && deleteResult.Err? ==>
                confirmDisable == old(confirmDisable) && rows == old(rows) &&
                toasts == [Error(TABLES_TITLE, Some(MessageOr(deleteResult.error, DISABLE_FALLBACK)))]
    {
      deleted := None;
      toasts := [];
      if confirmDisable.None? {
        return;
      }
      deleted := Some(confirmDisable.value.id);
      if deleteResult.Err? {
        toasts := [Error(TABLES_TITLE, Some(MessageOr(deleteResult.error, DISABLE_FALLBACK)))];
        return;
      }
      toasts := [Success(TABLES_TITLE, Some(DISABLED))];
      confirmDisable := None;
      var loadToasts := Load(reloadResult);
      toasts := toasts + loadToasts;
    }
  }
}

=== FILE: admin_waiters.dfy ===
/**
 * The staff screen of src/app/admin/waiters/page.tsx: the list of waiters,
 * the search, the create/edit form and the disable confirmation.
 */
module AdminWaiters {
  import opened Wrappers
  import opened Text
  import opened Domain
  import opened Failures
  import opened Ui
  import opened AdminForms

  const WAITERS_TITLE := "Garçons"
  const LOAD_FALLBACK := "Falha ao carregar"
  const SAVE_FALLBACK := "Falha ao salvar"
  const DISABLE_FALLBACK := "Falha ao desativar"
  const CREATED := "Criado."
  const UPDATED := "Atualizado."
  const DISABLED := "Desativado."

  datatype WaiterForm = WaiterForm(name: string, isActive: bool)

  const CREATE_FORM := WaiterForm("", true)

  /** `startEdit(r)`: the row's name and flag. */
  function EditForm(r: AdminWaiter): (f: WaiterForm)
    ensures f.name == r.name && f.isActive == r.isActive
  {
    WaiterForm(r.name, r.isActive)
  }

  /** The same payload for create and update. */
  datatype WaiterPayload = WaiterPayload(name: string, isActive: bool)

  datatype Request = Create(payload: WaiterPayload) | Update(id: string, payload: WaiterPayload)

  /** `editing` picks update or create; the payload is the trimmed name and the flag either way. */
  function SaveRequest(editing: Option<AdminWaiter>, f: WaiterForm): (r: Request)
    ensures r.payload == WaiterPayload(Trim(f.name), f.isActive)
    ensures r.Update? <==> editing.Some?
    ensures r.Update? ==> r.id == editing.value.id
  {
    match editing
    case None => Create(WaiterPayload(Trim(f.name), f.isActive))
    case Some(row) => Update(row.id, WaiterPayload(Trim(f.name), f.isActive))
  }

  /** Saving an edited waiter untouched sends its name, trimmed, and its flag back. */
  lemma EditThenSaveSendsRowBack(r: AdminWaiter)
    ensures SaveRequest(Some(r), EditForm(r)) == Update(r.id, WaiterPayload(Trim(r.name), r.isActive))
    ensures Trim(r.name) == r.name ==> SaveRequest(Some(r), EditForm(r)).payload == WaiterPayload(r.name, r.isActive)
  {
  }

  /** The toasts of a load: none on success, else one error toast under the page's title. */
  function LoadToasts(result: Outcome<seq<AdminWaiter>>): (toasts: seq<ToastInput>)
    ensures toasts == [] <==> result.Ok?
    ensures result.Err? ==> |toasts| == 1 && toasts[0].kind == ErrorToast && toasts[0].title == WAITERS_TITLE
  {
    if result.Ok? then [] else [Error(WAITERS_TITLE, Some(MessageOr(result.error, LOAD_FALLBACK)))]
  }

  class WaitersPage {
    var rows: seq<AdminWaiter>
    var loading: bool
    var query: string
    var open: bool
    var editing: Option<AdminWaiter>
    var name: string
    var isActive: bool
    var confirmDisable: Option<AdminWaiter>

    constructor ()
      ensures rows == [] && loading && query == [] && !open && editing.None? && confirmDisable.None?
      ensures Form() == CREATE_FORM
    {
      rows, loading, query, open, editing, confirmDisable := [], true, [], false, None, None;
      name, isActive := "", true;
    }

    function Form(): WaiterForm
      reads this
    {
      WaiterForm(name, isActive)
    }

    function Visible(): seq<AdminWaiter>
      reads this
    {
      SearchByName(rows, (r: AdminWaiter) => r.name, query)
    }

    /** `load`: success replaces the rows, failure reports and keeps them; loading ends false. */
    method Load(result: Outcome<seq<AdminWaiter>>) returns (toasts: seq<ToastInput>)
      modifies this
      ensures !loading && toasts == LoadToasts(result)
      ensures rows == (if result.Ok? then result.value else old(rows))
      ensures Form() == old(Form()) && open == old(open) && editing == old(editing)
      ensures confirmDisable == old(confirmDisable) && query == old(query)
    {
      loading := true;
      toasts := [];
      if result.Ok? {
        rows := result.value;
      } else {
        toasts := [Error(WAITERS_TITLE, Some(MessageOr(result.error, LOAD_FALLBACK)))];
      }
      loading := false;
    }

    method StartCreate()
      modifies this
      ensures editing.None? && open && Form() == CREATE_FORM
      ensures rows == old(rows) && confirmDisable == old(confirmDisable)
    {
      editing, name, isActive, open := None, "", true, true;
    }

    method StartEdit(r: AdminWaiter)
      modifies this
      ensures editing == Some(r) && open && Form() == EditForm(r)
      ensures rows == old(rows) && confirmDisable == old(confirmDisable)
    {
      editing, name, isActive, open := Some(r), r.name, r.isActive, true;
    }

    /**
     * The part of `save` after validation: send the request; success
     * closes the modal and reloads, failure reports and leaves it open.
     */
    method Submit(request: Request, saveResult: Outcome<bool>, reloadResult: Outcome<seq<AdminWaiter>>)
      returns (toasts: seq<ToastInput>)
      modifies this
      ensures name == old(name) && isActive == old(isActive)
      ensures editing == old(editing) && confirmDisable == old(confirmDisable) && query == old(query)
      ensures saveResult.Ok? ==>
                !open && !loading && rows == (if reloadResult.Ok? then reloadResult.value else old(rows)) &&
                toasts == [Success(WAITERS_TITLE, Some(if request.Create? then CREATED else UPDATED))] +
                          LoadToasts(reloadResult)
      ensures saveResult.Err? ==>
                open == old(open) && rows == old(rows) && loading == old(loading) &&
                toasts == [Error(WAITERS_TITLE, Some(MessageOr(saveResult.error, SAVE_FALLBACK)))]
    {
      if saveResult.Err? {
        toasts := [Error(WAITERS_TITLE, Some(MessageOr(saveResult.error, SAVE_FALLBACK)))];
        return;
      }
      open := false;
      var loadToasts := Load(reloadResult);
      toasts := [Success(WAITERS_TITLE, Some(if request.Create? then CREATED else UPDATED))] + loadToasts;
    }

    /**
     * `save`: a blank name is refused and nothing is sent; otherwise the
     * create or update request is sent, and success closes the modal and
     * reloads while failure leaves it open.
     */
    method Save(saveResult: Outcome<bool>, reloadResult: Outcome<seq<AdminWaiter>>)
      returns (request: Option<Request>, toasts: seq<ToastInput>)
      modifies this
      ensures Form() == old(Form()) && editing == old(editing)
      ensures request.None? <==> IsBlank(old(name))
      ensures request.None? ==>
                toasts == [Error(VALIDATION_TITLE, Some(NAME_REQUIRED))] &&
                open == old(open) && rows == old(rows) && loading == old(loading)
      ensures request.Some? ==> request.value == SaveRequest(old(editing), old(Form()))
      ensures request.Some? && saveResult.Ok? ==>
                !open && !loading && rows == (if reloadResult.Ok? then reloadResult.value else old(rows)) &&
                toasts == [Success(WAITERS_TITLE, Some(if old(editing).None? then CREATED else UPDATED))] +
                          LoadToasts(reloadResult)
      ensures request.Some? && saveResult.Err? ==>
                open == old(open) && rows == old(rows) &&
                toasts == [Error(WAITERS_TITLE, Some(MessageOr(saveResult.error, SAVE_FALLBACK)))]
    {
      var form := Form();
      if IsBlank(form.name) {
        request := None;
        toasts := [Error(VALIDATION_TITLE, Some(NAME_REQUIRED))];
        return;
      }
      var r := SaveRequest(editing, form);
      assert r.Create? <==> editing.None?;
      request := Some(r);
      toasts := Submit(r, saveResult, reloadResult);
    }

    method SetConfirmDisable(r: Option<AdminWaiter>)
      modifies this
      ensures confirmDisable == r && rows == old(rows) && open == old(open) && Form() == old(Form())
    {
      confirmDisable := r;
    }

    /** `disableConfirmed`: nothing without a selection; success clears it and reloads. */
    method DisableConfirmed(deleteResult: Outcome<bool>, reloadResult: Outcome<seq<AdminWaiter>>)
      returns (deleted: Option<string>, toasts: seq<ToastInput>)
      modifies this
      ensures Form() == old(Form()) && open == old(open)
      ensures old(confirmDisable).None? ==> deleted.None? && toasts == [] && rows == old(rows)
      ensures old(confirmDisable).Some? ==> deleted == Some(old(confirmDisable).value.id)
      ensures deleted.Some? && deleteResult.Ok? ==>
                confirmDisable.None? && !loading &&
                rows == (if reloadResult.Ok? then reloadResult.value else old(rows)) &&
                toasts == [Success(WAITERS_TITLE, Some(DISABLED))] + LoadToasts(reloadResult)
      ensures deleted.Some? && deleteResult.Err? ==>
                confirmDisable == old(confirmDisable) && rows == old(rows) &&
                toasts == [Error(WAITERS_TITLE, Some(MessageOr(deleteResult.error, DISABLE_FALLBACK)))]
    {
      deleted := None;
      toasts := [];
      if confirmDisable.None? {
        return;
      }
      deleted := Some(confirmDisable.value.id);
      if deleteResult.Err? {
        toasts := [Error(WAITERS_TITLE, Some(MessageOr(deleteResult.error, DISABLE_FALLBACK)))];
        return;
      }
      toasts := [Success(WAITERS_TITLE, Some(DISABLED))];
      confirmDisable := None;
      var loadToasts := Load(reloadResult);
      toasts := toasts + loadToasts;
    }
  }
}

=== FILE: api.dfy ===
/**
 * The request/response envelope of src/lib/api.ts: how the request headers
 * are assembled, the two runtime guards on the `{ ok, data }` and
 * `{ ok, error: { message } }` envelopes, and the decision that turns an
 * HTTP status and a response body into returned data or a thrown message.
 * The transport itself is a parameter: the caller passes the status and
 * the body text as it was read.
 */
module Api {
  import opened Wrappers
  import opened Json
  import opened Text
  import opened Storage
  import opened Ui
  import opened Lists

  const CONTENT_TYPE := "Content-Type"
  const JSON_MEDIA := "application/json"
  const AUTHORIZATION := "Authorization"
  /** The credential prefix of section 2.1 of RFC 6750, with its single space. */
  const BEARER := "Bearer "
  const INVALID_RESPONSE := "Resposta inválida do servidor."
  const HTTP_ERROR_PREFIX := "Erro HTTP "
  const SESSION_TITLE := "Sessão"
  const SESSION_EXPIRED := "Sua sessão expirou. Faça login novamente."

  /**
   * The `headers` a caller may pass.  Each form is seen through the
   * name/value pairs its iteration visits: `forEach` on a `Headers` object,
   * `for…of` on an array of pairs, `Object.entries` on a record.
   */
  datatype HeadersInit =
    | HeadersObject(entries: seq<(string, string)>)
    | PairArray(entries: seq<(string, string)>)
    | PlainRecord(entries: seq<(string, string)>)

  /** The pairs `headersInitToRecord` visits; `undefined` visits none. */
  function EntriesOf(init: Option<HeadersInit>): seq<(string, string)> {
    match init
    case None => []
    case Some(h) => h.entries
  }

  /** `headersInitToRecord`: copies the pairs into a fresh record, in iteration order. */
  method HeadersInitToRecord(init: Option<HeadersInit>) returns (out: map<string, string>)
    ensures init.None? ==> out == map[]
    ensures out == RecordOf(EntriesOf(init))
  {
    out := map[];
    if init.None? {
      return;
    }
    var pairs := init.value.entries;
    var i := 0;
    while i < |pairs|
      invariant 0 <= i <= |pairs|
      invariant out == RecordOf(pairs[..i])
    {
      assert pairs[..i + 1][..i] == pairs[..i];
      out := out[pairs[i].0 := pairs[i].1];
      i := i + 1;
    }
    assert pairs[..|pairs|] == pairs;
  }

  /** `if (token)`: a stored token that is not the empty string. */
  predicate TokenPresent(token: Option<string>) {
    token.Some? && token.value != []
  }

  /** The headers sent: the JSON content type, then the caller's record, then the bearer credential. */
  function RequestHeaders(caller: map<string, string>, token: Option<string>): map<string, string> {
    var base := map[CONTENT_TYPE := JSON_MEDIA] + caller;
    if TokenPresent(token) then base[AUTHORIZATION := BEARER + token.value] else base
  }

  /**
   * Precedence of the three sources: the caller overrides the default
   * content type, a present token overrides any caller `Authorization`, and
   * every other caller header is sent as given.
   */
  lemma HeaderPrecedence(caller: map<string, string>, token: Option<string>)
    ensures var h := RequestHeaders(caller, token);
            CONTENT_TYPE in h &&
            h[CONTENT_TYPE] == (if CONTENT_TYPE in caller then caller[CONTENT_TYPE] else JSON_MEDIA)
    ensures var h := RequestHeaders(caller, token);
            TokenPresent(token) ==> AUTHORIZATION in h && h[AUTHORIZATION] == BEARER + token.value
    ensures var h := RequestHeaders(caller, token);
            !TokenPresent(token) ==>
              (AUTHORIZATION in h <==> AUTHORIZATION in caller) &&
              (AUTHORIZATION in caller ==> h[AUTHORIZATION] == caller[AUTHORIZATION])
    ensures var h := RequestHeaders(caller, token);
            forall k :: k != CONTENT_TYPE && k != AUTHORIZATION ==>
              (k in h <==> k in caller) && (k in caller ==> h[k] == caller[k])
  {
  }

  /** The body text as read: empty, not JSON, or parsed. */
  datatype ResponseText = EmptyText | NotJson | JsonText(value: Json)

  /** `text ? JSON.parse(text) : null`, with a parse failure caught as null. */
  function ParsedBody(body: ResponseText): (parsed: Option<Json>)
    ensures parsed.Some? <==> body.JsonText?
  {
    match body
    case JsonText(v) => Some(v)
    case _ => None
  }

  /** `isApiErrorResponse`: an object, `ok === false`, an object `error` whose `message` is a non-blank string. */
  predicate IsApiErrorResponse(v: Option<Json>) {
    v.Some? && IsObjectLike(v.value) &&
    Member(v.value, "ok") == Some(JBool(false)) &&
    var err := Member(v.value, "error");
    err.Some? && IsObjectLike(err.value) &&
    var msg := Member(err.value, "message");
    msg.Some? && msg.value.JString? && !IsBlank(msg.value.s)
  }

  /** `isApiSuccessResponse`: an object, `ok === true`, and a `data` member. */
  predicate IsApiSuccessResponse(v: Option<Json>) {
    v.Some? && IsObjectLike(v.value) &&
    Member(v.value, "ok") == Some(JBool(true)) &&
    Member(v.value, "data").Some?
  }

  /** No value passes both guards: `ok` cannot be both `false` and `true`. */
  lemma GuardsExclusive(v: Option<Json>)
    ensures !(IsApiErrorResponse(v) && IsApiSuccessResponse(v))
  {
  }

  /** `parsed.error.message` of a value the error guard accepted. */
  function EnvelopeMessage(v: Option<Json>): (m: string)
    requires IsApiErrorResponse(v)
    ensures !IsBlank(m)
  {
    Member(Member(v.value, "error").value, "message").value.s
  }

  /** `res.ok`: a status in the 200-299 range. */
  predicate IsOk(status: nat) {
    200 <= status <= 299
  }

  /** What `apiFetch` resolves with, or the message of the `Error` it throws. */
  datatype ApiResult = Data(data: Json) | Failure(message: string)

  /** The thrown message for a status outside 2xx. */
  function HttpErrorMessage(status: nat, parsed: Option<Json>): (m: string)
    ensures !IsBlank(m)
  {
    if IsApiErrorResponse(parsed) then EnvelopeMessage(parsed)
    else
      NotBlankWhenFirstNotSpace(HTTP_ERROR_PREFIX + Decimal(status));
      HTTP_ERROR_PREFIX + Decimal(status)
  }

  /** A string whose first character is not white space is not blank. */
  lemma {:induction false} NotBlankWhenFirstNotSpace(s: string)
    requires s != [] && !IsSpace(s[0])
    ensures !IsBlank(s)
  {
    BlankIffAllSpace(s);
  }

  /**
   * The response decision of `apiFetch`.  Data is returned exactly for a 2xx
   * status with a success envelope, and then it is that envelope's `data`;
   * every thrown message is non-blank.
   */
  function Decide(status: nat, parsed: Option<Json>): (r: ApiResult)
    ensures r.Data? <==> IsOk(status) && IsApiSuccessResponse(parsed)
    ensures r.Data? ==> Path(parsed, "data") == Some(r.data)
    ensures r.Failure? ==> !IsBlank(r.message)
  {
    if !IsOk(status) then
      Failure(HttpErrorMessage(status, parsed))
    else if parsed.None? || !Truthy(parsed.value) then
      NotBlankWhenFirstNotSpace(INVALID_RESPONSE);
      Failure(INVALID_RESPONSE)
    else if IsApiErrorResponse(parsed) then
      Failure(EnvelopeMessage(parsed))
    else if !IsApiSuccessResponse(parsed) then
      NotBlankWhenFirstNotSpace(INVALID_RESPONSE);
      Failure(INVALID_RESPONSE)
    else
      Data(Member(parsed.value, "data").value)
  }

  /** Outside 2xx: the envelope's message when the error guard holds, otherwise "Erro HTTP <status>". */
  lemma NonOkMessage(status: nat, parsed: Option<Json>)
    requires !IsOk(status)
    ensures IsApiErrorResponse(parsed) ==> Decide(status, parsed) == Failure(EnvelopeMessage(parsed))
    ensures !IsApiErrorResponse(parsed) ==> Decide(status, parsed) == Failure(HTTP_ERROR_PREFIX + Decimal(status))
  {
  }

  /** A 2xx response whose body is empty or not JSON is an invalid response. */
  lemma OkWithoutBodyIsInvalid(status: nat, body: ResponseText)
    requires IsOk(status) && !body.JsonText?
    ensures Decide(status, ParsedBody(body)) == Failure(INVALID_RESPONSE)
  {
  }

  /**
   * A 2xx response with an error envelope throws its message; one matching
   * neither guard is an invalid response.
   */
  lemma OkEnvelopeCases(status: nat, parsed: Option<Json>)
    requires IsOk(status)
    ensures IsApiErrorResponse(parsed) ==> Decide(status, parsed) == Failure(EnvelopeMessage(parsed))
    ensures !IsApiErrorResponse(parsed) && !IsApiSuccessResponse(parsed) ==>
              Decide(status, parsed) == Failure(INVALID_RESPONSE)
  {
  }

  /** An error envelope whose message is blank fails the guard, so a 2xx answer with it is invalid. */
  lemma {:induction false} BlankEnvelopeMessageIsInvalid()
    ensures var body := JObject([("ok", JBool(false)), ("error", JObject([("message", JString(" "))]))]);
            !IsApiErrorResponse(Some(body)) && Decide(200, Some(body)) == Failure(INVALID_RESPONSE)
  {
    var body := JObject([("ok", JBool(false)), ("error", JObject([("message", JString(" "))]))]);
    assert Member(body, "ok") == Some(JBool(false));
    var err := JObject([("message", JString(" "))]);
    assert Member(body, "error") == Some(err);
    assert Member(err, "message") == Some(JString(" "));
    BlankIffAllSpace(" ");
    assert IsBlank(" ");
  }

  /** The notice raised when the server answers 401. */
  function SessionExpiredNotice(): (t: ToastInput)
    ensures t.kind == InfoToast && t.title == SESSION_TITLE && t.message == Some(SESSION_EXPIRED)
  {
    Info(SESSION_TITLE, Some(SESSION_EXPIRED))
  }

  /**
   * One `apiFetch` call, given the status and the body the server sent.  It
   * returns the headers it sent, its result and the notice it raised; a 401
   * clears the stored session before the failure is returned, any other
   * status leaves storage alone.
   */
  method ApiFetch(ls: LocalStorage?, init: Option<HeadersInit>, status: nat, body: ResponseText)
    returns (headers: map<string, string>, result: ApiResult, notice: Option<ToastInput>)
    modifies ls
    ensures headers == RequestHeaders(RecordOf(EntriesOf(init)), old(GetToken(ls)))
    ensures result == Decide(status, ParsedBody(body))
    ensures status == 401 ==> notice == Some(SessionExpiredNotice())
    ensures status == 401 && ls != null ==> ls.items == WithoutAuth(old(ls.items))
    ensures status != 401 ==> notice.None? && (ls != null ==> unchanged(ls))
  {
    var token := GetToken(ls);
    var caller := HeadersInitToRecord(init);
    headers := map[CONTENT_TYPE := JSON_MEDIA] + caller;
    if token.Some? && token.value != [] {
      headers := headers[AUTHORIZATION := BEARER + token.value];
    }

    var parsed: Option<Json> := None;
    if body.JsonText? {
      parsed := Some(body.value);
    }

    notice := None;
    if !IsOk(status) {
      if status == 401 {
        ClearAuth(ls);
        notice := Some(SessionExpiredNotice());
      }
      var msg := if IsApiErrorResponse(parsed) then EnvelopeMessage(parsed) else HTTP_ERROR_PREFIX + Decimal(status);
      result := Failure(msg);
      return;
    }

    if parsed.None? || !Truthy(parsed.value) {
      result := Failure(INVALID_RESPONSE);
    } else if IsApiErrorResponse(parsed) {
      result := Failure(EnvelopeMessage(parsed));
    } else if !IsApiSuccessResponse(parsed) {
      result := Failure(INVALID_RESPONSE);
    } else {
      result := Data(Member(parsed.value, "data").value);
    }
  }

  /** After a 401 the stored session is gone: a later hydrate finds no token and no user. */
  lemma {:induction false} UnauthorizedSignsOut(m: map<string, string>, codec: UserCodec)
    ensures !TokenPresent(Get(WithoutAuth(m), TOKEN_KEY))
    ensures UserIn(WithoutAuth(m), codec).None?
  {
    ClearAuthThenRead(m, codec);
  }
}

=== FILE: auth_store.dfy ===
/**
 * The authentication store of src/store/auth.ts: the signed-in user, the
 * bearer token and the `isAuthenticated` flag, kept in step with storage.
 * The results of the `/auth/login`, `/auth/me` and `/auth/logout` calls
 * are parameters.
 */
module Auth {
  import opened Wrappers
  import opened Domain
  import opened Failures
  import opened Storage
  import opened OperationalStore

  /** `!!token && !!user`: a non-empty token and a user. */
  predicate Authenticated(token: Option<string>, user: Option<AuthUser>) {
    token.Some? && token.value != [] && user.Some?
  }

  class AuthStore {
    var user: Option<AuthUser>
    var token: Option<string>
    var isAuthenticated: bool
    const ls: LocalStorage?
    const codec: UserCodec
    const operational: OperationalStore

    /** The store starts signed out. */
    constructor (ls: LocalStorage?, codec: UserCodec, operational: OperationalStore)
      requires operational.ls == ls
      ensures user.None? && token.None? && !isAuthenticated && Consistent()
      ensures this.ls == ls && this.codec == codec && this.operational == operational
    {
      user, token, isAuthenticated := None, None, false;
      this.ls, this.codec, this.operational := ls, codec, operational;
    }

    /** Both stores write through the same storage object. */
    predicate Valid() {
      operational.ls == ls
    }

    /** The flag is only ever raised together with a user. */
    predicate Consistent()
      reads this
    {
      isAuthenticated ==> user.Some?
    }

    /** `hydrate`: reads token and user back and also hydrates the operational waiter. */
    method Hydrate()
      requires Valid()
      modifies this, operational
      ensures token == GetToken(ls) && user == GetUser(ls, codec)
      ensures isAuthenticated <==> Authenticated(token, user)
      ensures Consistent()
      ensures operational.waiterId == Read(ls, KEY_ID) && operational.waiterName == Read(ls, KEY_NAME)
    {
      token := GetToken(ls);
      user := GetUser(ls, codec);
      isAuthenticated := Authenticated(token, user);
      operational.Hydrate();
    }

    /**
     * `login`: a failed login call changes nothing; otherwise the login
     * response is stored first, and only when `/auth/me` also succeeds is the
     * user replaced by its user and the store marked authenticated.
     */
    method Login(loginResult: Outcome<LoginData>, meResult: Outcome<MeData>) returns (result: Outcome<AuthUser>)
      requires Valid() && Consistent()
      modifies this, ls
      ensures Consistent()
      ensures loginResult.Err? ==> result == Err(loginResult.error) && unchanged(this) && (ls != null ==> unchanged(ls))
      ensures loginResult.Ok? && meResult.Err? ==>
                result == Err(meResult.error) && unchanged(this) &&
                (ls != null ==> ls.items == WithAuth(old(ls.items), loginResult.value.user, loginResult.value.token, codec))
      ensures loginResult.Ok? && meResult.Ok? ==>
                result == Ok(meResult.value.user) &&
                token == Some(loginResult.value.token) && user == Some(meResult.value.user) && isAuthenticated &&
                (ls != null ==>
                   ls.items == WithAuth(old(ls.items), loginResult.value.user, loginResult.value.token, codec)
                                 [USER_KEY := codec.encode(meResult.value.user)])
    {
      if loginResult.Err? {
        return Err(loginResult.error);
      }
      var res := loginResult.value;
      SetAuth(ls, res.user, res.token, codec);
      if meResult.Err? {
        return Err(meResult.error);
      }
      var me := meResult.value;
      SetUser(ls, me.user, codec);
      token, user, isAuthenticated := Some(res.token), Some(me.user), true;
      result := Ok(me.user);
    }

    /** `refreshMe`: on success the user is replaced and stored, the token left alone. */
    method RefreshMe(meResult: Outcome<MeData>) returns (result: Outcome<AuthUser>)
      requires Consistent()
      modifies this, ls
      ensures Consistent()
      ensures meResult.Err? ==> result == Err(meResult.error) && unchanged(this) && (ls != null ==> unchanged(ls))
      ensures meResult.Ok? ==>
                result == Ok(meResult.value.user) && user == Some(meResult.value.user) &&
                isAuthenticated && token == old(token) &&
                (ls != null ==> ls.items == old(ls.items)[USER_KEY := codec.encode(meResult.value.user)])
    {
      if meResult.Err? {
        return Err(meResult.error);
      }
      SetUser(ls, meResult.value.user, codec);
      user, isAuthenticated := Some(meResult.value.user), true;
      result := Ok(meResult.value.user);
    }

    /**
     * `logout`: whatever the server answered, storage is cleared of the auth
     * keys and of the waiter keys and every field is reset.
     */
    method Logout(serverResult: Outcome<bool>)
      requires Valid()
      modifies this, ls, operational
      ensures user.None? && token.None? && !isAuthenticated && Consistent()
      ensures operational.waiterId.None? && operational.waiterName.None?
      ensures ls != null ==> ls.items == WithoutWaiter(WithoutAuth(old(ls.items)))
    {
      ClearAuth(ls);
      user, token, isAuthenticated := None, None, false;
      operational.ClearWaiter();
    }
  }

  /** After a hydrate, the store is authenticated exactly when storage holds a non-empty token and a readable user. */
  lemma {:induction false} HydrateAfterSetAuth(m: map<string, string>, u: AuthUser, t: string, codec: UserCodec)
    requires RoundTrips(codec)
    ensures Authenticated(Get(WithAuth(m, u, t, codec), TOKEN_KEY), UserIn(WithAuth(m, u, t, codec), codec)) <==> t != []
    ensures !Authenticated(Get(WithoutAuth(m), TOKEN_KEY), UserIn(WithoutAuth(m), codec))
  {
    SetAuthThenRead(m, u, t, codec);
    ClearAuthThenRead(m, codec);
  }

  /** A whole session: sign in, reload the page, sign out. */
  method SessionScenario(ls: LocalStorage, codec: UserCodec, login: LoginData, me: MeData)
    requires RoundTrips(codec) && login.token != []
    modifies ls
  {
    var ops := new OperationalStore(ls);
    var auth := new AuthStore(ls, codec, ops);
    var r := auth.Login(Ok(login), Ok(me));
    assert auth.isAuthenticated && auth.user == Some(me.user);
    var reloadedOps := new OperationalStore(ls);
    var reloaded := new AuthStore(ls, codec, reloadedOps);
    reloaded.Hydrate();
    assert ls.items[USER_KEY] == codec.encode(me.user);
    assert reloaded.user == Some(me.user) && reloaded.token == Some(login.token) && reloaded.isAuthenticated;
    reloaded.Logout(Err(OtherValue));
    var again := new AuthStore(ls, codec, reloadedOps);
    again.Hydrate();
    assert !again.isAuthenticated && again.operational.waiterId.None?;
  }
}

=== FILE: dashboard.dfy ===
/**
 * The metrics screen of src/app/admin/dashboard/page.tsx: four requests
 * over a date range awaited together, the summary cards with their
 * defaults, and the charts cut to their first rows.  The responses are
 * cast, not checked, so the summary stays a parsed JSON value here.
 */
module Dashboard {
  import opened Wrappers
  import opened Json
  import opened Failures
  import opened Lists
  import opened Ui
  import opened ErrorMessages

  const DASHBOARD_TITLE := "Dashboard"
  const METRICS_FALLBACK := "Falha ao carregar métricas"
  const TOP_PRODUCTS_SHOWN: nat := 8
  const WAITERS_CHARTED: nat := 12
  const WAITERS_LISTED: nat := 6

  /** A `string | number` field of the metrics. */
  datatype TextOrNumber = Text(text: string) | Number(n: real)

  datatype TopProduct = TopProduct(productId: Option<string>, name: string, revenue: TextOrNumber)
  datatype HourPoint = HourPoint(hour: TextOrNumber, ordersCount: int, revenue: Option<TextOrNumber>)
  datatype WaiterPerformance = WaiterPerformance(waiterId: string, name: string, revenue: TextOrNumber, ordersCount: int)

  /** `summary?.revenue ?? "0"` */
  function Revenue(summary: Option<Json>): Json {
    OrElse(Path(summary, "revenue"), JString("0"))
  }

  /** `summary?.ticketAverage ?? "0"` */
  function TicketAverage(summary: Option<Json>): Json {
    OrElse(Path(summary, "ticketAverage"), JString("0"))
  }

  /** `summary?.comandas?.open ?? 0` */
  function OpenCount(summary: Option<Json>): Json {
    OrElse(Path(Path(summary, "comandas"), "open"), JNumber(0.0))
  }

  /** `summary?.comandas?.closed ?? 0` */
  function ClosedCount(summary: Option<Json>): Json {
    OrElse(Path(Path(summary, "comandas"), "closed"), JNumber(0.0))
  }

  /** Before any summary arrives, or when the response was null, every card shows its default. */
  lemma DefaultsWithoutSummary(summary: Option<Json>)
    requires summary.None? || summary == Some(JNull)
    ensures Revenue(summary) == JString("0") && TicketAverage(summary) == JString("0")
    ensures OpenCount(summary) == JNumber(0.0) && ClosedCount(summary) == JNumber(0.0)
  {
  }

  /** The summary object the server is meant to send. */
  function SummaryJson(revenue: Json, ticketAverage: Json, open: Json, closed: Json): Json {
    JObject([("revenue", revenue), ("ticketAverage", ticketAverage),
             ("comandas", JObject([("open", open), ("closed", closed)]))])
  }

  /**
   * A complete summary is shown as sent: `??` replaces only null and
   * undefined, so a zero count or an empty revenue text is kept.
   */
  lemma SummaryShownAsSent(revenue: Json, ticketAverage: Json, open: Json, closed: Json)
    requires revenue != JNull && ticketAverage != JNull && open != JNull && closed != JNull
    ensures var s := Some(SummaryJson(revenue, ticketAverage, open, closed));
            Revenue(s) == revenue && TicketAverage(s) == ticketAverage &&
            OpenCount(s) == open && ClosedCount(s) == closed
  {
    var members := SummaryJson(revenue, ticketAverage, open, closed).members;
    LookupLast(members, 0);
    LookupLast(members, 1);
    LookupLast(members, 2);
    var counts := [("open", open), ("closed", closed)];
    LookupLast(counts, 0);
    LookupLast(counts, 1);
  }

  /** The charts and the list read the first rows only; the list is the head of the waiter chart. */
  lemma ChartsShowFirstRows(topProducts: seq<TopProduct>, byWaiter: seq<WaiterPerformance>)
    ensures |Take(topProducts, TOP_PRODUCTS_SHOWN)| <= TOP_PRODUCTS_SHOWN
    ensures |Take(byWaiter, WAITERS_LISTED)| <= WAITERS_LISTED
    ensures Take(byWaiter, WAITERS_LISTED) == Take(Take(byWaiter, WAITERS_CHARTED), WAITERS_LISTED)
    ensures |byWaiter| <= WAITERS_LISTED ==> Take(byWaiter, WAITERS_LISTED) == Take(byWaiter, WAITERS_CHARTED) == byWaiter
  {
    var listed := Take(byWaiter, WAITERS_LISTED);
    var nested := Take(Take(byWaiter, WAITERS_CHARTED), WAITERS_LISTED);
    assert |listed| == |nested|;
    assert forall i :: 0 <= i < |listed| ==> listed[i] == nested[i];
  }

  /** The requests of one load, awaited together. */
  datatype Responses = Responses(
    summary: Outcome<Json>,
    topProducts: Outcome<seq<TopProduct>>,
    byHour: Outcome<seq<HourPoint>>,
    byWaiter: Outcome<seq<WaiterPerformance>>)
  {
    predicate AllOk() {
      summary.Ok? && topProducts.Ok? && byHour.Ok? && byWaiter.Ok?
    }

    /** `e` is the error of one of the failed requests: the one `Promise.all` rejects with. */
    predicate RejectedWith(e: Thrown) {
      (summary.Err? && summary.error == e) || (topProducts.Err? && topProducts.error == e) ||
      (byHour.Err? && byHour.error == e) || (byWaiter.Err? && byWaiter.error == e)
    }
  }

  /** The toasts of a load: none when every request succeeds, else one naming the rejection. */
  function LoadToasts(responses: Responses, rejection: Thrown): (toasts: seq<ToastInput>)
    ensures toasts == [] <==> responses.AllOk()
    ensures !responses.AllOk() ==>
              toasts == [Error(DASHBOARD_TITLE, Some(DashboardMessage(rejection, METRICS_FALLBACK)))]
  {
    if responses.AllOk() then [] else [Error(DASHBOARD_TITLE, Some(DashboardMessage(rejection, METRICS_FALLBACK)))]
  }

  class DashboardPage {
    var from: string
    var to: string
    var loading: bool
    var summary: Option<Json>
    var topProducts: seq<TopProduct>
    var byHour: seq<HourPoint>
    var byWaiter: seq<WaiterPerformance>

    /** The initial range is the caller's (the source derives it from the clock). */
    constructor (from: string, to: string)
      ensures this.from == from && this.to == to && loading
      ensures summary.None? && topProducts == [] && byHour == [] && byWaiter == []
    {
      this.from, this.to, loading := from, to, true;
      summary, topProducts, byHour, byWaiter := None, [], [], [];
    }

    method SetRange(from: string, to: string)
      modifies this
      ensures this.from == from && this.to == to
      ensures loading == old(loading) && summary == old(summary) && topProducts == old(topProducts)
      ensures byHour == old(byHour) && byWaiter == old(byWaiter)
    {
      this.from, this.to := from, to;
    }

    /**
     * `load`: the four requests ask for the current range; the data is
     * replaced only when all four succeed, and a failure of any leaves
     * all four as they were and reports the rejection.
     */
    method Load(responses: Responses, rejection: Thrown)
      returns (range: (string, string), toasts: seq<ToastInput>)
      requires !responses.AllOk() ==> responses.RejectedWith(rejection)
      modifies this
      ensures range == (from, to) && from == old(from) && to == old(to) && !loading
      ensures toasts == LoadToasts(responses, rejection)
      ensures responses.AllOk() ==>
                summary == Some(responses.summary.value) && topProducts == responses.topProducts.value &&
                byHour == responses.byHour.value && byWaiter == responses.byWaiter.value
      ensures !responses.AllOk() ==>
                summary == old(summary) && topProducts == old(topProducts) &&
                byHour == old(byHour) && byWaiter == old(byWaiter)
    {
      loading := true;
      range := (from, to);
      toasts := [];
      if responses.AllOk() {
        summary := Some(responses.summary.value);
        topProducts := responses.topProducts.value;
        byHour := responses.byHour.value;
        byWaiter := responses.byWaiter.value;
      } else {
        toasts := [Error(DASHBOARD_TITLE, Some(DashboardMessage(rejection, METRICS_FALLBACK)))];
      }
      loading := false;
    }

    /** The four cards: revenue, ticket average, open and closed comandas. */
    function Cards(): (Json, Json, Json, Json)
      reads this
    {
      (Revenue(summary), TicketAverage(summary), OpenCount(summary), ClosedCount(summary))
    }
  }

  /** A first load that fails shows the default cards and empty charts, with one error toast. */
  method FailedFirstLoad(from: string, to: string, responses: Responses, rejection: Thrown)
    returns (page: DashboardPage, toasts: seq<ToastInput>)
    requires !responses.AllOk() && responses.RejectedWith(rejection)
    ensures page.Cards() == (JString("0"), JString("0"), JNumber(0.0), JNumber(0.0))
    ensures page.topProducts == [] && page.byHour == [] && page.byWaiter == [] && !page.loading
    ensures |toasts| == 1 && toasts[0].kind == ErrorToast && toasts[0].title == DASHBOARD_TITLE
  {
    page := new DashboardPage(from, to);
    var range;
    range, toasts := page.Load(responses, rejection);
    DefaultsWithoutSummary(page.summary);
  }
}

=== FILE: day.dfy ===
/**
 * The list of the day's comandas of src/app/operational/day/page.tsx: the
 * rows the server returns, narrowed by a status filter and by a search on
 * the table name.
 */
module Day {
  import opened Wrappers
  import opened Domain
  import opened Failures
  import opened Text
  import opened Lists

  /** The three filter buttons: "ALL", "OPEN" and "CLOSED". */
  datatype StatusFilter = All | OnlyOpen | OnlyClosed

  /** `filter === "ALL" ? true : r.status === filter` */
  predicate PassesStatus(f: StatusFilter, r: DayComandaRow) {
    match f
    case All => true
    case OnlyOpen => r.status == Open
    case OnlyClosed => r.status == Closed
  }

  function StatusTest(f: StatusFilter): DayComandaRow -> bool {
    (r: DayComandaRow) => PassesStatus(f, r)
  }

  /** The search on `r.table.name`, trimmed and case-insensitive. */
  function QueryTest(q: string): DayComandaRow -> bool {
    (r: DayComandaRow) => MatchesQuery(r.table.name, q)
  }

  /** `filtered`: the status filter first, then the search. */
  function Filtered(rows: seq<DayComandaRow>, f: StatusFilter, q: string): seq<DayComandaRow> {
    Filter(Filter(rows, StatusTest(f)), QueryTest(q))
  }

  /**
   * A row is listed exactly when it passes both filters; the listed rows
   * keep their order; "ALL" with a blank query lists every row.
   */
  lemma FilteredSpec(rows: seq<DayComandaRow>, f: StatusFilter, q: string)
    ensures forall r :: r in Filtered(rows, f, q) <==> r in rows && PassesStatus(f, r) && MatchesQuery(r.table.name, q)
    ensures IsSubsequence(Filtered(rows, f, q), rows)
    ensures f == All && IsBlank(q) ==> Filtered(rows, f, q) == rows
  {
    FilteredInOrder(rows, f, q);
    if f == All && IsBlank(q) {
      UnfilteredListsAll(rows, q);
    }
  }

  /** The two filters applied in turn keep the rows in their order. */
  lemma FilteredInOrder(rows: seq<DayComandaRow>, f: StatusFilter, q: string)
    ensures IsSubsequence(Filtered(rows, f, q), rows)
  {
    FilterTwice(rows, StatusTest(f), QueryTest(q));
  }

  /** "ALL" with a blank query lists every row. */
  lemma UnfilteredListsAll(rows: seq<DayComandaRow>, q: string)
    requires IsBlank(q)
    ensures Filtered(rows, All, q) == rows
  {
    assert Filter(rows, StatusTest(All)) == rows;
    forall i | 0 <= i < |rows| ensures QueryTest(q)(rows[i]) {
      BlankQueryMatchesAll(rows[i].table.name, q);
    }
  }

  /** Every listed row has the status the filter asks for. */
  lemma FilteredStatus(rows: seq<DayComandaRow>, q: string)
    ensures forall i :: 0 <= i < |Filtered(rows, OnlyOpen, q)| ==> Filtered(rows, OnlyOpen, q)[i].status == Open
    ensures forall i :: 0 <= i < |Filtered(rows, OnlyClosed, q)| ==> Filtered(rows, OnlyClosed, q)[i].status == Closed
  {
    FilteredSpec(rows, OnlyOpen, q);
    FilteredSpec(rows, OnlyClosed, q);
    forall i | 0 <= i < |Filtered(rows, OnlyOpen, q)| ensures Filtered(rows, OnlyOpen, q)[i].status == Open {
      assert Filtered(rows, OnlyOpen, q)[i] in Filtered(rows, OnlyOpen, q);
    }
    forall i | 0 <= i < |Filtered(rows, OnlyClosed, q)| ensures Filtered(rows, OnlyClosed, q)[i].status == Closed {
      assert Filtered(rows, OnlyClosed, q)[i] in Filtered(rows, OnlyClosed, q);
    }
  }

  /** One more row is listed at the end exactly when it passes both filters. */
  lemma FilteredSnoc(rows: seq<DayComandaRow>, r: DayComandaRow, f: StatusFilter, q: string)
    ensures Filtered(rows + [r], f, q) ==
            Filtered(rows, f, q) + (if PassesStatus(f, r) && MatchesQuery(r.table.name, q) then [r] else [])
  {
    var s := Filter(rows, StatusTest(f));
    FilterSnoc(rows, r, StatusTest(f));
    if PassesStatus(f, r) {
      assert Filter(rows + [r], StatusTest(f)) == s + [r];
      FilterSnoc(s, r, QueryTest(q));
    } else {
      assert Filter(rows + [r], StatusTest(f)) == s;
    }
  }

  /** How many rows pass both filters. */
  function Listed(rows: seq<DayComandaRow>, f: StatusFilter, q: string): nat
    decreases |rows|
  {
    if rows == [] then 0
    else (if PassesStatus(f, rows[0]) && MatchesQuery(rows[0].table.name, q) then 1 else 0) + Listed(rows[1..], f, q)
  }

  /** The search applied to a list that starts with `r`. */
  lemma QueryCons(r: DayComandaRow, rest: seq<DayComandaRow>, q: string)
    ensures |Filter([r] + rest, QueryTest(q))| == (if MatchesQuery(r.table.name, q) then 1 else 0) + |Filter(rest, QueryTest(q))|
  {
    assert ([r] + rest)[1..] == rest;
  }

  /** The page lists exactly as many rows as pass both filters. */
  lemma {:induction false} FilteredCount(rows: seq<DayComandaRow>, f: StatusFilter, q: string)
    ensures |Filtered(rows, f, q)| == Listed(rows, f, q)
    decreases |rows|
  {
    if rows != [] {
      FilteredCount(rows[1..], f, q);
      if PassesStatus(f, rows[0]) {
        assert Filter(rows, StatusTest(f)) == [rows[0]] + Filter(rows[1..], StatusTest(f));
        QueryCons(rows[0], Filter(rows[1..], StatusTest(f)), q);
      } else {
        assert Filter(rows, StatusTest(f)) == Filter(rows[1..], StatusTest(f));
      }
    }
  }

  /** A row is either open or closed, so the two counts add up to the count under "ALL". */
  lemma {:induction false} ListedPartition(rows: seq<DayComandaRow>, q: string)
    ensures Listed(rows, OnlyOpen, q) + Listed(rows, OnlyClosed, q) == Listed(rows, All, q)
    decreases |rows|
  {
    if rows != [] {
      ListedPartition(rows[1..], q);
    }
  }

  /** The open and the closed rows a search finds together number as many as "ALL" finds. */
  lemma OpenAndClosedPartition(rows: seq<DayComandaRow>, q: string)
    ensures |Filtered(rows, OnlyOpen, q)| + |Filtered(rows, OnlyClosed, q)| == |Filtered(rows, All, q)|
  {
    FilteredCount(rows, OnlyOpen, q);
    FilteredCount(rows, OnlyClosed, q);
    FilteredCount(rows, All, q);
    ListedPartition(rows, q);
  }

  /** What the body of the page shows. */
  datatype View = Spinner | NothingToday | RowList(rows: seq<DayComandaRow>)

  class DayPage {
    var rows: seq<DayComandaRow>
    var loading: bool
    var filter: StatusFilter
    var query: string

    /** No rows yet, loading, every status, no search. */
    constructor ()
      ensures rows == [] && loading && filter == All && query == []
    {
      rows, loading, filter, query := [], true, All, [];
    }

    /** The rows on screen. */
    function Visible(): seq<DayComandaRow>
      reads this
    {
      Filtered(rows, filter, query)
    }

    function View(): View
      reads this
    {
      if loading then Spinner else if |Visible()| == 0 then NothingToday else RowList(Visible())
    }

    /**
     * `fetchDay`: success replaces the rows; a failure keeps them and is
     * handed back to the caller, there being no catch.  Loading ends false.
     */
    method FetchDay(result: Outcome<seq<DayComandaRow>>) returns (raised: Option<Thrown>)
      modifies this
      ensures !loading && filter == old(filter) && query == old(query)
      ensures result.Ok? ==> rows == result.value && raised.None?
      ensures result.Err? ==> rows == old(rows) && raised == Some(result.error)
    {
      loading := true;
      raised := None;
      if result.Ok? {
        rows := result.value;
      } else {
        raised := Some(result.error);
      }
      loading := false;
    }

    /** A filter button. */
    method SetFilter(f: StatusFilter)
      modifies this
      ensures filter == f && rows == old(rows) && query == old(query) && loading == old(loading)
    {
      filter := f;
    }

    /** Typing in the search box. */
    method SetQuery(q: string)
      modifies this
      ensures query == q && rows == old(rows) && filter == old(filter) && loading == old(loading)
    {
      query := q;
    }
  }
}

=== FILE: domain.dfy ===
/** The records the server sends and the client keeps, as declared in src/lib/types.ts. */
module Domain {
  import opened Wrappers
  import Json

  datatype Role = Manager | Waiter

  /** The `role` text the server and the role cookie use. */
  function RoleName(r: Role): string {
    match r
    case Manager => "MANAGER"
    case Waiter => "WAITER"
  }

  datatype AuthUser = AuthUser(id: string, email: string, role: Role, restaurantId: string, isActive: Option<bool>)

  datatype LoginData = LoginData(token: string, user: AuthUser)

  datatype MeData = MeData(user: AuthUser)

  datatype OperationalWaiter = OperationalWaiter(id: string, name: string)

  datatype MenuProduct = MenuProduct(
    id: string, categoryId: string, name: string, description: Option<string>,
    price: string, imageUrl: Option<string>)

  datatype MenuCategory = MenuCategory(id: string, name: string, sortOrder: Option<int>, products: seq<MenuProduct>)

  datatype TableRef = TableRef(id: string, name: string, description: Option<string>)

  /** The open comanda of an overview row. */
  datatype ComandaSummary = ComandaSummary(id: string, openedAt: string, status: string, partialTotal: string)

  datatype OverviewRow = OverviewRow(table: TableRef, comandaOpen: Option<ComandaSummary>)

  datatype ComandaStatus = Open | Closed

  /** The `{ id, name }` table reference of a day row or a comanda. */
  datatype TableBrief = TableBrief(id: string, name: string)

  datatype DayComandaRow = DayComandaRow(
    id: string, status: ComandaStatus, openedAt: string, closedAt: Option<string>,
    table: TableBrief, total: string)

  datatype DetailItem = DetailItem(id: string, productId: string, productName: Option<string>,
                                   quantity: int, unitPriceSnapshot: string, subtotal: string)

  datatype DetailOrder = DetailOrder(id: string, note: Option<string>, createdAt: string,
                                     operationalWaiter: Option<OperationalWaiter>, items: seq<DetailItem>)

  datatype ComandaHeader = ComandaHeader(
    id: string, status: ComandaStatus, openedAt: string, closedAt: Option<string>,
    totalAmount: Option<string>, table: Option<TableBrief>)

  datatype ComandaDetail = ComandaDetail(comanda: ComandaHeader, orders: seq<DetailOrder>)

  /** The answer to closing a comanda; `totalAmount` is read with a `?? "0"` fallback. */
  datatype ClosedComanda = ClosedComanda(id: string, totalAmount: Option<string>)

  datatype PrintStatus = Pending | Printed

  datatype PrintJob = PrintJob(id: string, orderId: string, status: PrintStatus, payload: Json.Json, createdAt: string)

  datatype AdminWaiter = AdminWaiter(id: string, name: string, isActive: bool)

  datatype AdminTable = AdminTable(id: string, name: string, description: Option<string>, isActive: bool)

  datatype AdminCategory = AdminCategory(id: string, name: string, sortOrder: Option<int>, isActive: bool)

  datatype AdminProduct = AdminProduct(
    id: string, categoryId: string, name: string, description: Option<string>,
    price: string, imageUrl: Option<string>, isActive: bool)
}

=== FILE: error_messages.dfy ===
/**
 * The three `getErrorMessage` helpers of the client, side by side:
 * src/app/admin/categories/page.tsx, src/app/admin/dashboard/page.tsx and
 * src/components/app/AppHeader.tsx each turn a caught value into a toast
 * message, each a little differently, and the other screens use
 * `e?.message ?? fallback` (`Failures.MessageOr`).
 */
module ErrorMessages {
  import opened Wrappers
  import opened Text
  import opened Failures

  const UNEXPECTED := "Falha inesperada"

  /**
   * The dashboard's version: an `Error`'s message even when blank, a thrown
   * string itself, an object's string `message`, otherwise the fallback.
   */
  function DashboardMessage(e: Thrown, fallback: string): (m: string)
    ensures e.ErrorValue? ==> m == e.message
    ensures e.StringValue? ==> m == e.text
    ensures e.ObjectValue? && e.stringMessage.Some? ==> m == e.stringMessage.value
    ensures e.OtherValue? || e == ObjectValue(None) ==> m == fallback
  {
    match e
    case ErrorValue(msg) => msg
    case StringValue(s) => s
    case ObjectValue(Some(msg)) => msg
    case _ => fallback
  }

  /** The categories screen's version: the same cases, with a fixed fallback. */
  function CategoriesMessage(e: Thrown): (m: string)
    ensures e.OtherValue? || e == ObjectValue(None) ==> m == UNEXPECTED
  {
    match e
    case ErrorValue(msg) => msg
    case StringValue(s) => s
    case ObjectValue(Some(msg)) => msg
    case _ => UNEXPECTED
  }

  /**
   * The header's version: only a message that is a non-blank string counts,
   * from an `Error` or another object; a thrown string and everything else
   * give nothing.
   */
  function HeaderMessage(e: Thrown): (m: Option<string>)
    ensures m.Some? ==> !IsBlank(m.value)
    ensures e.StringValue? || e.OtherValue? || e == ObjectValue(None) ==> m.None?
  {
    match e
    case ErrorValue(msg) => if !IsBlank(msg) then Some(msg) else None
    case ObjectValue(Some(msg)) => if !IsBlank(msg) then Some(msg) else None
    case _ => None
  }

  /** The categories helper is the dashboard helper with "Falha inesperada" as its fallback. */
  lemma CategoriesIsDashboardWithUnexpected(e: Thrown)
    ensures CategoriesMessage(e) == DashboardMessage(e, UNEXPECTED)
  {
  }

  /** Where the header finds a message, the dashboard helper finds the same one. */
  lemma HeaderAgreesWhenItAnswers(e: Thrown, fallback: string)
    ensures HeaderMessage(e).Some? ==> DashboardMessage(e, fallback) == HeaderMessage(e).value
    ensures HeaderMessage(e).Some? ==> MessageOr(e, fallback) == HeaderMessage(e).value
  {
  }

  /**
   * The header answers exactly for an `Error` or an object whose message is
   * a non-blank string.
   */
  lemma HeaderAnswersIff(e: Thrown)
    ensures HeaderMessage(e).Some? <==>
              (e.ErrorValue? && !IsBlank(e.message)) ||
              (e.ObjectValue? && e.stringMessage.Some? && !IsBlank(e.stringMessage.value))
  {
  }

  /**
   * The helpers disagree on a thrown string, which only the dashboard and
   * categories versions show, and on an `Error` with a blank message, which
   * only the header replaces with its fallback.
   */
  lemma WhereTheyDiffer(s: string, blank: string, fallback: string)
    requires IsBlank(blank)
    ensures DashboardMessage(StringValue(s), fallback) == s && CategoriesMessage(StringValue(s)) == s
    ensures MessageOr(StringValue(s), fallback) == fallback && HeaderMessage(StringValue(s)).None?
    ensures DashboardMessage(ErrorValue(blank), fallback) == blank && MessageOr(ErrorValue(blank), fallback) == blank
    ensures HeaderMessage(ErrorValue(blank)).None?
  {
  }

  /** `MessageOr` and the dashboard helper differ only on thrown strings. */
  lemma MessageOrIsDashboardExceptStrings(e: Thrown, fallback: string)
    requires !e.StringValue?
    ensures MessageOr(e, fallback) == DashboardMessage(e, fallback)
  {
  }
}

=== FILE: failures.dfy ===
/**
 * What an awaited call can reject with, and the outcome of one awaited
 * call as the views see it.  Every fetch, poll tick or button press of the
 * model receives such an outcome as a parameter instead of performing I/O.
 */
module Failures {
  import opened Wrappers

  /** The value a rejected promise carries (the `unknown` of a `catch` clause). */
  datatype Thrown =
    | ErrorValue(message: string)           // an `Error` instance, as `apiFetch` throws
    | StringValue(text: string)             // a thrown string
    | ObjectValue(stringMessage: Option<string>)  // another object; `Some` when its `message` is a string
    | OtherValue                            // null, undefined, a number or a boolean

  /** The result of one awaited call. */
  datatype Outcome<+T> = Ok(value: T) | Err(error: Thrown)

  /** `e?.message ?? fallback`, the message the views put into error toasts. */
  function MessageOr(e: Thrown, fallback: string): string {
    match e
    case ErrorValue(m) => m
    case ObjectValue(Some(m)) => m
    case _ => fallback
  }

  /** The fallback is used exactly when the thrown value carries no message of its own. */
  lemma MessageOrCases(e: Thrown, fallback: string)
    ensures MessageOr(e, fallback) == fallback || e.ErrorValue? || (e.ObjectValue? && e.stringMessage.Some?)
    ensures e.StringValue? || e.OtherValue? || e == ObjectValue(None) ==> MessageOr(e, fallback) == fallback
  {
  }
}

=== FILE: header.dfy ===
/**
 * The application header of src/components/app/AppHeader.tsx: the line
 * under the title naming the signed-in account, and the two buttons that
 * sign out and reload the account.
 */
module Header {
  import opened Wrappers
  import opened Text
  import opened Domain
  import opened Failures
  import opened Ui
  import opened OperationalStore
  import opened Storage
  import opened Auth
  import opened ErrorMessages

  const SESSION_TITLE := "Sessão"
  const SIGNED_OUT := "Você saiu da conta."
  const ACCOUNT_TITLE := "Conta"
  const REFRESHED := "Dados atualizados."
  const REFRESH_FALLBACK := "Falha ao atualizar"
  const NO_USER := "—"
  const SEPARATOR := " • "
  const WAITER_LABEL := " • Garçom: "

  datatype Variant = OperationalHeader | AdminHeader

  /** The line under the title: "—" when signed out, else e-mail and role, plus the waiter on the operational header. */
  function Subtitle(user: Option<AuthUser>, variant: Variant, waiterName: Option<string>): string {
    match user
    case None => NO_USER
    case Some(u) =>
      u.email + SEPARATOR + RoleName(u.role) +
      (if variant.OperationalHeader? && waiterName.Some? && waiterName.value != [] then WAITER_LABEL + waiterName.value else "")
  }

  /**
   * The account part always comes first; the waiter is named exactly when
   * the header is the operational one and the name is non-empty, and the
   * admin header never names one.
   */
  lemma SubtitleParts(u: AuthUser, variant: Variant, waiterName: Option<string>)
    ensures var s := Subtitle(Some(u), variant, waiterName);
            var account := u.email + SEPARATOR + RoleName(u.role);
            account <= s &&
            (s == account <==> !(variant.OperationalHeader? && waiterName.Some? && waiterName.value != [])) &&
            (s != account ==> s == account + WAITER_LABEL + waiterName.value)
    ensures Subtitle(Some(u), AdminHeader, waiterName) == Subtitle(Some(u), AdminHeader, None)
    ensures Subtitle(Some(u), variant, Some("")) == Subtitle(Some(u), variant, None)
  {
    var account := u.email + SEPARATOR + RoleName(u.role);
    if variant.OperationalHeader? && waiterName.Some? && waiterName.value != [] {
      var s := account + (WAITER_LABEL + waiterName.value);
      assert |s| > |account|;
      assert s == account + WAITER_LABEL + waiterName.value;
    }
  }

  /** The toast message of a failed refresh: a non-blank error message, or the fallback. */
  function RefreshErrorMessage(e: Thrown): (m: string)
    ensures HeaderMessage(e).Some? ==> m == HeaderMessage(e).value
    ensures HeaderMessage(e).None? ==> m == REFRESH_FALLBACK
  {
    HeaderMessage(e).GetOr(REFRESH_FALLBACK)
  }

  /** The fallback itself is not blank: it starts with a letter. */
  lemma FallbackNotBlank()
    ensures !IsBlank(REFRESH_FALLBACK)
  {
    var fallback := REFRESH_FALLBACK;
    assert fallback[0] == 'F';
    BlankIffAllSpace(fallback);
  }

  /** Unlike the pages' `e?.message ?? fallback`, a refresh failure never shows a blank message. */
  lemma RefreshMessageNeverBlank(e: Thrown)
    ensures !IsBlank(RefreshErrorMessage(e))
    ensures e.ErrorValue? && IsBlank(e.message) ==> RefreshErrorMessage(e) == REFRESH_FALLBACK
  {
    FallbackNotBlank();
  }

  /** Removing the waiter keys a second time changes nothing. */
  lemma WithoutWaiterIdempotent(m: map<string, string>)
    ensures WithoutWaiter(WithoutWaiter(m)) == WithoutWaiter(m)
  {
  }

  /**
   * `onLogout`: sign out (which already clears the waiter), clear the waiter
   * again, and say so.  The second clear leaves storage as the first left it.
   */
  method OnLogout(auth: AuthStore, serverResult: Outcome<bool>) returns (toasts: seq<ToastInput>)
    requires auth.Valid()
    modifies auth, auth.ls, auth.operational
    ensures auth.user.None? && auth.token.None? && !auth.isAuthenticated
    ensures auth.operational.waiterId.None? && auth.operational.waiterName.None?
    ensures auth.ls != null ==> auth.ls.items == WithoutWaiter(WithoutAuth(old(auth.ls.items)))
    ensures toasts == [Info(SESSION_TITLE, Some(SIGNED_OUT))]
  {
    auth.Logout(serverResult);
    auth.operational.ClearWaiter();
    if auth.ls != null {
      WithoutWaiterIdempotent(WithoutAuth(old(auth.ls.items)));
    }
    toasts := [Info(SESSION_TITLE, Some(SIGNED_OUT))];
  }

  /** `onRefresh`: reload the account; say it worked, or why it did not. */
  method OnRefresh(auth: AuthStore, meResult: Outcome<MeData>) returns (toasts: seq<ToastInput>)
    requires auth.Consistent()
    modifies auth, auth.ls
    ensures auth.Consistent()
    ensures meResult.Ok? ==>
              auth.user == Some(meResult.value.user) && auth.isAuthenticated && auth.token == old(auth.token) &&
              (auth.ls != null ==> auth.ls.items == old(auth.ls.items)[USER_KEY := auth.codec.encode(meResult.value.user)]) &&
              toasts == [Success(ACCOUNT_TITLE, Some(REFRESHED))]
    ensures meResult.Err? ==>
              unchanged(auth) && (auth.ls != null ==> unchanged(auth.ls)) &&
              toasts == [Error(ACCOUNT_TITLE, Some(RefreshErrorMessage(meResult.error)))]
  {
    var result := auth.RefreshMe(meResult);
    if result.Ok? {
      toasts := [Success(ACCOUNT_TITLE, Some(REFRESHED))];
    } else {
      toasts := [Error(ACCOUNT_TITLE, Some(RefreshErrorMessage(result.error)))];
    }
  }
}

=== FILE: json.dfy ===
/**
 * A parsed JSON value (RFC 8259), as `JSON.parse` returns it, with the two
 * JavaScript observations the client makes of one: truthiness and property
 * reads.  Parsing itself is not modelled; a response body arrives already
 * parsed, or as nothing when the text was empty or not JSON.
 */
module Json {
  import opened Wrappers

  datatype Json =
    | JNull
    | JBool(b: bool)
    | JNumber(n: real)
    | JString(s: string)
    | JArray(items: seq<Json>)
    | JObject(members: seq<(string, Json)>)

  /** JavaScript truthiness: null, false, 0 and "" are falsy; every array and object is truthy. */
  predicate Truthy(v: Json) {
    match v
    case JNull => false
    case JBool(b) => b
    case JNumber(n) => n != 0.0
    case JString(s) => s != []
    case _ => true
  }

  /** `typeof v === "object" && v !== null`: arrays and objects. */
  predicate IsObjectLike(v: Json) {
    v.JArray? || v.JObject?
  }

  /** The value of the last member named `key`; JSON.parse keeps the last of duplicate keys. */
  function Lookup(members: seq<(string, Json)>, key: string): (r: Option<Json>)
    ensures r.None? <==> forall i :: 0 <= i < |members| ==> members[i].0 != key
    ensures r.Some? ==> exists i :: 0 <= i < |members| && members[i] == (key, r.value)
  {
    if |members| == 0 then None
    else
      var last := members[|members| - 1];
      var rest := Lookup(members[..|members| - 1], key);
      if last.0 == key then Some(last.1)
      else
        assert rest.Some? ==> exists i :: 0 <= i < |members| - 1 && members[i] == (key, rest.value);
        rest
  }

  /** A member that no later member overrides is the one a read finds. */
  lemma {:induction false} LookupLast(members: seq<(string, Json)>, i: int)
    requires 0 <= i < |members|
    requires forall j :: i < j < |members| ==> members[j].0 != members[i].0
    ensures Lookup(members, members[i].0) == Some(members[i].1)
    decreases |members|
  {
    var n := |members| - 1;
    if i < n {
      var init := members[..n];
      assert init[i] == members[i];
      forall j | i < j < |init| ensures init[j].0 != init[i].0 {
        assert init[j] == members[j];
      }
      LookupLast(init, i);
    }
  }

  /**
   * `v.key` on a parsed value: `Some` for a member of an object; `None` for
   * `undefined` (a missing member, or a read on anything that is not an
   * object; the members of arrays are never read by the client).
   */
  function Member(v: Json, key: string): Option<Json> {
    if v.JObject? then Lookup(v.members, key) else None
  }

  /** `v?.key` where `v` may itself be `undefined` or null. */
  function Path(v: Option<Json>, key: string): Option<Json> {
    match v
    case Some(j) => Member(j, key)
    case None => None
  }

  /** `v ?? fallback` on a read value: null and undefined give the fallback. */
  function OrElse(v: Option<Json>, fallback: Json): (r: Json)
    ensures (v.None? || v == Some(JNull)) ==> r == fallback
    ensures (v.Some? && v.value != JNull) ==> r == v.value
  {
    match v
    case Some(j) => if j.JNull? then fallback else j
    case None => fallback
  }
}

=== FILE: lists.dfy ===
/**
 * `Array.prototype.filter` and `slice(0, n)`, the two list operations the
 * views apply to fetched collections, with what they keep.
 */
module Lists {

  /** `r` is `s` with some elements left out and the rest in their order. */
  predicate IsSubsequence<T(==)>(r: seq<T>, s: seq<T>)
    decreases |s|
  {
    r == [] ||
    (s != [] && ((r[0] == s[0] && IsSubsequence(r[1..], s[1..])) || IsSubsequence(r, s[1..])))
  }

  /** Every sequence is a subsequence of itself. */
  lemma {:induction false} SubsequenceOfItself<T>(s: seq<T>)
    ensures IsSubsequence(s, s)
    decreases |s|
  {
    if s != [] {
      SubsequenceOfItself(s[1..]);
    }
  }

  /** `s.filter(p)` */
  function Filter<T(==,!new)>(s: seq<T>, p: T -> bool): (r: seq<T>)
    ensures |r| <= |s|
    ensures forall x :: x in r <==> x in s && p(x)
    ensures (forall i :: 0 <= i < |s| ==> p(s[i])) ==> r == s
    ensures IsSubsequence(r, s)
    decreases |s|
  {
    if s == [] then []
    else
      var rest := Filter(s[1..], p);
      if p(s[0]) then
        assert ([s[0]] + rest)[1..] == rest;
        [s[0]] + rest
      else rest
  }

  /** Filtering by two predicates in turn is filtering by their conjunction. */
  lemma {:induction false} FilterTwice<T(!new)>(s: seq<T>, p: T -> bool, q: T -> bool)
    ensures Filter(Filter(s, p), q) == Filter(s, x => p(x) && q(x))
    decreases |s|
  {
    if s != [] {
      FilterTwice(s[1..], p, q);
      var fp := Filter(s[1..], p);
      if p(s[0]) {
        assert Filter(s, p) == [s[0]] + fp;
        assert ([s[0]] + fp)[1..] == fp;
      }
    }
  }

  /** A filter keeps every element exactly when every element passes. */
  lemma {:induction false} FilterKeepsAll<T(!new)>(s: seq<T>, p: T -> bool)
    ensures |Filter(s, p)| == |s| <==> forall i :: 0 <= i < |s| ==> p(s[i])
    decreases |s|
  {
    if s != [] {
      FilterKeepsAll(s[1..], p);
      if forall i :: 0 <= i < |s| - 1 ==> p(s[1..][i]) {
        if p(s[0]) {
          forall i | 0 <= i < |s| ensures p(s[i]) {
            if i > 0 { assert s[i] == s[1..][i - 1]; }
          }
        }
      } else {
        var i :| 0 <= i < |s| - 1 && !p(s[1..][i]);
        assert !p(s[i + 1]);
      }
    }
  }

  /** A filter keeps nothing exactly when no element passes. */
  lemma FilterKeepsNone<T(!new)>(s: seq<T>, p: T -> bool)
    ensures Filter(s, p) == [] <==> forall i :: 0 <= i < |s| ==> !p(s[i])
  {
    if Filter(s, p) != [] {
      assert Filter(s, p)[0] in Filter(s, p);
    }
  }

  /** The first element kept is the first element that passes. */
  lemma {:induction false} FilterFirst<T(!new)>(s: seq<T>, p: T -> bool)
    ensures Filter(s, p) != [] ==>
              exists i :: 0 <= i < |s| && p(s[i]) && (forall j :: 0 <= j < i ==> !p(s[j])) && Filter(s, p)[0] == s[i]
    decreases |s|
  {
    if s != [] && Filter(s, p) != [] && !p(s[0]) {
      var rest := s[1..];
      assert Filter(s, p) == Filter(rest, p);
      FilterFirst(rest, p);
      var i :| 0 <= i < |rest| && p(rest[i]) && (forall j :: 0 <= j < i ==> !p(rest[j])) && Filter(rest, p)[0] == rest[i];
      assert s[i + 1] == rest[i];
      forall j | 0 <= j < i + 1 ensures !p(s[j]) {
        if j > 0 { assert s[j] == rest[j - 1]; }
      }
    }
  }

  /** Filtering a sequence with one more element at the end. */
  lemma {:induction false} FilterSnoc<T(!new)>(s: seq<T>, x: T, p: T -> bool)
    ensures Filter(s + [x], p) == Filter(s, p) + (if p(x) then [x] else [])
    decreases |s|
  {
    if s == [] {
      assert [x][1..] == [];
    } else {
      assert (s + [x])[1..] == s[1..] + [x];
      FilterSnoc(s[1..], x, p);
    }
  }

  /** `s.slice(0, n)`: at most the first `n` elements. */
  function Take<T>(s: seq<T>, n: nat): (r: seq<T>)
    ensures |r| == if |s| < n then |s| else n
    ensures forall i :: 0 <= i < |r| ==> r[i] == s[i]
  {
    if |s| <= n then s else s[..n]
  }

  /**
   * The dictionary obtained by assigning `d[k] = v` for each pair in turn,
   * as `Object.entries`-style loops and `Map.set` loops build one.
   */
  function RecordOf<K(==), V>(pairs: seq<(K, V)>): map<K, V>
    decreases |pairs|
  {
    if pairs == [] then map[]
    else
      var last := pairs[|pairs| - 1];
      RecordOf(pairs[..|pairs| - 1])[last.0 := last.1]
  }

  /** Pair `i` is the last one carrying its key. */
  predicate LastWithKey<K(==), V>(pairs: seq<(K, V)>, i: int)
    requires 0 <= i < |pairs|
  {
    forall j :: i < j < |pairs| ==> pairs[j].0 != pairs[i].0
  }

  /** The dictionary holds exactly the keys that occur among the pairs. */
  lemma {:induction false} RecordKeys<K, V>(pairs: seq<(K, V)>)
    ensures forall k :: k in RecordOf(pairs) <==> exists i :: 0 <= i < |pairs| && pairs[i].0 == k
    decreases |pairs|
  {
    if pairs != [] {
      var n := |pairs| - 1;
      var init := pairs[..n];
      RecordKeys(init);
      assert RecordOf(pairs) == RecordOf(init)[pairs[n].0 := pairs[n].1];
      forall k
        ensures k in RecordOf(pairs) <==> exists i :: 0 <= i < |pairs| && pairs[i].0 == k
      {
        if k in RecordOf(pairs) && k != pairs[n].0 {
          var i :| 0 <= i < |init| && init[i].0 == k;
          assert pairs[i] == init[i];
        }
        if exists i :: 0 <= i < |pairs| && pairs[i].0 == k {
          var i :| 0 <= i < |pairs| && pairs[i].0 == k;
          if i < n {
            assert init[i] == pairs[i];
          }
        }
      }
    }
  }

  /** Each key maps to the value of its last occurrence: a later duplicate wins. */
  lemma {:induction false} RecordLastWins<K, V>(pairs: seq<(K, V)>, i: int)
    requires 0 <= i < |pairs| && LastWithKey(pairs, i)
    ensures pairs[i].0 in RecordOf(pairs) && RecordOf(pairs)[pairs[i].0] == pairs[i].1
    decreases |pairs|
  {
    var n := |pairs| - 1;
    if i < n {
      var init := pairs[..n];
      assert pairs[n].0 != pairs[i].0;
      assert init[i] == pairs[i];
      assert LastWithKey(init, i) by {
        forall j | i < j < |init| ensures init[j].0 != init[i].0 {
          assert init[j] == pairs[j];
        }
      }
      RecordLastWins(init, i);
    }
  }

  /** Assigning one more pair updates the dictionary at that key only. */
  lemma RecordOfSnoc<K, V>(pairs: seq<(K, V)>, p: (K, V))
    ensures RecordOf(pairs + [p]) == RecordOf(pairs)[p.0 := p.1]
  {
    assert (pairs + [p])[..|pairs|] == pairs;
  }
}

=== FILE: login_page.dfy ===
/**
 * The login screen of src/app/login/page.tsx: the input bounds of its
 * schema, the message shown for the first failed check, and where a
 * successful sign-in navigates.  The e-mail format check belongs to the
 * validation library and is a parameter, as are the library's messages.
 */
module LoginPage {
  import opened Wrappers
  import opened Domain
  import opened Failures
  import opened Storage
  import opened Routes
  import opened Protected
  import opened Ui
  import opened Auth

  const EMAIL_MAX := 255
  const PASSWORD_MIN := 6
  const PASSWORD_MAX := 72
  const INVALID_DATA := "Dados inválidos"
  const VALIDATION_TITLE := "Validação"
  const LOGIN_TITLE := "Login"
  const LOGIN_FALLBACK := "Falha ao autenticar"

  /** The checks of the schema, in the order it runs them. */
  datatype Issue = InvalidEmail | EmailTooLong | PasswordTooShort | PasswordTooLong

  function Rank(i: Issue): nat {
    match i
    case InvalidEmail => 0
    case EmailTooLong => 1
    case PasswordTooShort => 2
    case PasswordTooLong => 3
  }

  /** Input the schema accepts: a well-formed e-mail of at most 255 characters and a password of 6 to 72. */
  predicate ValidInput(email: string, password: string, isEmail: string -> bool) {
    isEmail(email) && |email| <= EMAIL_MAX && PASSWORD_MIN <= |password| <= PASSWORD_MAX
  }

  /** The issues `safeParse` reports, in schema order. */
  function Issues(email: string, password: string, isEmail: string -> bool): (r: seq<Issue>)
    ensures r == [] <==> ValidInput(email, password, isEmail)
    ensures forall i, j :: 0 <= i < j < |r| ==> Rank(r[i]) < Rank(r[j])
    ensures !isEmail(email) ==> r[0] == InvalidEmail
    ensures isEmail(email) && |email| > EMAIL_MAX ==> r[0] == EmailTooLong
    ensures InvalidEmail in r <==> !isEmail(email)
    ensures EmailTooLong in r <==> |email| > EMAIL_MAX
    ensures PasswordTooShort in r <==> |password| < PASSWORD_MIN
    ensures PasswordTooLong in r <==> |password| > PASSWORD_MAX
  {
    (if !isEmail(email) then [InvalidEmail] else []) +
    (if |email| > EMAIL_MAX then [EmailTooLong] else []) +
    (if |password| < PASSWORD_MIN then [PasswordTooShort] else []) +
    (if |password| > PASSWORD_MAX then [PasswordTooLong] else [])
  }

  /** `issues[0]?.message ?? "Dados inválidos"` */
  function IssueText(issues: seq<Issue>, message: Issue -> string): (text: string)
    ensures issues != [] ==> text == message(issues[0])
    ensures issues == [] ==> text == INVALID_DATA
  {
    if issues == [] then INVALID_DATA else message(issues[0])
  }

  /** A non-empty `next` wins; otherwise the home of the signed-in role. */
  function AfterLoginTarget(nextPath: Option<string>, role: Role): (path: string)
    ensures nextPath.Some? && nextPath.value != [] ==> path == nextPath.value
    ensures (nextPath.None? || nextPath.value == []) ==> path == HomeFor(role == Manager)
  {
    if nextPath.Some? && nextPath.value != [] then nextPath.value
    else if role == Manager then ADMIN_HOME
    else OPERATIONAL_HOME
  }

  /** The password bounds are inclusive at both ends. */
  lemma {:induction false} PasswordBoundsInclusive(email: string, isEmail: string -> bool)
    requires isEmail(email) && |email| <= EMAIL_MAX
    ensures forall password: string :: |password| == PASSWORD_MIN ==> Issues(email, password, isEmail) == []
    ensures forall password: string :: |password| == PASSWORD_MAX ==> Issues(email, password, isEmail) == []
    ensures forall password: string :: |password| == PASSWORD_MIN - 1 ==> Issues(email, password, isEmail) == [PasswordTooShort]
    ensures forall password: string :: |password| == PASSWORD_MAX + 1 ==> Issues(email, password, isEmail) == [PasswordTooLong]
  {
  }

  /** Without `next`, a user lands on a page the gate renders for them. */
  lemma {:induction false} AfterLoginLandsHome(user: AuthUser)
    ensures LayoutAllow(AfterLoginTarget(None, user.role)).Some?
    ensures Renders(true, Some(user), LayoutAllow(AfterLoginTarget(None, user.role)).value)
  {
    assert AfterLoginTarget(None, user.role) == HomeFor(IsManager(Some(user)));
    HomeAdmits(user);
  }

  class LoginPage {
    var loading: bool
    var navigatedTo: Option<string>
    const auth: AuthStore

    constructor (auth: AuthStore)
      ensures !loading && navigatedTo.None? && this.auth == auth
    {
      loading, navigatedTo := false, None;
      this.auth := auth;
    }

    /**
     * `onSubmit`: invalid input raises the first issue and never reaches
     * `login`; valid input signs in, navigates on success or raises the
     * failure, and `loading` is false again either way.
     */
    method Submit(email: string, password: string, isEmail: string -> bool, message: Issue -> string,
                  nextPath: Option<string>, loginResult: Outcome<LoginData>, meResult: Outcome<MeData>)
      returns (toasts: seq<ToastInput>)
      requires auth.Valid() && auth.Consistent()
      modifies this, auth, auth.ls
      ensures auth.Consistent()
      ensures !ValidInput(email, password, isEmail) ==>
                toasts == [Error(VALIDATION_TITLE, Some(IssueText(Issues(email, password, isEmail), message)))] &&
                unchanged(this) && unchanged(auth) && (auth.ls != null ==> unchanged(auth.ls))
      ensures ValidInput(email, password, isEmail) ==> !loading
      ensures ValidInput(email, password, isEmail) && loginResult.Ok? && meResult.Ok? ==>
                toasts == [] && auth.isAuthenticated &&
                auth.user == Some(meResult.value.user) && auth.token == Some(loginResult.value.token) &&
                (auth.ls != null ==>
                   auth.ls.items == WithAuth(old(auth.ls.items), loginResult.value.user, loginResult.value.token, auth.codec)
                                      [USER_KEY := auth.codec.encode(meResult.value.user)]) &&
                navigatedTo == Some(AfterLoginTarget(nextPath, meResult.value.user.role))
      ensures ValidInput(email, password, isEmail) && loginResult.Err? ==>
                toasts == [Error(LOGIN_TITLE, Some(MessageOr(loginResult.error, LOGIN_FALLBACK)))] &&
                navigatedTo == old(navigatedTo) && unchanged(auth) && (auth.ls != null ==> unchanged(auth.ls))
      ensures ValidInput(email, password, isEmail) && loginResult.Ok? && meResult.Err? ==>
                toasts == [Error(LOGIN_TITLE, Some(MessageOr(meResult.error, LOGIN_FALLBACK)))] &&
                navigatedTo == old(navigatedTo) && unchanged(auth) &&
                (auth.ls != null ==>
                   auth.ls.items == WithAuth(old(auth.ls.items), loginResult.value.user, loginResult.value.token, auth.codec))
    {
      var issues := Issues(email, password, isEmail);
      if issues != [] {
        toasts := [Error(VALIDATION_TITLE, Some(IssueText(issues, message)))];
        return;
      }
      loading := true;
      var result := auth.Login(loginResult, meResult);
      if result.Ok? {
        navigatedTo := Some(AfterLoginTarget(nextPath, result.value.role));
        toasts := [];
      } else {
        toasts := [Error(LOGIN_TITLE, Some(MessageOr(result.error, LOGIN_FALLBACK)))];
      }
      loading := false;
    }
  }
}

=== FILE: middleware.dfy ===
/**
 * The edge guard of middleware.ts: a decision over the request URL and two
 * cookies, `wf3_auth` (exactly "1" when signed in) and `wf3_role`.  A
 * denied request is sent to the login page carrying its own path in the
 * `next` query parameter.
 */
module Middleware {
  import opened Wrappers
  import opened Text
  import opened Routes

  const AUTH_COOKIE := "wf3_auth"
  const ROLE_COOKIE := "wf3_role"
  const NEXT_PARAM := "next"
  const MANAGER_ROLE := "MANAGER"
  const WAITER_ROLE := "WAITER"

  /** A request URL: its path and its query pairs, in order. */
  datatype Url = Url(pathname: string, search: seq<(string, string)>)

  /** `searchParams.get(name)`: the value of the first pair with that name. */
  function GetParam(ps: seq<(string, string)>, name: string): Option<string> {
    if ps == [] then None
    else if ps[0].0 == name then Some(ps[0].1)
    else GetParam(ps[1..], name)
  }

  /** How many pairs carry the name. */
  function CountParam(ps: seq<(string, string)>, name: string): nat {
    if ps == [] then 0
    else (if ps[0].0 == name then 1 else 0) + CountParam(ps[1..], name)
  }

  /** `searchParams.delete(name)`: every pair with that name removed, the rest in order. */
  function DeleteParam(ps: seq<(string, string)>, name: string): (r: seq<(string, string)>)
    ensures CountParam(r, name) == 0
    ensures forall m :: m != name ==> GetParam(r, m) == GetParam(ps, m) && CountParam(r, m) == CountParam(ps, m)
  {
    if ps == [] then []
    else if ps[0].0 == name then DeleteParam(ps[1..], name)
    else [ps[0]] + DeleteParam(ps[1..], name)
  }

  /**
   * `searchParams.set(name, value)`: the first pair with that name takes the
   * value and the others are removed; without one, the pair is appended.
   * Afterwards the name occurs once, with that value, and every other name
   * reads as before.
   */
  function SetParam(ps: seq<(string, string)>, name: string, value: string): (r: seq<(string, string)>)
    ensures GetParam(r, name) == Some(value) && CountParam(r, name) == 1
    ensures forall m :: m != name ==> GetParam(r, m) == GetParam(ps, m) && CountParam(r, m) == CountParam(ps, m)
  {
    if ps == [] then [(name, value)]
    else if ps[0].0 == name then [(name, value)] + DeleteParam(ps[1..], name)
    else [ps[0]] + SetParam(ps[1..], name, value)
  }

  /** `redirectToLogin`: the same URL moved to `/login`, with `next` set to the original path. */
  function RedirectToLogin(url: Url): (r: Url)
    ensures r.pathname == LOGIN_PATH
    ensures GetParam(r.search, NEXT_PARAM) == Some(url.pathname)
    ensures forall m :: m != NEXT_PARAM ==> GetParam(r.search, m) == GetParam(url.search, m)
  {
    Url(LOGIN_PATH, SetParam(url.search, NEXT_PARAM, url.pathname))
  }

  /** `req.cookies.get(name)?.value` */
  function Cookie(cookies: map<string, string>, name: string): Option<string> {
    if name in cookies then Some(cookies[name]) else None
  }

  /** `wf3_auth === "1"`: any other value, or none, is signed out. */
  predicate SignedIn(cookies: map<string, string>) {
    Cookie(cookies, AUTH_COOKIE) == Some("1")
  }

  datatype Decision = Pass | Redirect(to: Url)

  /** `middleware(req)` */
  function Route(url: Url, cookies: map<string, string>): Decision {
    var auth := SignedIn(cookies);
    var role := Cookie(cookies, ROLE_COOKIE);
    if StartsWith(url.pathname, LOGIN_PATH) then
      if auth && role.Some? && role.value != [] then
        Redirect(url.(pathname := HomeFor(role.value == MANAGER_ROLE)))
      else Pass
    else if StartsWith(url.pathname, ADMIN_PREFIX) then
      if !auth || role != Some(MANAGER_ROLE) then Redirect(RedirectToLogin(url)) else Pass
    else if StartsWith(url.pathname, OPERATIONAL_PREFIX) then
      if !auth || (role != Some(MANAGER_ROLE) && role != Some(WAITER_ROLE)) then Redirect(RedirectToLogin(url))
      else Pass
    else Pass
  }

  /** An `/admin` path passes exactly for a signed-in manager; anyone else is sent to log in. */
  lemma {:induction false} AdminAccess(url: Url, cookies: map<string, string>)
    requires StartsWith(url.pathname, ADMIN_PREFIX)
    ensures Route(url, cookies).Pass? <==> SignedIn(cookies) && Cookie(cookies, ROLE_COOKIE) == Some(MANAGER_ROLE)
    ensures !Route(url, cookies).Pass? ==> Route(url, cookies) == Redirect(RedirectToLogin(url))
  {
    PrefixesDisjoint(url.pathname);
  }

  /** An `/operational` path passes exactly for a signed-in manager or waiter; anyone else is sent to log in. */
  lemma {:induction false} OperationalAccess(url: Url, cookies: map<string, string>)
    requires StartsWith(url.pathname, OPERATIONAL_PREFIX)
    ensures Route(url, cookies).Pass? <==>
              SignedIn(cookies) &&
              (Cookie(cookies, ROLE_COOKIE) == Some(MANAGER_ROLE) || Cookie(cookies, ROLE_COOKIE) == Some(WAITER_ROLE))
    ensures !Route(url, cookies).Pass? ==> Route(url, cookies) == Redirect(RedirectToLogin(url))
  {
    PrefixesDisjoint(url.pathname);
  }

  /**
   * On `/login` a signed-in visitor with a non-empty role is sent home, the
   * query kept; anyone else stays.
   */
  lemma {:induction false} LoginBounce(url: Url, cookies: map<string, string>)
    requires StartsWith(url.pathname, LOGIN_PATH)
    ensures var role := Cookie(cookies, ROLE_COOKIE);
            SignedIn(cookies) && role.Some? && role.value != [] ==>
              Route(url, cookies) == Redirect(Url(HomeFor(role.value == MANAGER_ROLE), url.search))
    ensures var role := Cookie(cookies, ROLE_COOKIE);
            !(SignedIn(cookies) && role.Some? && role.value != []) ==> Route(url, cookies) == Pass
  {
  }

  /** Paths outside the three prefixes always pass. */
  lemma OtherPathsPass(url: Url, cookies: map<string, string>)
    requires !StartsWith(url.pathname, LOGIN_PATH)
    requires !StartsWith(url.pathname, ADMIN_PREFIX) && !StartsWith(url.pathname, OPERATIONAL_PREFIX)
    ensures Route(url, cookies) == Pass
  {
  }

  /** Without the auth cookie set to "1", nothing under `/admin` or `/operational` passes. */
  lemma {:induction false} SignedOutIsDenied(url: Url, cookies: map<string, string>)
    requires !SignedIn(cookies)
    requires StartsWith(url.pathname, ADMIN_PREFIX) || StartsWith(url.pathname, OPERATIONAL_PREFIX)
    ensures Route(url, cookies) == Redirect(RedirectToLogin(url))
  {
    PrefixesDisjoint(url.pathname);
  }

  /** For either known role, the home the login page bounces to passes the same cookies. */
  lemma {:induction false} BounceTargetPasses(url: Url, cookies: map<string, string>)
    requires SignedIn(cookies)
    requires Cookie(cookies, ROLE_COOKIE) == Some(MANAGER_ROLE) || Cookie(cookies, ROLE_COOKIE) == Some(WAITER_ROLE)
    ensures Route(Url(HomeFor(Cookie(cookies, ROLE_COOKIE) == Some(MANAGER_ROLE)), url.search), cookies) == Pass
  {
    var home := HomeFor(Cookie(cookies, ROLE_COOKIE) == Some(MANAGER_ROLE));
    PrefixesDisjoint(home);
  }

  /**
   * A signed-in visitor whose role cookie is neither known role bounces
   * from `/login` to the overview, which sends them back to `/login`.
   */
  lemma {:induction false} UnknownRoleBouncesBack(cookies: map<string, string>)
    requires SignedIn(cookies)
    requires Cookie(cookies, ROLE_COOKIE) == Some("GUEST")
    ensures Route(Url(LOGIN_PATH, []), cookies) == Redirect(Url(OPERATIONAL_HOME, []))
    ensures Route(Url(OPERATIONAL_HOME, []), cookies) ==
              Redirect(Url(LOGIN_PATH, [(NEXT_PARAM, OPERATIONAL_HOME)]))
  {
    assert StartsWith(LOGIN_PATH, LOGIN_PATH);
    PrefixesDisjoint(OPERATIONAL_HOME);
    assert StartsWith(OPERATIONAL_HOME, OPERATIONAL_PREFIX);
  }
}

=== FILE: operational_store.dfy ===
/**
 * The operational-waiter store of src/store/operational.ts: which staff
 * member is placing orders on this device, kept in two fields and mirrored
 * in two storage keys so that it survives a reload.
 */
module OperationalStore {
  import opened Wrappers
  import opened Storage

  const KEY_ID := "wf3_operational_waiter_id"
  const KEY_NAME := "wf3_operational_waiter_name"

  /** The storage map after `setOperationalWaiter(id, name)`. */
  function WithWaiter(m: map<string, string>, id: string, name: string): map<string, string> {
    m[KEY_ID := id][KEY_NAME := name]
  }

  /** The storage map after `clearOperationalWaiter()`. */
  function WithoutWaiter(m: map<string, string>): map<string, string> {
    m - {KEY_ID, KEY_NAME}
  }

  /** Storage holds both waiter keys or neither. */
  predicate StoragePaired(m: map<string, string>) {
    KEY_ID in m <==> KEY_NAME in m
  }

  class OperationalStore {
    var waiterId: Option<string>
    var waiterName: Option<string>
    const ls: LocalStorage?

    /** The store starts with neither field set. */
    constructor (ls: LocalStorage?)
      ensures waiterId.None? && waiterName.None? && this.ls == ls
    {
      waiterId := None;
      waiterName := None;
      this.ls := ls;
    }

    /** The waiter fields are both set or both null. */
    predicate Paired()
      reads this
    {
      waiterId.Some? <==> waiterName.Some?
    }

    /** `hydrateOperational`: reads the two keys independently; storage is not written. */
    method Hydrate()
      modifies this
      ensures waiterId == Read(ls, KEY_ID) && waiterName == Read(ls, KEY_NAME)
      ensures ls != null && StoragePaired(ls.items) ==> Paired()
    {
      var id := Read(ls, KEY_ID);
      var name := Read(ls, KEY_NAME);
      waiterId, waiterName := id, name;
    }

    /** `setOperationalWaiter`: writes both keys, then sets both fields to exactly those values. */
    method SetWaiter(id: string, name: string)
      modifies this, ls
      ensures waiterId == Some(id) && waiterName == Some(name) && Paired()
      ensures ls != null ==> ls.items == WithWaiter(old(ls.items), id, name)
    {
      if ls != null {
        ls.items := ls.items[KEY_ID := id];
        ls.items := ls.items[KEY_NAME := name];
      }
      waiterId, waiterName := Some(id), Some(name);
    }

    /** `clearOperationalWaiter`: removes both keys, then nulls both fields. */
    method ClearWaiter()
      modifies this, ls
      ensures waiterId.None? && waiterName.None? && Paired()
      ensures ls != null ==> ls.items == WithoutWaiter(old(ls.items))
    {
      if ls != null {
        ls.items := ls.items - {KEY_ID};
        ls.items := ls.items - {KEY_NAME};
      }
      waiterId, waiterName := None, None;
    }
  }

  /** Hydrating after a set restores exactly the pair that was set. */
  lemma HydrateAfterSet(m: map<string, string>, id: string, name: string)
    ensures Get(WithWaiter(m, id, name), KEY_ID) == Some(id)
    ensures Get(WithWaiter(m, id, name), KEY_NAME) == Some(name)
  {
  }

  /** Hydrating after a clear yields both null. */
  lemma HydrateAfterClear(m: map<string, string>)
    ensures Get(WithoutWaiter(m), KEY_ID).None? && Get(WithoutWaiter(m), KEY_NAME).None?
  {
  }

  /** Set and clear leave storage paired whatever it held before, and touch no other key. */
  lemma SetAndClearKeepStoragePaired(m: map<string, string>, id: string, name: string)
    ensures StoragePaired(WithWaiter(m, id, name)) && StoragePaired(WithoutWaiter(m))
    ensures forall k :: k != KEY_ID && k != KEY_NAME ==>
              Get(WithWaiter(m, id, name), k) == Get(m, k) && Get(WithoutWaiter(m), k) == Get(m, k)
  {
  }

  /** `clearAuth` leaves the waiter keys where they were, and clearing the waiter leaves the auth keys. */
  lemma AuthAndWaiterKeysIndependent(m: map<string, string>)
    ensures Get(WithoutAuth(m), KEY_ID) == Get(m, KEY_ID)
    ensures Get(WithoutAuth(m), KEY_NAME) == Get(m, KEY_NAME)
    ensures Get(WithoutWaiter(m), TOKEN_KEY) == Get(m, TOKEN_KEY)
    ensures Get(WithoutWaiter(m), USER_KEY) == Get(m, USER_KEY)
  {
  }

  /** Hydrating from storage holding only one of the two keys breaks the pairing of the fields. */
  lemma {:induction false} HydrateCanUnpair(id: string)
    ensures var m := map[KEY_ID := id];
            Get(m, KEY_ID).Some? && Get(m, KEY_NAME).None? && !StoragePaired(m)
  {
    var m := map[KEY_ID := id];
    assert KEY_NAME != KEY_ID;
  }

  /** A reload after setting the waiter brings the same waiter back. */
  method ReloadAfterSet(ls: LocalStorage, id: string, name: string) returns (reloaded: OperationalStore)
    modifies ls
    ensures reloaded.waiterId == Some(id) && reloaded.waiterName == Some(name)
  {
    var store := new OperationalStore(ls);
    store.SetWaiter(id, name);
    reloaded := new OperationalStore(ls);
    reloaded.Hydrate();
  }
}

=== FILE: orders.dfy ===
/**
 * The order screen of src/app/operational/orders/page.tsx: a cart from
 * product id to quantity, the snapshot of the cart joined against the menu,
 * its total, and the gate that decides whether an order is sent.
 */
module Orders {
  import opened Wrappers
  import opened Text
  import opened Lists
  import opened Domain
  import opened Failures
  import opened Ui
  import opened OperationalStore

  // ---------------------------------------------------------------------------
  // The cart
  // ---------------------------------------------------------------------------

  /**
   * `Record<string, number>`: the quantities, and the order in which the
   * keys were first written, which is the order `Object.entries` visits.
   */
  datatype Cart = Cart(keys: seq<string>, qty: map<string, int>) {
    /** Every key is listed once and the listed keys are exactly the keys of the map. */
    ghost predicate Valid() {
      (forall i, j :: 0 <= i < j < |keys| ==> keys[i] != keys[j]) &&
      (forall k :: k in qty <==> k in keys)
    }
  }

  const EMPTY_CART := Cart([], map[])

  /** No quantity below zero. */
  ghost predicate NonNegative(c: Cart) {
    forall k :: k in c.qty ==> c.qty[k] >= 0
  }

  /** `c[p] ?? 0` on the quantities. */
  function Qty(qty: map<string, int>, p: string): int {
    if p in qty then qty[p] else 0
  }

  /** `c[p] ?? 0` */
  function Get(c: Cart, p: string): int {
    Qty(c.qty, p)
  }

  /** `{ ...c, [p]: v }`: an existing key keeps its place, a new one goes last. */
  function Put(c: Cart, p: string, v: int): (r: Cart)
    ensures Get(r, p) == v
    ensures forall q :: q != p ==> Get(r, q) == Get(c, q)
    ensures p in r.qty
    ensures r.keys == if p in c.keys then c.keys else c.keys + [p]
    ensures c.Valid() ==> r.Valid()
  {
    if p in c.keys then Cart(c.keys, c.qty[p := v]) else Cart(c.keys + [p], c.qty[p := v])
  }

  /** `inc(p)` */
  function Inc(c: Cart, p: string): Cart {
    Put(c, p, Get(c, p) + 1)
  }

  /** `dec(p)`: one less, but never below zero; the key stays even at zero. */
  function Dec(c: Cart, p: string): Cart {
    Put(c, p, if Get(c, p) - 1 < 0 then 0 else Get(c, p) - 1)
  }

  /** `inc` adds exactly one unit of `p`, an absent product counting as zero, and touches nothing else. */
  lemma IncEffect(c: Cart, p: string)
    ensures Get(Inc(c, p), p) == Get(c, p) + 1
    ensures forall q :: q != p ==> Get(Inc(c, p), q) == Get(c, q)
    ensures NonNegative(c) ==> NonNegative(Inc(c, p))
    ensures c.Valid() ==> Inc(c, p).Valid()
  {
  }

  /** `dec` removes one unit down to zero, keeps the key, and touches nothing else. */
  lemma DecEffect(c: Cart, p: string)
    ensures Get(Dec(c, p), p) == if Get(c, p) >= 1 then Get(c, p) - 1 else 0
    ensures p in Dec(c, p).qty
    ensures forall q :: q != p ==> Get(Dec(c, p), q) == Get(c, q)
    ensures NonNegative(c) ==> NonNegative(Dec(c, p))
    ensures c.Valid() ==> Dec(c, p).Valid()
  {
  }

  /** `dec` on a product never added records it at zero. */
  lemma DecOnAbsent(c: Cart, p: string)
    requires c.Valid() && p !in c.qty
    ensures Get(Dec(c, p), p) == 0 && Dec(c, p).keys == c.keys + [p]
  {
  }

  /**
   * The floor applies at each step, not to the net count: a `dec` then an
   * `inc` on an empty cart leaves one unit, while the net change is zero.
   */
  lemma {:induction false} FloorIsPerStep(p: string)
    ensures Get(Inc(Dec(EMPTY_CART, p), p), p) == 1
  {
  }

  // ---------------------------------------------------------------------------
  // The menu index and the snapshot
  // ---------------------------------------------------------------------------

  /** What the snapshot keeps of a menu product. */
  datatype MenuEntry = MenuEntry(name: string, price: string)

  /** The `(id, {name, price})` pairs of one category's products, in order. */
  function ProductPairs(ps: seq<MenuProduct>): (r: seq<(string, MenuEntry)>)
    ensures |r| == |ps|
    ensures forall i :: 0 <= i < |ps| ==> r[i] == (ps[i].id, MenuEntry(ps[i].name, ps[i].price))
  {
    seq(|ps|, i requires 0 <= i < |ps| => (ps[i].id, MenuEntry(ps[i].name, ps[i].price)))
  }

  /** The pairs of every category in menu order. */
  function MenuPairs(menu: seq<MenuCategory>): seq<(string, MenuEntry)>
    decreases |menu|
  {
    if menu == [] then [] else MenuPairs(menu[..|menu| - 1]) + ProductPairs(menu[|menu| - 1].products)
  }

  /** The product index of `cartItems`: every product of every category, a later id winning. */
  function MenuIndex(menu: seq<MenuCategory>): map<string, MenuEntry> {
    RecordOf(MenuPairs(menu))
  }

  /** One more category appends its pairs. */
  lemma MenuPairsStep(menu: seq<MenuCategory>, i: int)
    requires 0 <= i < |menu|
    ensures MenuPairs(menu[..i + 1]) == MenuPairs(menu[..i]) + ProductPairs(menu[i].products)
  {
    assert menu[..i + 1][..i] == menu[..i];
  }

  /** One more product of the current category sets its id in the index. */
  lemma IndexStep(done: seq<(string, MenuEntry)>, ps: seq<MenuProduct>, j: int)
    requires 0 <= j < |ps|
    ensures RecordOf(done + ProductPairs(ps)[..j + 1]) ==
            RecordOf(done + ProductPairs(ps)[..j])[ps[j].id := MenuEntry(ps[j].name, ps[j].price)]
  {
    var pair := (ps[j].id, MenuEntry(ps[j].name, ps[j].price));
    assert ProductPairs(ps)[..j + 1] == ProductPairs(ps)[..j] + [pair];
    assert done + ProductPairs(ps)[..j + 1] == (done + ProductPairs(ps)[..j]) + [pair];
    RecordOfSnoc(done + ProductPairs(ps)[..j], pair);
  }

  /** The nested loop that fills the index with `map.set`, category by category. */
  method BuildMenuIndex(menu: seq<MenuCategory>) returns (index: map<string, MenuEntry>)
    ensures index == MenuIndex(menu)
  {
    index := map[];
    var i := 0;
    while i < |menu|
      invariant 0 <= i <= |menu|
      invariant index == RecordOf(MenuPairs(menu[..i]))
    {
      var ps := menu[i].products;
      ghost var done := MenuPairs(menu[..i]);
      assert done + ProductPairs(ps)[..0] == done;
      var j := 0;
      while j < |ps|
        invariant 0 <= j <= |ps|
        invariant index == RecordOf(done + ProductPairs(ps)[..j])
      {
        IndexStep(done, ps, j);
        index := index[ps[j].id := MenuEntry(ps[j].name, ps[j].price)];
        j := j + 1;
      }
      assert ProductPairs(ps)[..|ps|] == ProductPairs(ps);
      MenuPairsStep(menu, i);
      i := i + 1;
    }
    assert menu[..|menu|] == menu;
  }

  /** One line of `cartItems.items`. */
  datatype CartItem = CartItem(productId: string, qty: int, name: string, price: string)

  const DEFAULT_NAME := "Produto"
  const DEFAULT_PRICE := "0"

  /** The line for a product: the menu's name and price, or the placeholders for an unknown product. */
  function ItemFor(productId: string, qty: int, index: map<string, MenuEntry>): (it: CartItem)
    ensures it.productId == productId && it.qty == qty
    ensures productId !in index ==> it.name == DEFAULT_NAME && it.price == DEFAULT_PRICE
    ensures productId in index ==> it.name == index[productId].name && it.price == index[productId].price
  {
    if productId in index then CartItem(productId, qty, index[productId].name, index[productId].price)
    else CartItem(productId, qty, DEFAULT_NAME, DEFAULT_PRICE)
  }

  function Ids(items: seq<CartItem>): (ids: seq<string>)
    ensures |ids| == |items|
    ensures forall i :: 0 <= i < |items| ==> ids[i] == items[i].productId
  {
    if items == [] then [] else [items[0].productId] + Ids(items[1..])
  }

  /** `cartItems.items` over the listed keys: positive quantities only, in key order. */
  function SnapshotOf(keys: seq<string>, qty: map<string, int>, index: map<string, MenuEntry>): (r: seq<CartItem>)
    ensures forall i :: 0 <= i < |r| ==>
              r[i].qty > 0 && r[i] == ItemFor(r[i].productId, Qty(qty, r[i].productId), index)
    ensures Ids(r) == Filter(keys, (k: string) => Qty(qty, k) > 0)
    decreases |keys|
  {
    if keys == [] then []
    else
      var k := keys[0];
      var rest := SnapshotOf(keys[1..], qty, index);
      if Qty(qty, k) > 0 then
        assert Ids([ItemFor(k, Qty(qty, k), index)] + rest) == [k] + Ids(rest);
        [ItemFor(k, Qty(qty, k), index)] + rest
      else rest
  }

  /** `cartItems.items` */
  function Snapshot(c: Cart, index: map<string, MenuEntry>): seq<CartItem> {
    SnapshotOf(c.keys, c.qty, index)
  }

  /** A cart whose quantities are all zero, as after only `dec` presses, has an empty snapshot. */
  lemma {:induction false} AllZeroSnapshotEmpty(c: Cart, index: map<string, MenuEntry>)
    requires forall k :: k in c.qty ==> c.qty[k] <= 0
    ensures Snapshot(c, index) == []
  {
  }

  // ---------------------------------------------------------------------------
  // The total, in cents
  // ---------------------------------------------------------------------------

  /** `Number(price) * qty` for one line, with the price read as a whole number of cents. */
  function LineCents(it: CartItem, priceCents: string -> int): int {
    priceCents(it.price) * it.qty
  }

  /** `items.reduce((acc, it) => acc + Number(it.price) * it.qty, 0)`, in cents. */
  function Total(items: seq<CartItem>, priceCents: string -> int): int
    decreases |items|
  {
    if items == [] then 0 else LineCents(items[0], priceCents) + Total(items[1..], priceCents)
  }

  lemma {:induction false} TotalAppend(a: seq<CartItem>, b: seq<CartItem>, priceCents: string -> int)
    ensures Total(a + b, priceCents) == Total(a, priceCents) + Total(b, priceCents)
    decreases |a|
  {
    if a == [] {
      assert a + b == b;
    } else {
      assert (a + b)[0] == a[0];
      assert (a + b)[1..] == a[1..] + b;
      TotalAppend(a[1..], b, priceCents);
    }
  }

  /** The contribution of one product at quantity `q` to the total. */
  function Contribution(p: string, q: int, index: map<string, MenuEntry>, priceCents: string -> int): int {
    if q > 0 then LineCents(ItemFor(p, q, index), priceCents) else 0
  }

  /** A quantity written for a key that is not listed changes nothing in the snapshot. */
  lemma {:induction false} SnapshotIgnoresUnlisted(keys: seq<string>, qty: map<string, int>, p: string, v: int,
                                                   index: map<string, MenuEntry>)
    requires p !in keys
    ensures SnapshotOf(keys, qty[p := v], index) == SnapshotOf(keys, qty, index)
    decreases |keys|
  {
    if keys != [] {
      SnapshotIgnoresUnlisted(keys[1..], qty, p, v, index);
    }
  }

  /** Listing one more key adds its line, if any, at the end. */
  lemma {:induction false} SnapshotSnoc(keys: seq<string>, qty: map<string, int>, p: string,
                                        index: map<string, MenuEntry>)
    ensures SnapshotOf(keys + [p], qty, index) == SnapshotOf(keys, qty, index) + SnapshotOf([p], qty, index)
    decreases |keys|
  {
    if keys == [] {
      assert keys + [p] == [p];
    } else {
      assert (keys + [p])[1..] == keys[1..] + [p];
      SnapshotSnoc(keys[1..], qty, p, index);
    }
  }

  /** The total of a snapshot is the first key's contribution plus the total of the rest. */
  lemma TotalSnapshotStep(keys: seq<string>, qty: map<string, int>, index: map<string, MenuEntry>,
                          priceCents: string -> int)
    requires keys != []
    ensures Total(SnapshotOf(keys, qty, index), priceCents) ==
            Contribution(keys[0], Qty(qty, keys[0]), index, priceCents) + Total(SnapshotOf(keys[1..], qty, index), priceCents)
  {
    var k := keys[0];
    var rest := SnapshotOf(keys[1..], qty, index);
    if Qty(qty, k) > 0 {
      var line := ItemFor(k, Qty(qty, k), index);
      assert SnapshotOf(keys, qty, index) == [line] + rest;
      assert ([line] + rest)[1..] == rest;
    }
  }

  /** Rewriting the quantity of a key listed once replaces its contribution to the total and nothing else. */
  lemma {:induction false} TotalRewrite(keys: seq<string>, qty: map<string, int>, p: string, v: int,
                                        index: map<string, MenuEntry>, priceCents: string -> int)
    requires p in keys
    requires forall i, j :: 0 <= i < j < |keys| ==> keys[i] != keys[j]
    ensures Total(SnapshotOf(keys, qty[p := v], index), priceCents) ==
            Total(SnapshotOf(keys, qty, index), priceCents)
            - Contribution(p, Qty(qty, p), index, priceCents) + Contribution(p, v, index, priceCents)
    decreases |keys|
  {
    var qty' := qty[p := v];
    var k := keys[0];
    var rest := keys[1..];
    TotalSnapshotStep(keys, qty, index, priceCents);
    TotalSnapshotStep(keys, qty', index, priceCents);
    if k == p {
      assert p !in rest by {
        forall i | 0 <= i < |rest| ensures rest[i] != p {
          assert rest[i] == keys[i + 1];
        }
      }
      assert Qty(qty', p) == v;
      SnapshotIgnoresUnlisted(rest, qty, p, v, index);
    } else {
      assert p in rest;
      assert Qty(qty', k) == Qty(qty, k);
      assert forall i, j :: 0 <= i < j < |rest| ==> rest[i] != rest[j] by {
        forall i, j | 0 <= i < j < |rest| ensures rest[i] != rest[j] {
          assert rest[i] == keys[i + 1] && rest[j] == keys[j + 1];
        }
      }
      TotalRewrite(rest, qty, p, v, index, priceCents);
    }
  }

  /**
   * Writing `v` for `p` with `{ ...c, [p]: v }` changes the total by exactly
   * the difference of `p`'s two contributions.
   */
  lemma {:induction false} PutTotal(c: Cart, p: string, v: int, index: map<string, MenuEntry>, priceCents: string -> int)
    requires c.Valid()
    ensures Total(Snapshot(Put(c, p, v), index), priceCents) ==
            Total(Snapshot(c, index), priceCents)
            - Contribution(p, Get(c, p), index, priceCents) + Contribution(p, v, index, priceCents)
  {
    if p in c.keys {
      TotalRewrite(c.keys, c.qty, p, v, index, priceCents);
    } else {
      var qty' := c.qty[p := v];
      SnapshotSnoc(c.keys, qty', p, index);
      SnapshotIgnoresUnlisted(c.keys, c.qty, p, v, index);
      TotalAppend(SnapshotOf(c.keys, qty', index), SnapshotOf([p], qty', index), priceCents);
      assert Get(c, p) == 0;
    }
  }

  /** The unit price of a product as the snapshot reads it. */
  function UnitCents(p: string, index: map<string, MenuEntry>, priceCents: string -> int): int {
    priceCents(ItemFor(p, 1, index).price)
  }

  /** A positive quantity contributes that many unit prices. */
  lemma ContributionIsUnits(p: string, q: int, index: map<string, MenuEntry>, priceCents: string -> int)
    requires q > 0
    ensures Contribution(p, q, index, priceCents) == UnitCents(p, index, priceCents) * q
  {
  }

  lemma MulSucc(u: int, q: int)
    ensures u * (q + 1) == u * q + u
  {
  }

  lemma MulPred(u: int, q: int)
    ensures u * (q - 1) == u * q - u
  {
  }

  /** One `inc` adds exactly one unit price to the total. */
  lemma {:induction false} IncAddsUnitPrice(c: Cart, p: string, index: map<string, MenuEntry>, priceCents: string -> int)
    requires c.Valid() && NonNegative(c)
    ensures Total(Snapshot(Inc(c, p), index), priceCents) ==
            Total(Snapshot(c, index), priceCents) + UnitCents(p, index, priceCents)
  {
    var q := Get(c, p);
    assert q >= 0 by {
      if p in c.qty { assert c.qty[p] >= 0; }
    }
    var u := UnitCents(p, index, priceCents);
    var before := Contribution(p, q, index, priceCents);
    var after := Contribution(p, q + 1, index, priceCents);
    assert Inc(c, p) == Put(c, p, q + 1);
    PutTotal(c, p, q + 1, index, priceCents);
    ContributionIsUnits(p, q + 1, index, priceCents);
    assert after == u * (q + 1);
    if q > 0 {
      ContributionIsUnits(p, q, index, priceCents);
      assert before == u * q;
    } else {
      assert before == 0 == u * q;
    }
    MulSucc(u, q);
  }

  /** One `dec` on a product in the cart takes exactly one unit price off the total. */
  lemma {:induction false} DecRemovesUnitPrice(c: Cart, p: string, index: map<string, MenuEntry>, priceCents: string -> int)
    requires c.Valid() && Get(c, p) > 0
    ensures Total(Snapshot(Dec(c, p), index), priceCents) ==
            Total(Snapshot(c, index), priceCents) - UnitCents(p, index, priceCents)
  {
    var q := Get(c, p);
    var u := UnitCents(p, index, priceCents);
    var before := Contribution(p, q, index, priceCents);
    var after := Contribution(p, q - 1, index, priceCents);
    assert Dec(c, p) == Put(c, p, q - 1);
    PutTotal(c, p, q - 1, index, priceCents);
    ContributionIsUnits(p, q, index, priceCents);
    assert before == u * q;
    if q > 1 {
      ContributionIsUnits(p, q - 1, index, priceCents);
    }
    assert after == u * (q - 1);
    MulPred(u, q);
  }

  /** A `dec` on a product at zero leaves the total as it was. */
  lemma {:induction false} DecAtZeroKeepsTotal(c: Cart, p: string, index: map<string, MenuEntry>, priceCents: string -> int)
    requires c.Valid() && Get(c, p) == 0
    ensures Total(Snapshot(Dec(c, p), index), priceCents) == Total(Snapshot(c, index), priceCents)
  {
    assert Dec(c, p) == Put(c, p, 0);
    PutTotal(c, p, 0, index, priceCents);
  }

  /** `total.toFixed(2)` for a whole number of cents: the units, a point, exactly two digits. */
  function CentsText(cents: int): (s: string)
    ensures |s| >= 4 && s[|s| - 3] == '.' && AllDigits(s[|s| - 2..])
    ensures cents >= 0 ==> AllDigits(s[..|s| - 3])
    ensures cents < 0 ==> s[0] == '-' && AllDigits(s[1..|s| - 3])
  {
    if cents < 0 then
      var u := UnsignedCentsText(-cents);
      assert ("-" + u)[1..|u| - 2] == u[..|u| - 3];
      assert ("-" + u)[|u| - 1..] == u[|u| - 2..];
      "-" + u
    else UnsignedCentsText(cents)
  }

  function UnsignedCentsText(cents: nat): (s: string)
    ensures |s| >= 4 && s[|s| - 3] == '.' && AllDigits(s[..|s| - 3]) && AllDigits(s[|s| - 2..])
  {
    var s := Decimal(cents / 100) + "." + [DigitChar(cents % 100 / 10), DigitChar(cents % 10)];
    assert s[..|s| - 3] == Decimal(cents / 100);
    s
  }

  /** `Number(text)` on a `toFixed(2)` text, in cents. */
  function CentsValue(s: string): int
    requires |s| >= 4
  {
    if s[0] == '-' then -UnsignedCentsValue(s[1..]) else UnsignedCentsValue(s)
  }

  function UnsignedCentsValue(s: string): int
    requires |s| >= 3
  {
    DecimalValue(s[..|s| - 3]) * 100 + DecimalValue(s[|s| - 2..])
  }

  lemma TwoDigitValue(a: char, b: char)
    ensures DecimalValue([a, b]) == DigitValue(a) * 10 + DigitValue(b)
  {
    assert [a][..0] == [];
    assert DecimalValue([a]) == DigitValue(a);
    assert [a, b][..1] == [a];
    assert DecimalValue([a, b]) == DecimalValue([a]) * 10 + DigitValue(b);
  }

  /** The unsigned text reads back as its number of cents. */
  lemma {:induction false} UnsignedCentsRoundTrip(n: nat)
    ensures UnsignedCentsValue(UnsignedCentsText(n)) == n
  {
    var u := UnsignedCentsText(n);
    var d := Decimal(n / 100);
    assert u[..|u| - 3] == d;
    assert u[|u| - 2..] == [DigitChar(n % 100 / 10), DigitChar(n % 10)];
    TwoDigitValue(DigitChar(n % 100 / 10), DigitChar(n % 10));
    DecimalRoundTrip(n / 100);
  }

  /** The displayed total reads back as the exact total: two decimals lose nothing for whole cents. */
  lemma {:induction false} CentsTextRoundTrip(cents: int)
    ensures CentsValue(CentsText(cents)) == cents
  {
    var n: nat := if cents < 0 then -cents else cents;
    var u := UnsignedCentsText(n);
    UnsignedCentsRoundTrip(n);
    if cents < 0 {
      assert CentsText(cents) == "-" + u;
      assert ("-" + u)[1..] == u;
    } else {
      var d := Decimal(n / 100);
      assert u[..|u| - 3] == d;
      assert '0' <= d[0] <= '9';
      assert CentsText(cents)[0] == d[0];
    }
  }

  // ---------------------------------------------------------------------------
  // Tables, categories and the product list
  // ---------------------------------------------------------------------------

  /** One choice of the table selector. */
  datatype TableOption = TableOption(value: string, text: string)

  const OPEN_SUFFIX := " (aberta)"

  /** `comandaOpen?.id` is truthy. */
  predicate HasOpenComanda(row: OverviewRow) {
    row.comandaOpen.Some? && row.comandaOpen.value.id != []
  }

  /** `tablesOptions`: one option per row, valued by the table id, labelled "Mesa <name>" and marked when open. */
  function TableOptions(rows: seq<OverviewRow>): (opts: seq<TableOption>)
    ensures |opts| == |rows|
    ensures forall i :: 0 <= i < |rows| ==> opts[i].value == rows[i].table.id
    ensures forall i :: 0 <= i < |rows| ==> StartsWith(opts[i].text, "Mesa " + rows[i].table.name)
    ensures forall i :: 0 <= i < |rows| ==>
              |opts[i].text| == |"Mesa " + rows[i].table.name| + (if HasOpenComanda(rows[i]) then |OPEN_SUFFIX| else 0)
    ensures forall i :: 0 <= i < |rows| ==>
              opts[i].text[|"Mesa " + rows[i].table.name|..] == (if HasOpenComanda(rows[i]) then OPEN_SUFFIX else "")
  {
    seq(|rows|, i requires 0 <= i < |rows| =>
      TableOption(rows[i].table.id,
                  "Mesa " + rows[i].table.name + (if HasOpenComanda(rows[i]) then OPEN_SUFFIX else "")))
  }

  /** The selection after a table reload: kept when set, otherwise the first row's id when it has one. */
  function DefaultTable(current: string, rows: seq<OverviewRow>): (sel: string)
    ensures current != [] ==> sel == current
    ensures current == [] && rows != [] && rows[0].table.id != [] ==> sel == TableOptions(rows)[0].value
    ensures current == [] && (rows == [] || rows[0].table.id == []) ==> sel == []
  {
    if current == [] && rows != [] && rows[0].table.id != [] then rows[0].table.id else current
  }

  /** `menu.find(c => c.id === activeCategoryId)`: the first category with that id. */
  function FindCategory(menu: seq<MenuCategory>, id: Option<string>): (r: Option<MenuCategory>)
    ensures r.Some? ==> id.Some? && r.value in menu && r.value.id == id.value
    ensures r.None? ==> id.None? || forall i :: 0 <= i < |menu| ==> menu[i].id != id.value
    ensures r.Some? ==> exists i :: 0 <= i < |menu| && menu[i] == r.value && forall j :: 0 <= j < i ==> menu[j].id != id.value
    ensures menu != [] && id == Some(menu[0].id) ==> r == Some(menu[0])
    decreases |menu|
  {
    if id.None? || menu == [] then None
    else if menu[0].id == id.value then Some(menu[0])
    else FindCategory(menu[1..], id)
  }

  /** `data[0]?.id ?? null`: the category first shown after the menu loads. */
  function FirstCategoryId(menu: seq<MenuCategory>): (id: Option<string>)
    ensures menu == [] <==> id.None?
    ensures id.Some? ==> FindCategory(menu, id) == Some(menu[0])
  {
    if menu == [] then None else Some(menu[0].id)
  }

  /** `visibleProducts`: the active category's products that match the search, in menu order. */
  function VisibleProducts(menu: seq<MenuCategory>, activeId: Option<string>, search: string): (r: seq<MenuProduct>)
    ensures var all := if FindCategory(menu, activeId).Some? then FindCategory(menu, activeId).value.products else [];
            IsSubsequence(r, all) &&
            (forall p :: p in r <==> p in all && MatchesQuery(p.name, search)) &&
            (IsBlank(search) ==> r == all)
  {
    var all := if FindCategory(menu, activeId).Some? then FindCategory(menu, activeId).value.products else [];
    if IsBlank(search) then
      SubsequenceOfItself(all);
      all
    else Filter(all, (p: MenuProduct) => MatchesQuery(p.name, search))
  }

  // ---------------------------------------------------------------------------
  // The page
  // ---------------------------------------------------------------------------

  const ORDER_TITLE := "Pedido"
  const NO_TABLE := "Selecione uma mesa."
  const NO_ITEMS := "Selecione pelo menos 1 item."
  const ORDER_SENT := "Pedido enviado para a cozinha."
  const SEND_FALLBACK := "Falha ao enviar pedido"
  const TABLES_TITLE := "Mesas"
  const TABLES_FALLBACK := "Falha ao carregar mesas"
  const MENU_TITLE := "Menu"
  const MENU_FALLBACK := "Falha ao carregar menu"
  const WAITERS_TITLE := "Garçons"
  const WAITERS_FALLBACK := "Falha ao carregar garçons"
  const WAITER_TITLE := "Garçom"
  const WAITER_SELECTED_PREFIX := "Selecionado: "
  const WAITER_CLEARED := "Seleção removida."

  /** One `{ productId, quantity }` of the order payload. */
  datatype OrderLine = OrderLine(productId: string, quantity: int)

  /** The `createOrder(tableId, payload)` call. */
  datatype OrderRequest = OrderRequest(tableId: string, operationalWaiterId: string, note: Option<string>,
                                       items: seq<OrderLine>)

  /** `note.trim() ? note.trim() : undefined` */
  function NoteField(note: string): (r: Option<string>)
    ensures r.None? <==> IsBlank(note)
    ensures r.Some? ==> r.value == Trim(note) && !IsBlank(r.value)
  {
    if IsBlank(note) then None
    else
      TrimIdempotent(note);
      Some(Trim(note))
  }

  /** The payload lines: one per snapshot line, same product and quantity, same order. */
  function Lines(items: seq<CartItem>): (r: seq<OrderLine>)
    ensures |r| == |items|
    ensures forall i :: 0 <= i < |items| ==> r[i] == OrderLine(items[i].productId, items[i].qty)
  {
    seq(|items|, i requires 0 <= i < |items| => OrderLine(items[i].productId, items[i].qty))
  }

  /** `!operationalWaiterId` */
  predicate NoWaiter(id: Option<string>) {
    id.None? || id.value == []
  }

  /** The form fields `clearOrderForm` resets and the gate reads. */
  datatype Form = Form(cart: Cart, note: string, search: string, selectedTableId: string)

  class OrdersPage {
    var menu: seq<MenuCategory>
    var menuLoading: bool
    var activeCategoryId: Option<string>
    var overviewRows: seq<OverviewRow>
    var tablesLoading: bool
    var waiters: seq<OperationalWaiter>
    var waitersLoading: bool
    var selectedTableId: string
    var note: string
    var search: string
    var cart: Cart
    var selectWaiterOpen: bool
    var confirmSend: bool
    var sending: bool
    const operational: OperationalStore

    /** The initial state of the page: nothing loaded yet, both loaders pending, an empty form. */
    constructor (operational: OperationalStore)
      ensures menu == [] && menuLoading && activeCategoryId.None?
      ensures overviewRows == [] && tablesLoading && waiters == [] && !waitersLoading
      ensures Fields() == Form(EMPTY_CART, "", "", "")
      ensures !selectWaiterOpen && !confirmSend && !sending
      ensures this.operational == operational
      ensures Valid()
    {
      menu, menuLoading, activeCategoryId := [], true, None;
      overviewRows, tablesLoading, waiters, waitersLoading := [], true, [], false;
      selectedTableId, note, search, cart := "", "", "", EMPTY_CART;
      selectWaiterOpen, confirmSend, sending := false, false, false;
      this.operational := operational;
    }

    function Fields(): Form
      reads this
    {
      Form(cart, note, search, selectedTableId)
    }

    /** The cart is well formed and holds no negative quantity. */
    ghost predicate Valid()
      reads this
    {
      cart.Valid() && NonNegative(cart)
    }

    method IncProduct(p: string)
      requires Valid()
      modifies this
      ensures Valid()
      ensures cart == Inc(old(cart), p)
      ensures Fields() == old(Fields()).(cart := cart)
    {
      IncEffect(cart, p);
      cart := Inc(cart, p);
    }

    method DecProduct(p: string)
      requires Valid()
      modifies this
      ensures Valid()
      ensures cart == Dec(old(cart), p)
      ensures Fields() == old(Fields()).(cart := cart)
    {
      DecEffect(cart, p);
      cart := Dec(cart, p);
    }

    /** `clearOrderForm`: cart, note and search together; the table stays selected. */
    method ClearOrderForm()
      modifies this
      ensures Valid()
      ensures Fields() == Form(EMPTY_CART, "", "", old(selectedTableId))
      ensures menu == old(menu) && overviewRows == old(overviewRows)
    {
      cart, note, search := EMPTY_CART, "", "";
    }

    /** The waiter gate effect: without a waiter the selector is opened. */
    method WaiterGate()
      modifies this
      ensures selectWaiterOpen == (NoWaiter(operational.waiterId) || old(selectWaiterOpen))
      ensures Fields() == old(Fields())
    {
      if NoWaiter(operational.waiterId) {
        selectWaiterOpen := true;
      }
    }

    /** The selector's `onClose`: it only closes once a waiter is set. */
    method CloseWaiterSelector()
      modifies this
      ensures selectWaiterOpen == (old(selectWaiterOpen) && NoWaiter(operational.waiterId))
      ensures Fields() == old(Fields())
    {
      if !NoWaiter(operational.waiterId) {
        selectWaiterOpen := false;
      }
    }

    /** Picking a waiter in the selector: store it, confirm, close the selector. */
    method SelectWaiter(w: OperationalWaiter) returns (toasts: seq<ToastInput>)
      modifies this, operational, operational.ls
      ensures operational.waiterId == Some(w.id) && operational.waiterName == Some(w.name)
      ensures operational.ls != null ==> operational.ls.items == WithWaiter(old(operational.ls.items), w.id, w.name)
      ensures !selectWaiterOpen && Fields() == old(Fields())
      ensures toasts == [Success(WAITER_TITLE, Some(WAITER_SELECTED_PREFIX + w.name))]
    {
      operational.SetWaiter(w.id, w.name);
      toasts := [Success(WAITER_TITLE, Some(WAITER_SELECTED_PREFIX + w.name))];
      selectWaiterOpen := false;
    }

    /** "Limpar seleção": the waiter is cleared and the selector stays open. */
    method ClearWaiterSelection() returns (toasts: seq<ToastInput>)
      modifies operational, operational.ls
      ensures operational.waiterId.None? && operational.waiterName.None?
      ensures operational.ls != null ==> operational.ls.items == WithoutWaiter(old(operational.ls.items))
      ensures toasts == [Info(WAITER_TITLE, Some(WAITER_CLEARED))]
    {
      operational.ClearWaiter();
      toasts := [Info(WAITER_TITLE, Some(WAITER_CLEARED))];
    }

    /** `loadWaiters` */
    method LoadWaiters(result: Outcome<seq<OperationalWaiter>>) returns (toasts: seq<ToastInput>)
      modifies this
      ensures !waitersLoading && Fields() == old(Fields())
      ensures result.Ok? ==> waiters == result.value && toasts == []
      ensures result.Err? ==>
                waiters == old(waiters) &&
                toasts == [Error(WAITERS_TITLE, Some(MessageOr(result.error, WAITERS_FALLBACK)))]
    {
      waitersLoading := true;
      toasts := [];
      if result.Ok? {
        waiters := result.value;
      } else {
        toasts := [Error(WAITERS_TITLE, Some(MessageOr(result.error, WAITERS_FALLBACK)))];
      }
      waitersLoading := false;
    }

    /** `loadMenu`: on success the menu is replaced and its first category shown. */
    method LoadMenu(result: Outcome<seq<MenuCategory>>) returns (toasts: seq<ToastInput>)
      modifies this
      ensures !menuLoading && Fields() == old(Fields())
      ensures result.Ok? ==> menu == result.value && activeCategoryId == FirstCategoryId(result.value) && toasts == []
      ensures result.Err? ==>
                menu == old(menu) && activeCategoryId == old(activeCategoryId) &&
                toasts == [Error(MENU_TITLE, Some(MessageOr(result.error, MENU_FALLBACK)))]
    {
      menuLoading := true;
      toasts := [];
      if result.Ok? {
        menu := result.value;
        activeCategoryId := FirstCategoryId(result.value);
      } else {
        toasts := [Error(MENU_TITLE, Some(MessageOr(result.error, MENU_FALLBACK)))];
      }
      menuLoading := false;
    }

    /** `loadTablesFromOverview`: on success the rows are replaced and a default table chosen when none is. */
    method LoadTables(result: Outcome<seq<OverviewRow>>) returns (toasts: seq<ToastInput>)
      modifies this
      ensures !tablesLoading
      ensures cart == old(cart) && note == old(note) && search == old(search)
      ensures menu == old(menu) && sending == old(sending) && confirmSend == old(confirmSend)
      ensures result.Ok? ==>
                overviewRows == result.value && selectedTableId == DefaultTable(old(selectedTableId), result.value) &&
                toasts == []
      ensures result.Err? ==>
                overviewRows == old(overviewRows) && selectedTableId == old(selectedTableId) &&
                toasts == [Error(TABLES_TITLE, Some(MessageOr(result.error, TABLES_FALLBACK)))]
    {
      tablesLoading := true;
      toasts := [];
      if result.Ok? {
        overviewRows := result.value;
        if selectedTableId == [] && result.value != [] && result.value[0].table.id != [] {
          selectedTableId := result.value[0].table.id;
        }
      } else {
        toasts := [Error(TABLES_TITLE, Some(MessageOr(result.error, TABLES_FALLBACK)))];
      }
      tablesLoading := false;
    }

    /** `cartItems`: the snapshot and its total, the index built by the nested loop. */
    method CartItems(priceCents: string -> int) returns (items: seq<CartItem>, total: int)
      ensures items == Snapshot(cart, MenuIndex(menu))
      ensures total == Total(items, priceCents)
    {
      var index := BuildMenuIndex(menu);
      items := Snapshot(cart, index);
      total := Total(items, priceCents);
    }

    /**
     * The part of `sendOrder` past the gates: the order is sent; success
     * clears the form, closes the confirmation and reloads the tables once,
     * failure leaves the form alone.  `sending` ends false either way.
     */
    method Send(createResult: Outcome<bool>, reloadResult: Outcome<seq<OverviewRow>>)
      returns (toasts: seq<ToastInput>)
      requires Valid() && selectedTableId != []
      modifies this
      ensures Valid() && !sending
      ensures createResult.Ok? ==>
                cart == EMPTY_CART && note == "" && search == "" && !confirmSend &&
                (reloadResult.Ok? ==> overviewRows == reloadResult.value) &&
                (reloadResult.Err? ==> overviewRows == old(overviewRows)) &&
                selectedTableId == old(selectedTableId) &&
                toasts == [Success(ORDER_TITLE, Some(ORDER_SENT))] +
                          (if reloadResult.Ok? then []
                           else [Error(TABLES_TITLE, Some(MessageOr(reloadResult.error, TABLES_FALLBACK)))])
      ensures createResult.Err? ==>
                Fields() == old(Fields()) && overviewRows == old(overviewRows) &&
                toasts == [Error(ORDER_TITLE, Some(MessageOr(createResult.error, SEND_FALLBACK)))]
    {
      sending := true;
      if createResult.Ok? {
        ClearOrderForm();
        confirmSend := false;
        var reloadToasts := LoadTables(reloadResult);
        toasts := [Success(ORDER_TITLE, Some(ORDER_SENT))] + reloadToasts;
      } else {
        toasts := [Error(ORDER_TITLE, Some(MessageOr(createResult.error, SEND_FALLBACK)))];
      }
      sending := false;
    }

    /**
     * `sendOrder`: three gates in order, each returning before the call;
     * then the order is sent with the snapshot as its lines.  Success clears
     * the form, closes the confirmation and reloads the tables once; failure
     * leaves the form alone.  `sending` ends false either way.
     */
    method SendOrder(createResult: Outcome<bool>, reloadResult: Outcome<seq<OverviewRow>>)
      returns (request: Option<OrderRequest>, toasts: seq<ToastInput>)
      requires Valid()
      modifies this
      ensures Valid()
      ensures !sending || (sending == old(sending) && request.None?)
      ensures NoWaiter(operational.waiterId) ==>
                request.None? && toasts == [] && selectWaiterOpen && Fields() == old(Fields()) &&
                confirmSend == old(confirmSend) && overviewRows == old(overviewRows) && menu == old(menu)
      ensures !NoWaiter(operational.waiterId) && old(selectedTableId) == [] ==>
                request.None? && toasts == [Error(ORDER_TITLE, Some(NO_TABLE))] && Fields() == old(Fields()) &&
                selectWaiterOpen == old(selectWaiterOpen) && confirmSend == old(confirmSend) &&
                overviewRows == old(overviewRows) && menu == old(menu)
      ensures !NoWaiter(operational.waiterId) && old(selectedTableId) != [] &&
              Snapshot(old(cart), MenuIndex(old(menu))) == [] ==>
                request.None? && toasts == [Error(ORDER_TITLE, Some(NO_ITEMS))] && Fields() == old(Fields()) &&
                selectWaiterOpen == old(selectWaiterOpen) && confirmSend == old(confirmSend) &&
                overviewRows == old(overviewRows) && menu == old(menu)
      ensures request.Some? <==>
                !NoWaiter(operational.waiterId) && old(selectedTableId) != [] &&
                Snapshot(old(cart), MenuIndex(old(menu))) != []
      ensures request.Some? ==>
                request.value == OrderRequest(old(selectedTableId), operational.waiterId.value, NoteField(old(note)),
                                              Lines(Snapshot(old(cart), MenuIndex(old(menu)))))
      ensures request.Some? && createResult.Ok? ==>
                cart == EMPTY_CART && note == "" && search == "" && !confirmSend &&
                (reloadResult.Ok? ==> overviewRows == reloadResult.value) &&
                (reloadResult.Err? ==> overviewRows == old(overviewRows)) &&
                selectedTableId == old(selectedTableId) &&
                toasts == [Success(ORDER_TITLE, Some(ORDER_SENT))] +
                          (if reloadResult.Ok? then []
                           else [Error(TABLES_TITLE, Some(MessageOr(reloadResult.error, TABLES_FALLBACK)))])
      ensures request.Some? && createResult.Err? ==>
                Fields() == old(Fields()) && overviewRows == old(overviewRows) &&
                toasts == [Error(ORDER_TITLE, Some(MessageOr(createResult.error, SEND_FALLBACK)))]
    {
      request := None;
      toasts := [];
      var waiterId := operational.waiterId;
      if NoWaiter(waiterId) {
        selectWaiterOpen := true;
        return;
      }
      if selectedTableId == [] {
        toasts := [Error(ORDER_TITLE, Some(NO_TABLE))];
        return;
      }
      var items, _ := CartItems(_ => 0);
      if |items| == 0 {
        toasts := [Error(ORDER_TITLE, Some(NO_ITEMS))];
        return;
      }
      request := Some(OrderRequest(selectedTableId, waiterId.value, NoteField(note), Lines(items)));
      toasts := Send(createResult, reloadResult);
    }
  }

  /** A whole order: pick a table, add two of one product, send; the form ends empty and the lines match. */
  method OrderScenario(ops: OperationalStore, p: MenuProduct, rows: seq<OverviewRow>)
    requires ops.waiterId.Some? && ops.waiterId.value != []
    requires rows != [] && rows[0].table.id != []
  {
    var page := new OrdersPage(ops);
    var _ := page.LoadMenu(Ok([MenuCategory("c1", "Bebidas", None, [p])]));
    var _ := page.LoadTables(Ok(rows));
    assert page.selectedTableId == rows[0].table.id;
    page.IncProduct(p.id);
    page.IncProduct(p.id);
    page.DecProduct(p.id);
    page.IncProduct(p.id);
    assert Get(page.cart, p.id) == 2;
    assert page.cart.keys == [p.id];
    var request, toasts := page.SendOrder(Ok(true), Ok(rows));
    assert page.cart == EMPTY_CART && page.note == "";
    assert request.Some?;
    assert Snapshot(Cart([p.id], map[p.id := 2]), MenuIndex(page.menu)) != [];
  }
}

=== FILE: overview.dfy ===
/**
 * The table overview of src/app/operational/overview/page.tsx: a polled
 * list of tables with their open comandas, a drawer with the detail of the
 * selected table, and the flow that closes a comanda.  Each fetch or button
 * press is one step that receives the server's outcome as a parameter.
 */
module Overview {
  import opened Wrappers
  import opened Domain
  import opened Failures
  import opened Lists
  import opened Ui

  const OVERVIEW_FALLBACK := "Falha ao carregar overview"
  const COMANDA_TITLE := "Comanda"
  const DETAIL_FALLBACK := "Falha ao carregar detalhes"
  const CLOSE_TITLE := "Fechar comanda"
  const CLOSE_FALLBACK := "Falha ao fechar comanda"
  const CLOSED_PREFIX := "Comanda fechada. Total: "
  /** What a missing total is shown as. */
  const NO_TOTAL := "0"

  /** `!!r.comandaOpen`: the row carries an open comanda, whatever its id. */
  predicate HasComanda(r: OverviewRow) {
    r.comandaOpen.Some?
  }

  /** `row.comandaOpen?.id` when it is truthy: the id a detail or close request is sent for. */
  function OpenComandaId(r: OverviewRow): (id: Option<string>)
    ensures id.Some? ==> HasComanda(r) && id.value == r.comandaOpen.value.id && id.value != []
    ensures id.None? <==> !HasComanda(r) || r.comandaOpen.value.id == []
  {
    match r.comandaOpen
    case Some(c) => if c.id != [] then Some(c.id) else None
    case None => None
  }

  /** `activeCount`: the number of rows with an open comanda. */
  function ActiveCount(rows: seq<OverviewRow>): nat {
    |Filter(rows, HasComanda)|
  }

  /**
   * The count never exceeds the number of rows; it is zero exactly when no
   * row has a comanda and equals the number of rows exactly when all do, and
   * one more row adds one exactly when that row has a comanda.
   */
  lemma ActiveCountFacts(rows: seq<OverviewRow>, r: OverviewRow)
    ensures ActiveCount(rows) <= |rows|
    ensures ActiveCount(rows) == 0 <==> forall i :: 0 <= i < |rows| ==> !HasComanda(rows[i])
    ensures ActiveCount(rows) == |rows| <==> forall i :: 0 <= i < |rows| ==> HasComanda(rows[i])
    ensures ActiveCount(rows + [r]) == ActiveCount(rows) + (if HasComanda(r) then 1 else 0)
  {
    FilterKeepsNone(rows, HasComanda);
    FilterKeepsAll(rows, HasComanda);
    FilterSnoc(rows, r, HasComanda);
  }

  /** `r.comandaOpen?.partialTotal ?? "0"`: the total shown on a card and in the drawer. */
  function TotalText(r: OverviewRow): (t: string)
    ensures !HasComanda(r) ==> t == NO_TOTAL
    ensures HasComanda(r) ==> t == r.comandaOpen.value.partialTotal
  {
    match r.comandaOpen
    case Some(c) => c.partialTotal
    case None => NO_TOTAL
  }

  /** What the body of the page shows. */
  datatype View = Spinner | ErrorCard(message: string) | Grid(rows: seq<OverviewRow>)

  /** `loading ? spinner : error ? error card : grid`; an empty error text is falsy. */
  function ViewOf(loading: bool, error: Option<string>, rows: seq<OverviewRow>): (v: View)
    ensures v.Spinner? <==> loading
    ensures v.ErrorCard? ==> v.message != [] && error == Some(v.message)
    ensures !loading && (error.None? || error.value == []) ==> v == Grid(rows)
    ensures v.Grid? ==> v.rows == rows
  {
    if loading then Spinner
    else if error.Some? && error.value != [] then ErrorCard(error.value)
    else Grid(rows)
  }

  class OverviewPage {
    var rows: seq<OverviewRow>
    var loading: bool
    var error: Option<string>
    var open: bool
    var selected: Option<OverviewRow>
    var detail: Option<ComandaDetail>
    var detailLoading: bool
    var confirmClose: bool
    var closing: bool

    /** No rows yet and the first fetch pending; the drawer and the dialog closed. */
    constructor ()
      ensures rows == [] && loading && error.None?
      ensures Drawer() == (false, None, None, false, false, false)
    {
      rows, loading, error := [], true, None;
      open, selected, detail, detailLoading, confirmClose, closing := false, None, None, false, false, false;
    }

    /** The state of the drawer and the close dialog, which a fetch of the list leaves alone. */
    function Drawer(): (bool, Option<OverviewRow>, Option<ComandaDetail>, bool, bool, bool)
      reads this
    {
      (open, selected, detail, detailLoading, confirmClose, closing)
    }

    function View(): View
      reads this
    {
      ViewOf(loading, error, rows)
    }

    /**
     * `fetchOverview`: success replaces the rows and clears the error; a
     * failure keeps the rows and records the message.  Loading ends either way.
     */
    method FetchOverview(result: Outcome<seq<OverviewRow>>)
      modifies this
      ensures !loading
      ensures result.Ok? ==> rows == result.value && error.None? && View() == Grid(result.value)
      ensures result.Err? ==>
                rows == old(rows) && error == Some(MessageOr(result.error, OVERVIEW_FALLBACK)) &&
                (MessageOr(result.error, OVERVIEW_FALLBACK) != [] ==>
                   View() == ErrorCard(MessageOr(result.error, OVERVIEW_FALLBACK)))
      ensures Drawer() == old(Drawer())
    {
      if result.Ok? {
        rows := result.value;
        error := None;
      } else {
        error := Some(MessageOr(result.error, OVERVIEW_FALLBACK));
      }
      loading := false;
    }

    /**
     * `openTable`: the row is selected, the drawer opened and the old detail
     * dropped; the detail is requested only for a row with an open comanda
     * id, and a failed request leaves it empty.
     */
    method OpenTable(row: OverviewRow, detailResult: Outcome<ComandaDetail>)
      returns (requested: Option<string>, toasts: seq<ToastInput>)
      modifies this
      ensures selected == Some(row) && open
      ensures requested == OpenComandaId(row)
      ensures requested.None? ==> detail.None? && toasts == [] && detailLoading == old(detailLoading)
      ensures requested.Some? ==> !detailLoading
      ensures requested.Some? && detailResult.Ok? ==> detail == Some(detailResult.value) && toasts == []
      ensures requested.Some? && detailResult.Err? ==>
                detail.None? && toasts == [Error(COMANDA_TITLE, Some(MessageOr(detailResult.error, DETAIL_FALLBACK)))]
      ensures rows == old(rows) && loading == old(loading) && error == old(error)
      ensures confirmClose == old(confirmClose) && closing == old(closing)
    {
      selected, open, detail := Some(row), true, None;
      toasts := [];
      requested := OpenComandaId(row);
      if requested.None? {
        return;
      }
      detailLoading := true;
      if detailResult.Ok? {
        detail := Some(detailResult.value);
      } else {
        toasts := [Error(COMANDA_TITLE, Some(MessageOr(detailResult.error, DETAIL_FALLBACK)))];
      }
      detailLoading := false;
    }

    /** The drawer's `onClose`. */
    method CloseDrawer()
      modifies this
      ensures !open && selected == old(selected) && detail == old(detail)
      ensures rows == old(rows) && confirmClose == old(confirmClose) && closing == old(closing)
    {
      open := false;
    }

    /** "Fechar comanda" opens the confirmation; its cancel closes it. */
    method SetConfirmClose(value: bool)
      modifies this
      ensures confirmClose == value
      ensures open == old(open) && selected == old(selected) && rows == old(rows) && closing == old(closing)
    {
      confirmClose := value;
    }

    /**
     * `closeComanda`: without an open comanda on the selected row nothing
     * happens.  Otherwise the close request is sent; success reports the
     * total, closes the dialog and the drawer and fetches the list once,
     * failure leaves the drawer open.  `closing` ends false either way.
     * `formatBRL` is the currency formatter.
     */
    method CloseComanda(closeResult: Outcome<ClosedComanda>, reloadResult: Outcome<seq<OverviewRow>>,
                        formatBRL: string -> string)
      returns (closed: Option<string>, toasts: seq<ToastInput>)
      modifies this
      ensures old(selected).None? || OpenComandaId(old(selected).value).None? ==>
                closed.None? && toasts == [] && Drawer() == old(Drawer()) &&
                rows == old(rows) && error == old(error) && loading == old(loading)
      ensures old(selected).Some? ==> closed == OpenComandaId(old(selected).value)
      ensures closed.Some? ==> !closing && selected == old(selected) && detail == old(detail)
      ensures closed.Some? && closeResult.Ok? ==>
                !confirmClose && !open && !loading &&
                toasts == [Success(COMANDA_TITLE, Some(CLOSED_PREFIX + formatBRL(closeResult.value.totalAmount.GetOr(NO_TOTAL))))] &&
                (reloadResult.Ok? ==> rows == reloadResult.value && error.None?) &&
                (reloadResult.Err? ==> rows == old(rows) && error == Some(MessageOr(reloadResult.error, OVERVIEW_FALLBACK)))
      ensures closed.Some? && closeResult.Err? ==>
                open == old(open) && confirmClose == old(confirmClose) &&
                rows == old(rows) && error == old(error) && loading == old(loading) &&
                toasts == [Error(CLOSE_TITLE, Some(MessageOr(closeResult.error, CLOSE_FALLBACK)))]
    {
      closed := None;
      toasts := [];
      if selected.None? {
        return;
      }
      closed := OpenComandaId(selected.value);
      if closed.None? {
        return;
      }
      closing := true;
      if closeResult.Ok? {
        var total := closeResult.value.totalAmount.GetOr(NO_TOTAL);
        toasts := [Success(COMANDA_TITLE, Some(CLOSED_PREFIX + formatBRL(total)))];
        confirmClose := false;
        open := false;
        FetchOverview(reloadResult);
      } else {
        toasts := [Error(CLOSE_TITLE, Some(MessageOr(closeResult.error, CLOSE_FALLBACK)))];
      }
      closing := false;
    }
  }

  /** An `Error` with an empty message leaves an empty error text, which the view treats as no error. */
  lemma EmptyMessageShowsStaleGrid(rows: seq<OverviewRow>)
    ensures ViewOf(false, Some(MessageOr(ErrorValue([]), OVERVIEW_FALLBACK)), rows) == Grid(rows)
    ensures ViewOf(false, Some(MessageOr(StringValue([]), OVERVIEW_FALLBACK)), rows) == ErrorCard(OVERVIEW_FALLBACK)
  {
  }

  /** Open a table with a comanda, close it, and the drawer ends closed over the latest list. */
  method OverviewScenario(t: TableRef, c: ComandaSummary, d: ComandaDetail, latest: seq<OverviewRow>)
    requires c.id != []
  {
    var page := new OverviewPage();
    var row := OverviewRow(t, Some(c));
    page.FetchOverview(Ok([row]));
    assert ActiveCount([row]) == 1;
    var requested, _ := page.OpenTable(row, Ok(d));
    assert requested == Some(c.id) && page.detail == Some(d);
    page.SetConfirmClose(true);
    var closed, toasts := page.CloseComanda(Ok(ClosedComanda(c.id, None)), Ok(latest), s => s);
    assert closed == Some(c.id);
    assert toasts == [Success(COMANDA_TITLE, Some(CLOSED_PREFIX + NO_TOTAL))];
    assert !page.open && !page.confirmClose && page.rows == latest && page.View() == Grid(latest);
  }
}

=== FILE: print_queue.dfy ===
/**
 * The kitchen print queue of src/app/operational/print/page.tsx: the list
 * of pending print jobs, refreshed by polling, and the button that marks
 * one job printed.  A job's payload is free-form JSON, read with optional
 * chaining and `??` defaults.
 */
module PrintQueue {
  import opened Wrappers
  import opened Domain
  import opened Failures
  import opened Json
  import opened Ui

  const PRINT_TITLE := "Impressão"
  const MARKED := "Marcado como impresso."
  const MARK_FALLBACK := "Falha ao marcar impresso"
  /** What a missing table or waiter name is shown as. */
  const NO_NAME := "—"
  /** What a missing item subtotal is shown as, before currency formatting. */
  const NO_SUBTOTAL := "0"

  /** `j.payload?.table?.name ?? "—"` */
  function TableLabel(payload: Json): (r: Json)
    ensures Path(Member(payload, "table"), "name") == None ==> r == JString(NO_NAME)
  {
    OrElse(Path(Member(payload, "table"), "name"), JString(NO_NAME))
  }

  /** `j.payload?.operationalWaiter?.name ?? "—"` */
  function WaiterLabel(payload: Json): (r: Json)
    ensures Path(Member(payload, "operationalWaiter"), "name") == None ==> r == JString(NO_NAME)
  {
    OrElse(Path(Member(payload, "operationalWaiter"), "name"), JString(NO_NAME))
  }

  /** `j.payload?.note ? … : null`: the note line appears only for a truthy note. */
  function NoteLine(payload: Json): (r: Option<Json>)
    ensures r.Some? ==> Truthy(r.value) && Member(payload, "note") == r
  {
    match Member(payload, "note")
    case Some(n) => if Truthy(n) then Some(n) else None
    case None => None
  }

  /**
   * `(j.payload?.items ?? []).map(…)`: the item rows, none when the list is
   * missing or null; `None` when the value is something else, on which
   * `.map` does not exist and the render throws.
   */
  function ItemRows(payload: Json): (r: Option<seq<Json>>)
    ensures (Member(payload, "items") == None || Member(payload, "items") == Some(JNull)) ==> r == Some([])
    ensures r.Some? && r.value != [] ==> Member(payload, "items") == Some(JArray(r.value))
  {
    match OrElse(Member(payload, "items"), JArray([]))
    case JArray(items) => Some(items)
    case _ => None
  }

  /** `it.subtotal ?? "0"` on one item; `None` for a null item, on which the read throws. */
  function SubtotalOf(item: Json): (r: Option<Json>)
    ensures item.JNull? <==> r.None?
    ensures !item.JNull? && Member(item, "subtotal") == None ==> r == Some(JString(NO_SUBTOTAL))
  {
    if item.JNull? then None else Some(OrElse(Member(item, "subtotal"), JString(NO_SUBTOTAL)))
  }

  /**
   * A payload with no usable fields, a null payload included, shows both
   * names as "—", no note and no item rows.
   */
  lemma EmptyPayloadDefaults(payload: Json)
    requires payload.JNull? || payload == JObject([])
    ensures TableLabel(payload) == JString(NO_NAME) && WaiterLabel(payload) == JString(NO_NAME)
    ensures NoteLine(payload).None? && ItemRows(payload) == Some([])
  {
  }

  /** The payload the server builds for an order: its fields are shown back as they were written. */
  function OrderPayload(table: string, waiter: string, note: string, items: seq<Json>): Json {
    JObject([
      ("table", JObject([("name", JString(table))])),
      ("operationalWaiter", JObject([("name", JString(waiter))])),
      ("note", JString(note)),
      ("items", JArray(items))])
  }

  /** The four members of the order payload are found under their own keys. */
  lemma PayloadMembers(table: string, waiter: string, note: string, items: seq<Json>)
    ensures var p := OrderPayload(table, waiter, note, items);
            Member(p, "table") == Some(JObject([("name", JString(table))])) &&
            Member(p, "operationalWaiter") == Some(JObject([("name", JString(waiter))])) &&
            Member(p, "note") == Some(JString(note)) &&
            Member(p, "items") == Some(JArray(items))
  {
    var ms := OrderPayload(table, waiter, note, items).members;
    LookupLast(ms, 0);
    LookupLast(ms, 1);
    LookupLast(ms, 2);
    LookupLast(ms, 3);
  }

  lemma {:induction false} PayloadReadBack(table: string, waiter: string, note: string, items: seq<Json>)
    ensures TableLabel(OrderPayload(table, waiter, note, items)) == JString(table)
    ensures WaiterLabel(OrderPayload(table, waiter, note, items)) == JString(waiter)
    ensures NoteLine(OrderPayload(table, waiter, note, items)) == if note == [] then None else Some(JString(note))
    ensures ItemRows(OrderPayload(table, waiter, note, items)) == Some(items)
  {
    var p := OrderPayload(table, waiter, note, items);
    PayloadMembers(table, waiter, note, items);
    LookupLast([("name", JString(table))], 0);
    LookupLast([("name", JString(waiter))], 0);
    assert Path(Member(p, "table"), "name") == Some(JString(table));
    assert Path(Member(p, "operationalWaiter"), "name") == Some(JString(waiter));
  }

  /** What the body of the page shows. */
  datatype View = Spinner | NothingPending | JobList(jobs: seq<PrintJob>)

  function ViewOf(loading: bool, jobs: seq<PrintJob>): (v: View)
    ensures v.JobList? ==> v.jobs == jobs && jobs != []
  {
    if loading then Spinner else if |jobs| == 0 then NothingPending else JobList(jobs)
  }

  class PrintPage {
    var jobs: seq<PrintJob>
    var loading: bool

    /** No jobs yet and the first fetch pending. */
    constructor ()
      ensures jobs == [] && loading
    {
      jobs, loading := [], true;
    }

    function View(): View
      reads this
    {
      ViewOf(loading, jobs)
    }

    /**
     * `fetchJobs`: success replaces the jobs; a failure keeps them and is
     * not caught, so it is handed back to the caller.  Loading ends either way.
     */
    method FetchJobs(result: Outcome<seq<PrintJob>>) returns (raised: Option<Thrown>)
      modifies this
      ensures !loading
      ensures result.Ok? ==> jobs == result.value && raised.None?
      ensures result.Err? ==> jobs == old(jobs) && raised == Some(result.error)
    {
      raised := None;
      if result.Ok? {
        jobs := result.value;
      } else {
        raised := Some(result.error);
      }
      loading := false;
    }

    /**
     * `markPrinted(id)`: the job `id` is acknowledged (`marked` is the id the
     * request names); only after the server
     * confirms is the list fetched again.  Any error, a failure of that
     * fetch included, ends in an error toast.
     */
    method MarkPrinted(id: string, markResult: Outcome<bool>, refetchResult: Outcome<seq<PrintJob>>)
      returns (marked: string, refetched: bool, toasts: seq<ToastInput>)
      modifies this
      ensures marked == id
      ensures refetched <==> markResult.Ok?
      ensures markResult.Err? ==>
                jobs == old(jobs) && loading == old(loading) &&
                toasts == [Error(PRINT_TITLE, Some(MessageOr(markResult.error, MARK_FALLBACK)))]
      ensures markResult.Ok? ==> !loading
      ensures markResult.Ok? && refetchResult.Ok? ==>
                jobs == refetchResult.value && toasts == [Success(PRINT_TITLE, Some(MARKED))]
      ensures markResult.Ok? && refetchResult.Err? ==>
                jobs == old(jobs) &&
                toasts == [Success(PRINT_TITLE, Some(MARKED)),
                           Error(PRINT_TITLE, Some(MessageOr(refetchResult.error, MARK_FALLBACK)))]
    {
      marked := id;
      if markResult.Err? {
        return id, false, [Error(PRINT_TITLE, Some(MessageOr(markResult.error, MARK_FALLBACK)))];
      }
      toasts := [Success(PRINT_TITLE, Some(MARKED))];
      refetched := true;
      var raised := FetchJobs(refetchResult);
      if raised.Some? {
        toasts := toasts + [Error(PRINT_TITLE, Some(MessageOr(raised.value, MARK_FALLBACK)))];
      }
    }
  }

  /** A failed refresh after a successful mark reports both the success and the failure. */
  method PrintScenario(job: PrintJob)
  {
    var page := new PrintPage();
    var raised := page.FetchJobs(Ok([job]));
    assert page.View() == JobList([job]);
    var marked, refetched, toasts := page.MarkPrinted(job.id, Ok(true), Ok([]));
    assert marked == job.id && refetched && page.View() == NothingPending;
    marked, refetched, toasts := page.MarkPrinted(job.id, Ok(true), Err(StringValue("offline")));
    assert toasts[1] == Error(PRINT_TITLE, Some(MARK_FALLBACK));
  }
}

=== FILE: protected.dfy ===
/**
 * The client-side gate of src/components/app/Protected.tsx and the role
 * allow-lists the two layouts hand it.  The gate both decides what to
 * render and, in an effect, where to navigate; the two are computed
 * separately in the source and shown here to agree.
 */
module Protected {
  import opened Wrappers
  import opened Text
  import opened Domain
  import opened Routes

  /** `allow` of src/app/admin/layout.tsx */
  const ADMIN_ALLOW: seq<Role> := [Manager]
  /** `allow` of src/app/operational/layout.tsx */
  const OPERATIONAL_ALLOW: seq<Role> := [Manager, Waiter]

  /** The allow-list of the layout a path is rendered in; other paths have no gate. */
  function LayoutAllow(path: string): Option<seq<Role>> {
    if StartsWith(path, ADMIN_PREFIX) then Some(ADMIN_ALLOW)
    else if StartsWith(path, OPERATIONAL_PREFIX) then Some(OPERATIONAL_ALLOW)
    else None
  }

  /** `user?.role === "MANAGER"` */
  predicate IsManager(user: Option<AuthUser>) {
    user.Some? && user.value.role == Manager
  }

  /** `!!user && allow.includes(user.role)` */
  predicate Allowed(user: Option<AuthUser>, allow: seq<Role>) {
    user.Some? && user.value.role in allow
  }

  /** The render condition: the children appear, otherwise the loading placeholder. */
  predicate Renders(isAuthenticated: bool, user: Option<AuthUser>, allow: seq<Role>) {
    isAuthenticated && user.Some? && user.value.role in allow
  }

  /**
   * The navigation effect: signed out goes to `/login`; signed in but not
   * allowed goes to the home of the user's role; otherwise nowhere.
   */
  function RedirectTarget(isAuthenticated: bool, user: Option<AuthUser>, allow: seq<Role>): (target: Option<string>)
    ensures !isAuthenticated ==> target == Some(LOGIN_PATH)
    ensures isAuthenticated && !Allowed(user, allow) ==> target == Some(HomeFor(IsManager(user)))
    ensures isAuthenticated && Allowed(user, allow) ==> target.None?
    ensures target == Some(ADMIN_HOME) ==> IsManager(user)
  {
    if !isAuthenticated then Some(LOGIN_PATH)
    else if !Allowed(user, allow) then Some(HomeFor(IsManager(user)))
    else None
  }

  /** The children are rendered exactly when the effect navigates nowhere. */
  lemma RenderIffNoRedirect(isAuthenticated: bool, user: Option<AuthUser>, allow: seq<Role>)
    ensures Renders(isAuthenticated, user, allow) <==> RedirectTarget(isAuthenticated, user, allow).None?
  {
  }

  /** A waiter inside the admin layout is not rendered and is sent to the overview. */
  lemma {:induction false} WaiterLeavesAdmin(isAuthenticated: bool, u: AuthUser)
    requires isAuthenticated && u.role == Waiter
    ensures !Renders(isAuthenticated, Some(u), ADMIN_ALLOW)
    ensures RedirectTarget(isAuthenticated, Some(u), ADMIN_ALLOW) == Some(OPERATIONAL_HOME)
  {
    assert u.role !in ADMIN_ALLOW;
  }

  /** The operational layout renders for every signed-in user of either role. */
  lemma {:induction false} OperationalAdmitsEveryRole(u: AuthUser)
    ensures Renders(true, Some(u), OPERATIONAL_ALLOW)
  {
    assert u.role == OPERATIONAL_ALLOW[0] || u.role == OPERATIONAL_ALLOW[1];
  }

  /** The home of a user's role is rendered for that user: the gate's own redirect cannot loop. */
  lemma {:induction false} HomeAdmits(u: AuthUser)
    ensures LayoutAllow(HomeFor(IsManager(Some(u)))).Some?
    ensures Renders(true, Some(u), LayoutAllow(HomeFor(IsManager(Some(u)))).value)
  {
    var home := HomeFor(IsManager(Some(u)));
    PrefixesDisjoint(home);
    if u.role == Manager {
      assert LayoutAllow(home) == Some(ADMIN_ALLOW);
      assert u.role == ADMIN_ALLOW[0];
    } else {
      assert LayoutAllow(home) == Some(OPERATIONAL_ALLOW);
      OperationalAdmitsEveryRole(u);
    }
  }
}

=== FILE: root_page.dfy ===
/** The landing page of src/app/page.tsx: hydrate the stores, then send the visitor on. */
module RootPage {
  import opened Wrappers
  import opened Domain
  import opened Storage
  import opened Routes
  import opened Protected
  import opened Auth

  /** Signed out goes to `/login`, a manager to the dashboard, anyone else to the overview. */
  function RootTarget(isAuthenticated: bool, user: Option<AuthUser>): (path: string)
    ensures !isAuthenticated ==> path == LOGIN_PATH
    ensures isAuthenticated ==> path == HomeFor(IsManager(user))
  {
    if !isAuthenticated then LOGIN_PATH
    else if IsManager(user) then ADMIN_HOME
    else OPERATIONAL_HOME
  }

  /**
   * The landing page agrees with the gate: for a signed-in user the target
   * is where the gate would send them, and the gate there renders for them.
   */
  lemma {:induction false} RootTargetIsRendered(user: AuthUser)
    ensures RootTarget(true, Some(user)) == RedirectTarget(true, Some(user), []).value
    ensures LayoutAllow(RootTarget(true, Some(user))).Some?
    ensures Renders(true, Some(user), LayoutAllow(RootTarget(true, Some(user))).value)
  {
    HomeAdmits(user);
  }

  /** Mounting the page: hydrate, then choose the target from what was read back. */
  method Mount(auth: AuthStore) returns (target: string)
    requires auth.Valid()
    modifies auth, auth.operational
    ensures auth.Consistent()
    ensures target == RootTarget(Authenticated(GetToken(auth.ls), GetUser(auth.ls, auth.codec)),
                                 GetUser(auth.ls, auth.codec))
  {
    auth.Hydrate();
    target := RootTarget(auth.isAuthenticated, auth.user);
  }
}

=== FILE: routes.dfy ===
/**
 * The paths the client navigates between, and the home screen each role is
 * sent to: managers to the dashboard, everyone else to the table overview.
 */
module Routes {
  import opened Text

  const LOGIN_PATH := "/login"
  const ADMIN_HOME := "/admin/dashboard"
  const OPERATIONAL_HOME := "/operational/overview"
  const ADMIN_PREFIX := "/admin"
  const OPERATIONAL_PREFIX := "/operational"

  /** `isManager ? "/admin/dashboard" : "/operational/overview"` */
  function HomeFor(isManager: bool): (path: string)
    ensures isManager ==> StartsWith(path, ADMIN_PREFIX)
    ensures !isManager ==> StartsWith(path, OPERATIONAL_PREFIX)
  {
    if isManager then ADMIN_HOME else OPERATIONAL_HOME
  }

  /** The three prefixes the access rules look at exclude each other. */
  lemma {:induction false} PrefixesDisjoint(path: string)
    ensures !(StartsWith(path, LOGIN_PATH) && StartsWith(path, ADMIN_PREFIX))
    ensures !(StartsWith(path, LOGIN_PATH) && StartsWith(path, OPERATIONAL_PREFIX))
    ensures !(StartsWith(path, ADMIN_PREFIX) && StartsWith(path, OPERATIONAL_PREFIX))
  {
    if StartsWith(path, LOGIN_PATH) {
      assert path[1] == LOGIN_PATH[1];
    }
    if StartsWith(path, ADMIN_PREFIX) {
      assert path[1] == ADMIN_PREFIX[1];
    }
  }
}

=== FILE: storage.dfy ===
/**
 * The `localStorage` wrapper of src/lib/storage.ts.  The browser's storage
 * is an object holding a string-to-string map; where the page runs without
 * one (server rendering) the reference is null and every read yields null
 * while every write does nothing.
 */
module Storage {
  import opened Wrappers
  import opened Domain

  const TOKEN_KEY := "wf3_token"
  const USER_KEY := "wf3_user"

  /** The browser's key-value store, updated in place by `setItem` and `removeItem`. */
  class LocalStorage {
    var items: map<string, string>

    constructor (initial: map<string, string>)
      ensures items == initial
    {
      items := initial;
    }
  }

  /** `ls?.getItem(key) ?? null` */
  function Read(ls: LocalStorage?, key: string): Option<string>
    reads ls
  {
    if ls != null && key in ls.items then Some(ls.items[key]) else None
  }

  /** The same read on a plain map, for stating what a sequence of writes leaves behind. */
  function Get(m: map<string, string>, key: string): Option<string> {
    if key in m then Some(m[key]) else None
  }

  /**
   * How a user record is written to storage and read back: `JSON.stringify`
   * and `JSON.parse`.  `decode` gives `None` for text that is not JSON or
   * parses to a falsy value.
   */
  datatype UserCodec = UserCodec(encode: AuthUser -> string, decode: string -> Option<AuthUser>)

  /** Serialisation round-trips and never yields the empty text. */
  ghost predicate RoundTrips(codec: UserCodec) {
    forall u :: codec.decode(codec.encode(u)) == Some(u) && codec.encode(u) != []
  }

  /** `getToken`: the stored token, or null without storage or without the key. */
  function GetToken(ls: LocalStorage?): (r: Option<string>)
    reads ls
    ensures ls == null ==> r.None?
    ensures ls != null ==> r == Get(ls.items, TOKEN_KEY)
  {
    Read(ls, TOKEN_KEY)
  }

  /** `getUser` on a map: null for a missing or empty entry, otherwise what parsing gives. */
  function UserIn(m: map<string, string>, codec: UserCodec): (r: Option<AuthUser>)
    ensures USER_KEY !in m ==> r.None?
    ensures USER_KEY in m && m[USER_KEY] == [] ==> r.None?
    ensures USER_KEY in m && m[USER_KEY] != [] ==> r == codec.decode(m[USER_KEY])
  {
    if USER_KEY !in m then None
    else
      var raw := m[USER_KEY];
      if raw == [] then None else codec.decode(raw)
  }

  /** `getUser`: null without storage, otherwise the user parsed from the stored entry. */
  function GetUser(ls: LocalStorage?, codec: UserCodec): (r: Option<AuthUser>)
    reads ls
    ensures ls == null ==> r.None?
    ensures ls != null ==> r == UserIn(ls.items, codec)
  {
    if ls == null then None else UserIn(ls.items, codec)
  }

  /** The map after `setAuth(user, token)`: the user entry, then the token entry. */
  function WithAuth(m: map<string, string>, user: AuthUser, token: string, codec: UserCodec): map<string, string> {
    m[USER_KEY := codec.encode(user)][TOKEN_KEY := token]
  }

  /** The map after `clearAuth()`: both entries removed. */
  function WithoutAuth(m: map<string, string>): map<string, string> {
    m - {TOKEN_KEY, USER_KEY}
  }

  method SetToken(ls: LocalStorage?, token: string)
    modifies ls
    ensures ls != null ==> ls.items == old(ls.items)[TOKEN_KEY := token]
  {
    if ls == null { return; }
    ls.items := ls.items[TOKEN_KEY := token];
  }

  method SetUser(ls: LocalStorage?, user: AuthUser, codec: UserCodec)
    modifies ls
    ensures ls != null ==> ls.items == old(ls.items)[USER_KEY := codec.encode(user)]
  {
    if ls == null { return; }
    ls.items := ls.items[USER_KEY := codec.encode(user)];
  }

  /** `setAuth`: writes the user key and the token key (the role cookies are not modelled). */
  method SetAuth(ls: LocalStorage?, user: AuthUser, token: string, codec: UserCodec)
    modifies ls
    ensures ls != null ==> ls.items == WithAuth(old(ls.items), user, token, codec)
  {
    SetUser(ls, user, codec);
    SetToken(ls, token);
  }

  /** `clearAuth`: removes the token and user keys. */
  method ClearAuth(ls: LocalStorage?)
    modifies ls
    ensures ls != null ==> ls.items == WithoutAuth(old(ls.items))
  {
    if ls != null {
      ls.items := ls.items - {TOKEN_KEY};
      ls.items := ls.items - {USER_KEY};
    }
  }

  /** After `setToken(t)`, `getToken()` gives `t` back. */
  lemma TokenRoundTrip(m: map<string, string>, token: string)
    ensures Get(m[TOKEN_KEY := token], TOKEN_KEY) == Some(token)
  {
  }

  /** After `setAuth`, both reads give back what was written, and every other key is as it was. */
  lemma {:induction false} SetAuthThenRead(m: map<string, string>, user: AuthUser, token: string, codec: UserCodec)
    requires RoundTrips(codec)
    ensures Get(WithAuth(m, user, token, codec), TOKEN_KEY) == Some(token)
    ensures UserIn(WithAuth(m, user, token, codec), codec) == Some(user)
    ensures forall k :: k != TOKEN_KEY && k != USER_KEY ==> Get(WithAuth(m, user, token, codec), k) == Get(m, k)
  {
    var m' := WithAuth(m, user, token, codec);
    assert m'[USER_KEY] == codec.encode(user);
    assert codec.decode(codec.encode(user)) == Some(user) && codec.encode(user) != [];
  }

  /** After `clearAuth`, both reads give null and every other key is as it was. */
  lemma ClearAuthThenRead(m: map<string, string>, codec: UserCodec)
    ensures Get(WithoutAuth(m), TOKEN_KEY).None?
    ensures UserIn(WithoutAuth(m), codec).None?
    ensures forall k :: k != TOKEN_KEY && k != USER_KEY ==> Get(WithoutAuth(m), k) == Get(m, k)
  {
  }
}

=== FILE: text.dfy ===
/**
 * The string primitives the client relies on: `String.prototype.trim`,
 * `toLowerCase`, `includes` and `startsWith`, and the trimmed,
 * case-insensitive search filter that every list screen builds from them.
 */
module Text {

  /** ECMAScript WhiteSpace and LineTerminator code points, the set `trim` removes. */
  predicate IsSpace(c: char) {
    var n := c as int;
    n == 0x09 || n == 0x0A || n == 0x0B || n == 0x0C || n == 0x0D || n == 0x20 ||
    n == 0xA0 || n == 0x1680 || (0x2000 <= n <= 0x200A) || n == 0x2028 || n == 0x2029 ||
    n == 0x202F || n == 0x205F || n == 0x3000 || n == 0xFEFF
  }

  /** Drops leading white space. */
  function TrimStart(s: string): (r: string)
    ensures |r| <= |s| && r == s[|s| - |r|..]
    ensures r == [] || !IsSpace(r[0])
    ensures forall i :: 0 <= i < |s| - |r| ==> IsSpace(s[i])
    decreases |s|
  {
    if |s| > 0 && IsSpace(s[0]) then TrimStart(s[1..]) else s
  }

  /** Drops trailing white space. */
  function TrimEnd(s: string): (r: string)
    ensures |r| <= |s| && r == s[..|r|]
    ensures r == [] || !IsSpace(r[|r| - 1])
    ensures forall i :: |r| <= i < |s| ==> IsSpace(s[i])
    decreases |s|
  {
    if |s| > 0 && IsSpace(s[|s| - 1]) then TrimEnd(s[..|s| - 1]) else s
  }

  /** `r` sits at index `a` of `s` with only white space before and after it. */
  predicate EdgesAreSpace(s: string, r: string, a: int) {
    OccursAt(s, r, a) &&
    (forall i :: 0 <= i < a ==> IsSpace(s[i])) &&
    (forall i :: a + |r| <= i < |s| ==> IsSpace(s[i]))
  }

  /** `s.trim()`: `s` without its leading and trailing white space. */
  function Trim(s: string): (r: string)
    ensures exists a :: EdgesAreSpace(s, r, a)
    ensures r == [] || (!IsSpace(r[0]) && !IsSpace(r[|r| - 1]))
  {
    TrimEdges(s);
    TrimEnd(TrimStart(s))
  }

  /** Trimming the start, then the end, leaves white space only around what remains. */
  lemma TrimEdges(s: string)
    ensures EdgesAreSpace(s, TrimEnd(TrimStart(s)), |s| - |TrimStart(s)|)
  {
    var t := TrimStart(s);
    var r := TrimEnd(t);
    var a := |s| - |t|;
    assert OccursAt(s, r, a);
    forall i | a + |r| <= i < |s| ensures IsSpace(s[i]) {
      assert s[i] == t[i - a];
    }
  }

  /** A character of `s` that is not white space lies inside any infix with only white space around it. */
  lemma NonSpaceInside(s: string, r: string, a: int, k: int)
    requires EdgesAreSpace(s, r, a) && 0 <= k < |s| && !IsSpace(s[k])
    ensures a <= k < a + |r|
  {
  }

  /** An infix that neither starts nor ends with white space. */
  predicate SpaceFreeEdges(r: string) {
    r == [] || (!IsSpace(r[0]) && !IsSpace(r[|r| - 1]))
  }

  /** Two infixes with only white space around them and none at their edges are equal. */
  lemma {:induction false} EdgesUnique(s: string, r: string, a: int, t: string, b: int)
    requires EdgesAreSpace(s, r, a) && SpaceFreeEdges(r)
    requires EdgesAreSpace(s, t, b) && SpaceFreeEdges(t)
    ensures r == t
  {
    if r != [] {
      assert s[a] == r[0] && s[a + |r| - 1] == r[|r| - 1];
      NonSpaceInside(s, t, b, a);
      NonSpaceInside(s, t, b, a + |r| - 1);
    }
    if t != [] {
      assert s[b] == t[0] && s[b + |t| - 1] == t[|t| - 1];
      NonSpaceInside(s, r, a, b);
      NonSpaceInside(s, r, a, b + |t| - 1);
    }
    if r != [] && t != [] {
      assert a == b && |r| == |t|;
      assert r == s[a..a + |r|] == t;
    }
  }

  /**
   * The two clauses of `Trim` pin its result: any infix with only white
   * space around it that neither starts nor ends with white space is the trim.
   */
  lemma TrimUnique(s: string, r: string, a: int)
    requires EdgesAreSpace(s, r, a)
    requires r == [] || (!IsSpace(r[0]) && !IsSpace(r[|r| - 1]))
    ensures r == Trim(s)
  {
    var t := Trim(s);
    var b :| EdgesAreSpace(s, t, b);
    EdgesUnique(s, r, a, t, b);
  }

  /** `!s.trim()`: the string is empty or white space only. */
  predicate IsBlank(s: string) {
    Trim(s) == []
  }

  lemma {:induction false} TrimStartAllSpace(s: string)
    ensures TrimStart(s) == [] <==> forall i :: 0 <= i < |s| ==> IsSpace(s[i])
    decreases |s|
  {
    if |s| > 0 && IsSpace(s[0]) {
      TrimStartAllSpace(s[1..]);
      if forall i :: 0 <= i < |s| - 1 ==> IsSpace(s[1..][i]) {
        forall i | 0 <= i < |s| ensures IsSpace(s[i]) {
          if i > 0 { assert s[i] == s[1..][i - 1]; }
        }
      }
    }
  }

  /** A string is blank exactly when every character of it is white space. */
  lemma {:induction false} BlankIffAllSpace(s: string)
    ensures IsBlank(s) <==> forall i :: 0 <= i < |s| ==> IsSpace(s[i])
  {
    TrimStartAllSpace(s);
    var t := TrimStart(s);
    if t != [] {
      assert !IsSpace(t[0]);
      assert TrimEnd(t) != [];
    }
  }

  /** Trimming a trimmed string changes nothing. */
  lemma TrimIdempotent(s: string)
    ensures Trim(Trim(s)) == Trim(s)
  {
    var r := Trim(s);
    if r != [] {
      assert TrimStart(r) == r;
      assert TrimEnd(r) == r;
    }
  }

  /** `toLowerCase` on one character: ASCII and Latin-1 capitals map to their small letters. */
  function LowerChar(c: char): (d: char)
    ensures IsSpace(c) <==> IsSpace(d)
  {
    var n := c as int;
    if (0x41 <= n <= 0x5A) || (0xC0 <= n <= 0xDE && n != 0xD7) then (n + 32) as char else c
  }

  /** `s.toLowerCase()`, character by character. */
  function Lower(s: string): (r: string)
    ensures |r| == |s|
    ensures forall i :: 0 <= i < |s| ==> r[i] == LowerChar(s[i])
  {
    seq(|s|, i requires 0 <= i < |s| => LowerChar(s[i]))
  }

  predicate StartsWith(s: string, prefix: string) {
    |prefix| <= |s| && s[..|prefix|] == prefix
  }

  /** An occurrence of `q` in `s` at index `i`. */
  predicate OccursAt(s: string, q: string, i: int) {
    0 <= i && i + |q| <= |s| && s[i..i + |q|] == q
  }

  /** `s.includes(q)`: some index of `s` starts an occurrence of `q`. */
  function Contains(s: string, q: string): (b: bool)
    ensures b <==> exists i :: OccursAt(s, q, i)
    decreases |s|
  {
    if StartsWith(s, q) then
      assert OccursAt(s, q, 0);
      true
    else if |s| == 0 then
      false
    else
      var rest := Contains(s[1..], q);
      ShiftOccurrence(s, q);
      rest
  }

  /** An occurrence in `s` past the first character is an occurrence in `s[1..]`, and back. */
  lemma ShiftOccurrence(s: string, q: string)
    requires |s| > 0 && !StartsWith(s, q)
    ensures (exists i :: OccursAt(s, q, i)) <==> (exists j :: OccursAt(s[1..], q, j))
  {
    if exists i :: OccursAt(s, q, i) {
      var i :| OccursAt(s, q, i);
      assert i != 0;
      assert s[1..][i - 1..i - 1 + |q|] == s[i..i + |q|];
      assert OccursAt(s[1..], q, i - 1);
    }
    if exists j :: OccursAt(s[1..], q, j) {
      var j :| OccursAt(s[1..], q, j);
      assert s[1..][j..j + |q|] == s[j + 1..j + 1 + |q|];
      assert OccursAt(s, q, j + 1);
    }
  }

  /** The empty string occurs in every string, as `"abc".includes("")` is true. */
  lemma ContainsEmpty(s: string)
    ensures Contains(s, [])
  {
    assert OccursAt(s, [], 0);
  }

  /**
   * The search filter shared by the list screens: a blank query keeps every
   * row, otherwise the trimmed query, lower-cased, must occur in the
   * lower-cased name.
   */
  predicate MatchesQuery(name: string, query: string) {
    var qq := Lower(Trim(query));
    if qq == [] then true else Contains(Lower(name), qq)
  }

  /** The blank-query guard of the filter is redundant: the empty needle always occurs. */
  lemma {:induction false} MatchesQueryIsContains(name: string, query: string)
    ensures MatchesQuery(name, query) == Contains(Lower(name), Lower(Trim(query)))
  {
    if Lower(Trim(query)) == [] {
      ContainsEmpty(Lower(name));
    }
  }

  /** A blank query keeps every row. */
  lemma BlankQueryMatchesAll(name: string, query: string)
    requires IsBlank(query)
    ensures MatchesQuery(name, query)
  {
  }

  /** A name that is already trimmed is found by a query equal to it. */
  lemma {:induction false} TrimmedNameMatchesItself(name: string)
    requires name != [] && !IsSpace(name[0]) && !IsSpace(name[|name| - 1])
    ensures MatchesQuery(name, name)
  {
    assert TrimStart(name) == name;
    assert TrimEnd(name) == name;
    assert Trim(name) == name;
    assert OccursAt(Lower(name), Lower(name), 0);
  }

  lemma LowerIdempotent(s: string)
    ensures Lower(Lower(s)) == Lower(s)
  {
  }

  /** The filter ignores the case of the name: lower-casing it first changes nothing. */
  lemma {:induction false} MatchIgnoresNameCase(name: string, query: string)
    ensures MatchesQuery(Lower(name), query) == MatchesQuery(name, query)
  {
    LowerIdempotent(name);
  }

  /** The character of one decimal digit. */
  function DigitChar(d: nat): (c: char)
    requires d < 10
    ensures '0' <= c <= '9'
    ensures DigitValue(c) == d
  {
    ('0' as int + d) as char
  }

  /** The value of a decimal digit character. */
  function DigitValue(c: char): int {
    c as int - '0' as int
  }

  predicate AllDigits(s: string) {
    forall i :: 0 <= i < |s| ==> '0' <= s[i] <= '9'
  }

  /** `String(n)` for a non-negative integer: its decimal digits, most significant first. */
  function Decimal(n: nat): (r: string)
    ensures r != [] && AllDigits(r)
    ensures n > 0 ==> r[0] != '0'
    decreases n
  {
    if n < 10 then [DigitChar(n)] else Decimal(n / 10) + [DigitChar(n % 10)]
  }

  /** The number a string of decimal digits denotes. */
  function DecimalValue(s: string): int
    decreases |s|
  {
    if s == [] then 0 else DecimalValue(s[..|s| - 1]) * 10 + DigitValue(s[|s| - 1])
  }

  /** Reading back the digits `Decimal` writes gives the number again. */
  lemma {:induction false} DecimalRoundTrip(n: nat)
    ensures DecimalValue(Decimal(n)) == n
    decreases n
  {
    var r := Decimal(n);
    if n < 10 {
      assert r[..|r| - 1] == [];
    } else {
      DecimalRoundTrip(n / 10);
      assert r[..|r| - 1] == Decimal(n / 10);
    }
  }

  /** `String(n)` for any integer: a minus sign before the digits of a negative number. */
  function IntText(n: int): (r: string)
    ensures r != []
    ensures n >= 0 ==> r == Decimal(n)
    ensures n < 0 ==> r == "-" + Decimal(-n)
  {
    if n >= 0 then Decimal(n) else "-" + Decimal(-n)
  }

  /** The text of an integer has no white space at either end, so trimming keeps it. */
  lemma IntTextIsTrimmed(n: int)
    ensures Trim(IntText(n)) == IntText(n)
  {
    var r := IntText(n);
    assert !IsSpace(r[0]) by {
      if n >= 0 { assert '0' <= r[0] <= '9'; }
    }
    assert !IsSpace(r[|r| - 1]) by {
      var d := Decimal(if n >= 0 then n else -n);
      assert r[|r| - 1] == d[|d| - 1];
      assert '0' <= d[|d| - 1] <= '9';
    }
    assert TrimStart(r) == r;
    assert TrimEnd(r) == r;
  }
}

=== FILE: ui.dfy ===
/**
 * The toast queue of src/store/ui.ts.  Toast ids come from the clock and a
 * random number in the source; here the caller passes them in.
 */
module Ui {
  import opened Wrappers
  import opened Lists

  datatype ToastType = SuccessToast | ErrorToast | InfoToast

  /** What a caller asks for: everything but the id. */
  datatype ToastInput = ToastInput(kind: ToastType, title: string, message: Option<string>, ttlMs: nat)

  datatype Toast = Toast(id: string, kind: ToastType, title: string, message: Option<string>, ttlMs: nat)

  const SUCCESS_TTL_MS: nat := 2800
  const ERROR_TTL_MS: nat := 3400
  const INFO_TTL_MS: nat := 2800

  /** `toast.success(title, message)` */
  function Success(title: string, message: Option<string>): (t: ToastInput)
    ensures t.kind == SuccessToast && t.ttlMs == SUCCESS_TTL_MS && t.title == title && t.message == message
  {
    ToastInput(SuccessToast, title, message, SUCCESS_TTL_MS)
  }

  /** `toast.error(title, message)` */
  function Error(title: string, message: Option<string>): (t: ToastInput)
    ensures t.kind == ErrorToast && t.ttlMs == ERROR_TTL_MS && t.title == title && t.message == message
  {
    ToastInput(ErrorToast, title, message, ERROR_TTL_MS)
  }

  /** `toast.info(title, message)` */
  function Info(title: string, message: Option<string>): (t: ToastInput)
    ensures t.kind == InfoToast && t.ttlMs == INFO_TTL_MS && t.title == title && t.message == message
  {
    ToastInput(InfoToast, title, message, INFO_TTL_MS)
  }

  function WithId(t: ToastInput, id: string): Toast {
    Toast(id, t.kind, t.title, t.message, t.ttlMs)
  }

  /** `toasts.filter(t => t.id !== id)` */
  function WithoutId(ts: seq<Toast>, id: string): seq<Toast> {
    Filter(ts, (t: Toast) => t.id != id)
  }

  /**
   * Removing an id drops exactly the toasts carrying it and keeps the rest in
   * order; an id no toast carries leaves the queue unchanged.
   */
  lemma RemoveKeepsOthersInOrder(ts: seq<Toast>, id: string)
    ensures forall t :: t in WithoutId(ts, id) <==> t in ts && t.id != id
    ensures IsSubsequence(WithoutId(ts, id), ts)
    ensures (forall i :: 0 <= i < |ts| ==> ts[i].id != id) ==> WithoutId(ts, id) == ts
  {
  }

  class ToastStore {
    var toasts: seq<Toast>

    /** The queue starts empty. */
    constructor ()
      ensures toasts == []
    {
      toasts := [];
    }

    /** `pushToast`: appends one toast, with the given id, after the existing ones. */
    method PushToast(t: ToastInput, id: string)
      modifies this
      ensures toasts == old(toasts) + [WithId(t, id)]
    {
      toasts := toasts + [WithId(t, id)];
    }

    /** `removeToast`: drops every toast carrying that id. */
    method RemoveToast(id: string)
      modifies this
      ensures toasts == WithoutId(old(toasts), id)
    {
      toasts := WithoutId(toasts, id);
    }
  }

  /** Pushing a toast under a fresh id and then removing that id restores the queue. */
  lemma {:induction false} PushThenRemove(ts: seq<Toast>, t: ToastInput, id: string)
    requires forall i :: 0 <= i < |ts| ==> ts[i].id != id
    ensures WithoutId(ts + [WithId(t, id)], id) == ts
    decreases |ts|
  {
    if ts == [] {
      assert [WithId(t, id)][1..] == [];
    } else {
      assert (ts + [WithId(t, id)])[1..] == ts[1..] + [WithId(t, id)];
      PushThenRemove(ts[1..], t, id);
      assert WithoutId(ts + [WithId(t, id)], id) == [ts[0]] + WithoutId(ts[1..] + [WithId(t, id)], id);
    }
  }
}

=== FILE: wrappers.dfy ===
/** The optional value used wherever the source has `T | null` or `T | undefined`. */
module Wrappers {

  datatype Option<+T> = None | Some(value: T) {

    /** `x ?? default` */
    function GetOr(default: T): T {
      match this
      case Some(v) => v
      case None => default
    }
  }
}
